=== FILE: README.md ===
# wppsvr core in Dafny

wppsvr runs the weekly packet-radio practice of a county ARES/RACES group.
For each practice session it periodically polls the session's mailboxes on a
set of BBSes. It answers and deletes each check-in message it finds, and it
opens and closes sessions on schedule. When a session closes, it sends the
end-of-session report. All state lives in an SQLite database.

This project models the rules at the core of that program and proves them:

- **Polling** (`Retrieve`): when a retrieval of a session is due, given
  the session's cadence and the time of its last run. It also covers
  what polling one BBS does (read, answer, delete, commit, and record the
  responses to save) and when the last-run time is recorded.
- **Session lifecycle** (`Lifecycle`): `openSessions` and `closeSessions`
  as transitions of the running flag over the session table.
  `closeSessions` also sends the report when there are recipients or
  stored messages.
- **Transactions** (`Tx`): the begin/retry loop with exponential backoff
  and its 30-second limit.
- **The store** (`SessionStore`, `MessageStore`, `ResponseStore`,
  `LoginStore`, `MessageIds`): the database tables become sequences of
  rows. The model covers each query and write of the store package: range
  queries with their ordering, insert-or-replace, replacement of a
  session's retrievals, purging of expired logins, and the per-prefix
  message-number counter. It also covers the `;`-joined list codec
  (`ListCodec`) and the precision at which timestamps are stored (`Clock`).
- **The statement cursor** (`Statement`): binding parameters and reading
  columns, with the mapping between zero values and NULL.
- **Two pure functions**: the recommended handling order of a form
  (`HandlingOrder`). The second is the report's HTML layout decisions
  (`ReportHtml`), which are block omission, score classes, the link rule
  and the jurisdiction columns.

Conventions:

- **Time**: an instant is an `int` count of nanoseconds since Go's zero
  time.
- **Flags**: a session's flags are a `bv8`.
- **Panics**: a Go `panic` is the `Fatal` outcome. No state is carried
  past it.
- **Environment**: everything the program gets from outside becomes a
  parameter. That includes the clock, the cadence matcher, the BBS
  connection and its answers, the outcome of beginning a transaction, and
  the analysis of a message.
- **Records of a pass**: the polling entry points (`ForSession`,
  `ForRunningSessions`) also return the polls they made and the sessions
  as saved. The Go functions return nothing; these outputs only name what
  happened, so that the contracts can state it.

Where the program's documentation and its code differ, the model follows
the code:

- **Begin errors are retried.** `Transaction` retries a failed begin even
  when the error is not busy/locked. `attemptTransaction` reports
  `ran = false` for every begin failure, and only the 30-second limit
  ends the loop (db/tx.go:23-33, 44-47).
- **Read transactions always run.** A read-only transaction cannot fail
  to begin, because `sqlitex.Transaction` reports no error
  (db/tx.go:41-42).
- **Only stored sessions exist.** Sessions are only the rows of the
  `session` table. The code modelled here holds no configuration-defined
  sessions, although store/session.go:3-9 describes them.

A behaviour of the code worth knowing: the `break` in
`ComputeRecommendedHandlingOrder` sits after the inner `switch`, so it
leaves the `for` loop. Only the first field with the label is looked at,
and a later field with the same label never decides the order
(config/msgtypes.go:23, 37). The model does the same.

## Model

| member | source | states |
|---|---|---|
| Clock.Truncate | retrieve/retrieve.go:25-28 | Truncating to a duration gives an instant no later than the original and less than one duration before it. |
| Clock.TruncateMultiple | retrieve/retrieve.go:25-28 | The truncated instant is the instant rounded down to a multiple of the duration. |
| Clock.Stored | db/st.go:118-125 | A timestamp written with a whole-second layout reads back rounded down to the second. A nanosecond layout keeps it exactly, and the zero time stays zero. |
| Clock.StoredIdempotent | db/st.go:118-125 | Storing an already stored timestamp does not change it. |
| ListCodec.SplitAll | store/store.go:39 | `strings.Split` on ";" yields one more piece than there are separators, and no piece contains a separator. |
| ListCodec.Split | store/store.go:35-40 | `split` is empty exactly for the empty string. Otherwise it has one more element than the separators, and no element contains ";". |
| ListCodec.JoinSplit | store/store.go:35-40 | Joining what `split` returns gives back the original string, for every string. |
| ListCodec.JoinSplitAll | store/store.go:39 | Joining the pieces of `strings.Split` gives the original string. |
| ListCodec.SplitAllJoin | store/session.go:177-181 | Splitting a joined non-empty list whose elements hold no ";" gives the list back. |
| ListCodec.SplitJoin | store/session.go:132-136 | A list stored joined and read back through `split` is unchanged when no element holds ";" and it is not `[""]`. |
| ListCodec.EmptyElementIsLost | store/store.go:36-38 | The one-element list `[""]` reads back as the empty list. |
| Ordering.TextLeTotal | store/session.go:107 | Ordering by text compares any two call signs. |
| Ordering.TextLeTransitive | store/session.go:107 | The text ordering is transitive. |
| Ordering.TextLeAntisymmetric | store/response.go:25 | Two identifiers ordered both ways are equal. |
| Ordering.Insert | store/session.go:107 | Inserting a row into an ordered result adds exactly that row. |
| Ordering.SortBy | store/session.go:107 | `ORDER BY` returns a permutation of the selected rows. |
| Ordering.InsertSorted | store/session.go:107 | Inserting into a sorted result keeps it sorted under a total preorder. |
| Ordering.SortBySorted | store/session.go:107 | The `ORDER BY` result is sorted by its key. |
| Ordering.Filter | store/session.go:114 | A `WHERE` clause keeps exactly the rows satisfying it, each at most as often as in the table. |
| Ordering.FilterCount | store/session.go:114 | A `WHERE` clause keeps a row as often as the table holds it when the row satisfies the clause, and drops it otherwise. |
| Statement.Bind | db/st.go:84-88 | Binding advances the position by one and binds exactly that parameter, leaving the others and the row alone. |
| Statement.BindNull | db/st.go:137-141 | Binds NULL at the next position. |
| Statement.BindInt | db/st.go:84-88 | Binds the integer at the next position. |
| Statement.BindNullInt | db/st.go:90-98 | Advances by one and binds NULL exactly for 0, the integer otherwise. |
| Statement.BindText | db/st.go:100-104 | Binds the text at the next position. |
| Statement.BindNullText | db/st.go:106-114 | Advances by one and binds NULL exactly for "", the text otherwise. |
| Statement.BindBool | db/st.go:52-56 | Binds a bool as the integer 1 or 0 at the next position. |
| Statement.BindNullBool | db/st.go:58-66 | Advances by one and binds NULL exactly for false. |
| Statement.BindBlob | db/st.go:36-40 | Binds the bytes at the next position. |
| Statement.BindNullBlob | db/st.go:42-50 | Binds NULL only for a nil slice; an empty non-nil slice is a blob. |
| Statement.BindTime | db/st.go:116-125 | Binds "" for the zero time and otherwise the time at the layout's precision, advancing by one. |
| Statement.BindNullTime | db/st.go:127-135 | Binds NULL exactly for the zero time and otherwise the time at the layout's precision. |
| Statement.Step | db/st.go:143-153 | Moving to the next row resets the cursor to 0, keeps the bindings and reports whether a row came. |
| Statement.Reset | db/st.go:230-238 | Resetting puts the cursor back to 0 and keeps the bound parameters. |
| Statement.ColumnInt | db/st.go:186-194 | Reads the integer in the column, 0 for NULL, and advances by one. |
| Statement.ColumnText | db/st.go:196-204 | Reads the text in the column, "" for NULL, and advances by one. |
| Statement.ColumnBool | db/st.go:166-174 | Reads true for a non-zero integer and false for NULL, and advances by one. |
| Statement.ColumnBlob | db/st.go:155-164 | Reads nil exactly for NULL and the stored bytes for a blob, and advances by one. |
| Statement.ColumnTime | db/st.go:206-222 | Reads the column as text: NULL, "" and an empty blob read as the zero time and a stored timestamp as itself, advancing by one. It panics exactly on non-empty text that is not a timestamp, an integer, or a non-empty blob. |
| Statement.IntRoundTrip | db/st.go:90-98 | An integer bound with `BindNullInt` or `BindInt` reads back as itself; 0 travels as NULL. |
| Statement.TextRoundTrip | db/st.go:106-114 | A text bound with `BindNullText` or `BindText` reads back as itself; "" travels as NULL. |
| Statement.BoolRoundTrip | db/st.go:58-66 | A bool bound either way reads back as itself. |
| Statement.BlobRoundTrip | db/st.go:42-50 | A blob bound with `BindNullBlob` reads back as itself, nil as nil. |
| Statement.TimeRoundTrip | db/st.go:118-125 | A timestamp reads back at its layout's precision, and the zero time reads back as zero whether it travelled as "" or as NULL. |
| SessionFlags.FlagBits | store/session.go:60-68 | The seven session flags are the bits 1 << 0 … 1 << 6 in order, pairwise disjoint, with Running = 1. |
| SessionStore.RowRoundTrip | store/session.go:126-186 | Decoding the row bound for a session with storable lists gives the session back under the row's id, with start and end at whole seconds and the table's retrievals for that id. |
| SessionStore.EncodeRetrievals | store/session.go:190-198 | One retrieval row per retrieval, each carrying the session's id. |
| SessionStore.RetrievalsOf | store/session.go:151-159 | Reads at most one retrieval per retrieval row, and none when no row belongs to the session. |
| SessionStore.RetrievalsOfExactly | store/session.go:151-159 | Every retrieval read comes from a row of the session, and every row of the session is read. |
| SessionStore.RunningRows | store/session.go:80 | Selecting `flags&1` keeps exactly the stored rows with the running bit: each selected row is a stored running row, every stored running row is selected, and none more often than the table holds it. |
| SessionStore.RunningRowsCount | store/session.go:80 | A row occurs in the selection as often as in the table when its running bit is set, and not at all otherwise. |
| SessionStore.GetRunningSessions | store/session.go:76-81 | Every returned session is running and is read from a stored row. |
| SessionStore.RunningSessionsExactly | store/session.go:76-81 | A session is returned exactly when it decodes a stored row whose running bit is set. |
| SessionStore.RunningSessionsOnce | store/session.go:76-81 | With unique ids, no session is returned twice. |
| SessionStore.RunningSessionsCount | store/session.go:76-81 | One session is returned per selected running row. |
| SessionStore.RowsEndingWithin | store/session.go:107 | Selects exactly the stored rows whose stored end lies in [start, end) at stored precision: every such row is selected, no other, and none more often than the table holds it. |
| SessionStore.RowsEndingWithinCount | store/session.go:107 | A row occurs in the selection as often as in the table when it ends within the window, and not at all otherwise. |
| SessionStore.EndThenCallSignIsTotalPreorder | store/session.go:107 | Ordering by end, then call sign, is a total preorder. |
| SessionStore.GetSessions | store/session.go:103-108 | Every returned session ends within [start, end), comes from a stored row, and they are ordered by end, then call sign. |
| SessionStore.GetSessionsComplete | store/session.go:106-108 | Every stored session ending within the window is returned. |
| SessionStore.SessionsEndingWithinExactly | store/session.go:106-108 | A session is returned exactly when it decodes a stored row ending within the window. |
| SessionStore.GetSessionsOnce | store/session.go:103-108 | With unique ids, no session is returned twice. |
| SessionStore.GetSessionsCount | store/session.go:106-108 | One session is returned per stored row ending within the window. |
| SessionStore.ExistSessions | store/session.go:85-92 | Holds exactly when `GetSessions` over the same window returns some session. |
| SessionStore.FindRow | store/session.go:97 | Finds a row with the id exactly when one exists. |
| SessionStore.GetSession | store/session.go:96-101 | Returns nil exactly when no stored session has the id, and otherwise a session with that id. |
| SessionStore.MaxId | store/session.go:189 | No stored id exceeds the maximum. |
| SessionStore.NewId | store/session.go:189 | The row id assigned on insert is positive and not already in use. |
| SessionStore.CreateSession | store/session.go:169-201 | Creating appends one row under a fresh id with the session's retrievals. The returned session is the input with only its id assigned. |
| SessionStore.ReplaceRow | store/session.go:211-229 | The update overwrites exactly the row with the session's id. |
| SessionStore.DropRetrievals | store/session.go:230-233 | Deleting a session's retrievals keeps only rows of other sessions. |
| SessionStore.UpdateSession | store/session.go:204-245 | Id 0 delegates to `CreateSession`. Otherwise the row with that id is overwritten. It panics exactly when no such row exists and there are retrievals to insert. |
| SessionStore.DropRow | store/session.go:250 | Deleting keeps only rows with other ids. |
| SessionStore.DeleteSession | store/session.go:248-256 | After deleting, no row and no retrieval of that session remains, and every remaining row was there before. |
| SessionStore.NoRetrievalsAfterDrop | store/session.go:230-233 | After the delete, no retrieval row of the session is left. |
| SessionStore.RetrievalsOfEncoded | store/session.go:190-198 | The inserted retrieval rows read back as the session's retrievals. |
| SessionStore.StoredRetrievals | store/session.go:230-242 | After a successful update, the stored retrievals of the session are exactly its `Retrieve` list. |
| SessionStore.ReadAfterWrite | store/session.go:204-245 | After a successful update, `GetSession` returns the written session as the store keeps it. |
| SessionStore.ReloadedStorable | store/session.go:132-136 | A session whose lists survive the codec reads back with only start and end rounded to the second. |
| SessionStore.Materialize | store/session.go:205-208 | Updating an unsaved session always succeeds, adds exactly one row under a fresh id, and reads back as the session with that id. |
| SessionStore.UpdateKeepsValid | store/session.go:204-245 | A successful update keeps ids positive and unique and every retrieval attached to a stored session. |
| SessionStore.DropRowKeeps | store/session.go:250 | Every row of another session survives a delete. |
| SessionStore.DeleteRemovesOnlyThatRow | store/session.go:248-256 | A row survives the delete exactly when its id differs. |
| SessionStore.DeleteKeepsValid | store/session.go:248-256 | Deleting keeps the table invariants. |
| MessageStore.Reloaded | store/message.go:140 | A saved message keeps its id, hash and session. |
| MessageStore.Unclashing | store/message.go:137 | `INSERT OR REPLACE` first removes exactly the rows that share the id or the hash: every kept row shares neither, every row sharing neither is kept, and none more often than stored. |
| MessageStore.SaveMessage | store/message.go:134-156 | The saved message is the last row, and every other row was already stored and clashes with it on neither key. |
| MessageStore.FindById | store/message.go:43-65 | Finds a message with the id exactly when one exists. |
| MessageStore.FindByHash | store/message.go:69-91 | Finds a message with the hash exactly when one exists. |
| MessageStore.GetMessage | store/message.go:41-65 | Returns nil exactly when no message has the id, and otherwise a stored message with that id. |
| MessageStore.GetMessageByHash | store/message.go:67-91 | Returns nil exactly when no message has the hash, and otherwise a stored message with that hash. |
| MessageStore.HasMessageHash | store/message.go:121-132 | Returns "" when no message has the hash, and otherwise the id of the message `GetMessageByHash` finds. |
| MessageStore.OfSession | store/message.go:96 | Selects only messages of the session. |
| MessageStore.OfSessionComplete | store/message.go:96 | Every message of the session is selected. |
| MessageStore.DeliveredNoLaterIsTotalPreorder | store/message.go:96 | Ordering by delivery time is a total preorder. |
| MessageStore.GetSessionMessages | store/message.go:93-119 | Returns only the session's stored messages, in ascending delivery time. |
| MessageStore.SessionMessagesComplete | store/message.go:93-119 | Every message of the session is returned. |
| MessageStore.OfSessionCount | store/message.go:96 | `WHERE session=?` keeps each of the session's messages as often as it is stored and drops every other message. |
| MessageStore.SessionMessagesCount | store/message.go:93-119 | Each of the session's messages is returned as often as it is stored; no other message is returned. |
| MessageStore.SessionHasMessages | store/message.go:31-39 | Holds exactly when `GetSessionMessages` of the session returns some message. |
| MessageStore.SaveKeepsValid | store/message.go:134-156 | Saving keeps ids and hashes unique. |
| MessageStore.UnclashingUnique | store/message.go:137 | Removing rows keeps keys unique. |
| MessageStore.SaveThenGet | store/message.go:134-156 | After saving, the message is found by its id and by its hash, and `HasMessageHash` returns its id. |
| MessageStore.DuplicateHashSuperseded | store/message.go:134-156 | Saving a second message with the same hash replaces the first: the hash finds the second, the first id is gone, and no other row has that hash. |
| ResponseStore.SaveResponse | store/response.go:45-60 | A plain insert: it panics exactly when the id is taken, and otherwise appends the response, send time kept to the nanosecond, without altering earlier rows. |
| ResponseStore.RespondingTo | store/response.go:25 | Selects only responses to the given message. |
| ResponseStore.RespondingToComplete | store/response.go:25 | Every response to the message is selected. |
| ResponseStore.IdNoGreaterIsTotalPreorder | store/response.go:25 | Ordering by id is a total preorder. |
| ResponseStore.GetResponses | store/response.go:24-42 | Returns only stored responses to the given message, ordered by id. |
| ResponseStore.GetResponsesComplete | store/response.go:24-42 | Every stored response to the message is returned. |
| ResponseStore.GetResponsesStrictlyOrdered | store/response.go:24-42 | With unique ids, the returned ids strictly increase. |
| ResponseStore.RespondingToUnique | store/response.go:25 | Selecting keeps ids unique. |
| ResponseStore.SaveThenGetResponses | store/response.go:45-60 | After saving, `GetResponses` of its message contains it, and every response returned before is still returned. |
| ResponseStore.SaveKeepsValid | store/response.go:45-60 | A successful save keeps ids unique. |
| LoginStore.Purge | store/login.go:15-21 | The purge keeps only stored logins whose expiry is not before now at whole-second precision. |
| LoginStore.PurgeKeepsLive | store/login.go:16 | Every login that has not expired survives the purge. |
| LoginStore.PurgeIdempotent | store/login.go:16-19 | A second purge with the same now removes nothing. |
| LoginStore.PurgeLaterIsSmaller | store/login.go:15-21 | Purging at one time and then a later one equals purging at the later time. |
| LoginStore.AddLogin | store/login.go:32-42 | Adds exactly one entry with the token and call sign, expiry kept to the second, leaving the others unchanged. |
| LoginStore.Lookup | store/login.go:22-27 | A non-empty result is the call sign of a login with the token. |
| LoginStore.GetLogin | store/login.go:14-29 | Purges first. A non-empty result is the call sign of an unexpired login with the token. |
| LoginStore.LookupLive | store/login.go:14-29 | Looking up after the purge finds only unexpired logins. |
| LoginStore.LookupFinds | store/login.go:22-27 | When all logins with the token share a call sign, the lookup returns it. |
| LoginStore.GetLoginFindsLive | store/login.go:14-29 | With one unexpired login for the token, `GetLogin` returns its call sign. |
| LoginStore.GetLoginRejectsExpired | store/login.go:14-29 | When every login with the token has expired, `GetLogin` returns "". |
| MessageIds.Digits | store/msgid.go:30 | A number prints as digits without leading zeros. |
| MessageIds.Pad | store/msgid.go:30 | Zero padding yields a digit string of at least the width. |
| MessageIds.Number | store/msgid.go:30 | `%03d` prints at least three characters, all digits exactly for non-negative numbers. |
| MessageIds.ValueOfDigits | store/msgid.go:30 | Printed digits read back as the number. |
| MessageIds.PadValue | store/msgid.go:30 | Padding keeps the value. |
| MessageIds.NumberRoundTrip | store/msgid.go:30 | `%03d` output parses back to the number, negative numbers included. |
| MessageIds.FormatId | store/msgid.go:30 | An id has at least five characters beyond its prefix. |
| MessageIds.FormatIdParses | store/msgid.go:30 | An id is the prefix, "-", a number field and "P". The field parses back to the number and is all digits exactly when the number is non-negative. |
| MessageIds.FormatIdInjective | store/msgid.go:30 | Two ids of one prefix are equal only when their numbers are. |
| MessageIds.NextNumber | store/msgid.go:15-22 | The first number for a prefix is 1, and each later one exceeds the stored counter. |
| MessageIds.NextMessageID | store/msgid.go:11-31 | Stores the new number for the prefix, leaves other prefixes alone, and returns prefix, "-", the padded number and "P". |
| MessageIds.IssueAll | store/msgid.go:11-31 | A run of calls issues one number and one id per call. |
| MessageIds.IssuedNumbers | store/msgid.go:15-28 | The reference for a run of calls gives one number per call. |
| MessageIds.IssueAllNumbers | store/msgid.go:11-31 | The numbers a run of `NextMessageID` calls issues are those of the reference: the stored counter plus one, or 1 for a new prefix, call after call. |
| MessageIds.NumbersAbove | store/msgid.go:17-21 | Each reference number exceeds the counter stored before the run, or is at least 1 for a new prefix. |
| MessageIds.NumbersIncreasing | store/msgid.go:15-28 | Reference numbers for one prefix strictly increase along the run. |
| MessageIds.IssuedFormatted | store/msgid.go:30 | Every id of a run is formatted from its prefix and number. |
| MessageIds.IssuedAbove | store/msgid.go:17-21 | Every number issued exceeds the counter stored before the run, or is at least 1 for a new prefix. |
| MessageIds.IssuedIncreasing | store/msgid.go:15-28 | Numbers issued for one prefix strictly increase. |
| MessageIds.IssuedDistinct | store/msgid.go:15-30 | No id repeats for one prefix. |
| MessageIds.FirstIdOfPrefix | store/msgid.go:19-30 | The first id of a prefix is prefix + "-001P". |
| Tx.BeginOutcome | db/tx.go:39-43 | A read transaction always begins. |
| Tx.AttemptTransaction | db/tx.go:36-52 | An attempt runs the body exactly when it began, and returns the body's error. A busy or locked begin gives no error, and any other begin failure gives an error; neither runs. |
| Tx.DelayBounds | db/tx.go:18-32 | Every delay is 8 ms times 2^k with k ≤ 7, between 8 ms and 1024 ms, and never decreases. |
| Tx.DelayClosedForm | db/tx.go:18-32 | The delay before attempt k+1 is 8 ms doubled k times up to seven doublings, and 1024 ms from then on. |
| Tx.Pow2Monotone | db/tx.go:31 | Doubling more often gives a larger delay. |
| Tx.SleptClosedForm | db/tx.go:29-32 | The time slept before attempt k is 8·(2^k − 1) ms up to k = 7, then 1016 ms plus 1024 ms per further attempt. |
| Tx.SleptDoubling | db/tx.go:29-32 | Up to seven attempts the total sleep is 8 ms times (2^k − 1). |
| Tx.SleptCapped | db/tx.go:29-32 | From the seventh attempt on, the total sleep is 1016 ms plus 1024 ms per further attempt. |
| Tx.SleptPastLimit | db/tx.go:21-27 | By the 37th attempt more than 30 s have been slept. |
| Tx.NextAttempt | db/tx.go:26-28 | While at most 30 s have elapsed and at least the slept time, the attempt is not the 37th, so the loop can try again. |
| Tx.Transaction | db/tx.go:17-34 | Makes 1 to 37 attempts; all but the last did not run and were within 30 s. It returns exactly when the last attempt ran, with the body's error and one run of the body. Otherwise it panics with "too many retries" after more than 30 s. |
| HandlingOrder.FirstLabelled | config/msgtypes.go:13-14 | Finds the first field with the label, or reports that none has it. |
| HandlingOrder.Scan | config/msgtypes.go:13-25 | The loop's result is always one of "", IMMEDIATE, PRIORITY, ROUTINE, and it is "" when no field has the label. |
| HandlingOrder.ComputeRecommendedHandlingOrder | config/msgtypes.go:10-42 | The result is a valid handling order, and it is "" for every type other than ICS213 and EOC213RR. |
| HandlingOrder.ScanFindsFirst | config/msgtypes.go:13-25 | The loop returns the mapped value of the first labelled field, or "" when no field has the label. |
| HandlingOrder.HandlingOrderOfFirstField | config/msgtypes.go:10-42 | ICS213 maps its first Severity field and EOC213RR its first Priority field. Any other tag, or a missing field, gives "". |
| HandlingOrder.LaterFieldsIgnored | config/msgtypes.go:23-37 | Fields after the first labelled one never change the result, even when its value is unrecognised. |
| HandlingOrder.FirstLabelledAt | config/msgtypes.go:13-14 | A labelled field with no labelled field before it is the first. |
| HandlingOrder.OrderTable | config/msgtypes.go:15-36 | EMERGENCY/URGENT/OTHER map to IMMEDIATE/PRIORITY/ROUTINE. Now or High, Medium and Low map likewise, and nothing else maps to them. |
| ReportHtml.ExpectationsBlock | report/html.go:59-86 | The title mark and footnote appear exactly when modified, "copy of provided" exactly with a model, and "Not sent from" exactly when it is non-empty. |
| ReportHtml.ResultsBlock | report/html.go:87-105 | The results block has one to four lines. |
| ReportHtml.ResultsLines | report/html.go:88-104 | "Messages: 0" appears exactly when the four counts sum to zero. The Counted line with the average score appears exactly when some count is non-zero and the valid count is. No line shows a zero count. |
| ReportHtml.SourcesBlockOf | report/html.go:113-128 | Lists every source in order, with the outage footnote exactly when some source is simulated down. |
| ReportHtml.LayoutBounds | report/html.go:130-131 | With n jurisdictions: cols = ceil(n/6) ≥ 1, rows is between 1 and 6, and rows·cols covers n with no spare row. |
| ReportHtml.JurisdictionColumns | report/html.go:129-141 | The columns render every jurisdiction exactly once, in order. There are at most cols columns; every column but the last holds exactly rows entries, and the last holds 1 to rows. |
| ReportHtml.ColumnRun | report/html.go:135-137 | One column is the consecutive run from its start, ending at rows entries or at the end of the list. |
| ReportHtml.StatisticsBlock | report/html.go:108-150 | The block is omitted exactly when all three lists are empty; each part appears exactly when its list is non-empty, with its entries in order. |
| ReportHtml.ScoreClass | report/html.go:166-175 | Every score gets one of the four classes. |
| ReportHtml.ScoreClassBands | report/html.go:166-175 | The class is "invalid" exactly for 0, "ok" for 100, "warning" for 90 and above except 100, and "error" otherwise. |
| ReportHtml.MessagesBlockOf | report/html.go:152-184 | One row per message, in order, and the "multiple messages" footnote exactly when some message is multiple. |
| ReportHtml.LinkRule | report/html.go:157 | A message is linked exactly when `links` is empty or equals its sender's call sign. |
| Retrieve.StartPoint | retrieve/retrieve.go:24-29 | The starting point is a whole minute, strictly before now and no earlier than now minus one minute. |
| Retrieve.DuePoint | retrieve/retrieve.go:24-33 | The walk ends on a whole minute. The poll is due exactly when some whole minute in (LastRun, start] matches. When due, the walk stopped at the latest matching minute. |
| Retrieve.NotDueAgain | retrieve/retrieve.go:30-33 | A last run recorded no earlier than now is not due again at now. |
| Retrieve.SendFrom | retrieve/retrieve.go:129-135 | Sends the responses in order until the first failed send. It completes exactly when every send succeeds. |
| Retrieve.HandleMessage | retrieve/retrieve.go:121-148 | The analysis is committed exactly when handling reaches the commit; when it does not, the only effects are sends. |
| Retrieve.Stamped | retrieve/retrieve.go:136-147 | One saved response per response, in order, each saved with its own handling time `at(k)` as its send time. |
| Retrieve.HandleMessageOrder | retrieve/retrieve.go:129-147 | Handling goes through its stages in order: every send comes before the deletion, the deletion before the commit, and the commit before every saved response. |
| Retrieve.HandleRespectsFlags | retrieve/retrieve.go:129-143 | With DontSendResponses nothing is sent; with DontKillMessages nothing is killed. |
| Retrieve.HandleCommitsIff | retrieve/retrieve.go:129-144 | The analysis is committed exactly when every needed send and the needed kill succeed. |
| Retrieve.HandleSavesAll | retrieve/retrieve.go:136-147 | On commit every response k is saved, stamped with its own handling time `at(k)` even when it was not sent. Otherwise only sends happened. |
| Retrieve.Stop | retrieve/retrieve.go:77-88 | The read loop delivers exactly the messages before the first read that is empty or fails. |
| Retrieve.ReadMessages | retrieve/retrieve.go:77-88 | The loop handles exactly the messages before the first read that is empty or fails, in order, and ends cleanly exactly when that read was empty or the answers ran out. |
| Retrieve.WithLastRun | retrieve/retrieve.go:89 | Only the polled retrieval's last run changes, to the poll's start. |
| Retrieve.CheckBbs | retrieve/retrieve.go:62-91 | The session is saved, with this retrieval's last run set to the poll's start, exactly when the connection was made and the reads ended at an empty message. A failed connection does nothing. |
| Retrieve.PollSession | retrieve/retrieve.go:45-91 | Each retrieval is polled exactly when due, and each poll does what `checkBBS` does with its mailbox: it handles the messages read, closes the connection, and completes exactly when connected with the reads ending at an empty message. On success only the completed polls record their start as last run. The tables are those one `UpdateSession` of the final session gives, or untouched when no poll completed, and stay valid. It panics only for a session that has an id but no row. |
| Retrieve.ForSession | retrieve/retrieve.go:42-59 | Each retrieval is polled exactly when due, each poll does what its mailbox dictates, and only completed polls record their start as last run. The tables are one `UpdateSession` of the final session, or untouched when no poll completed, and a stored session never panics. |
| Retrieve.ForRunningSessions | retrieve/retrieve.go:19-38 | Polls only the sessions `GetRunningSessions` returns, each retrieval exactly when due and each poll as its mailbox dictates, and records the start of each completed poll. On valid session tables it never panics and keeps them valid; response saves are recorded as effects only. Afterwards each running session reads back as saved by its last completed poll, or as before when none completed. |
| Retrieve.PassSettles | retrieve/retrieve.go:30-33 | After a pass whose polls started no earlier than now, a retrieval is still due at now only when its poll was made and did not complete. |
| Lifecycle.RunningBitOnly | sessions.go:19-44 | Opening sets only the running bit and closing clears only it; the other bits are kept. |
| Lifecycle.EncodeDecoded | store/session.go:126-141 | Writing back a session as read changes no column but the flags. |
| Lifecycle.FlagWrite | sessions.go:44-45 | Writing back a snapshot session with new flags changes only that row's flags and keeps the table valid. |
| Lifecycle.RowOf | sessions.go:17 | A snapshot session comes from exactly one row. |
| Lifecycle.OpenOne | sessions.go:40-46 | One step panics exactly when the session should open but has an id, no row and retrievals. Otherwise it opens the session, reporting its id, exactly when it is not running and has started; the tables are untouched when it does not, and the opened session runs afterwards. |
| Lifecycle.OpenEach | sessions.go:39-47 | The loop opens, in order, exactly the sessions that are not running and have started, never fails when every session can be saved, and keeps every stored id. |
| Lifecycle.OpenSessions | sessions.go:33-48 | `openSessions` never fails, keeps every stored id, and opens, in order, exactly the sessions of `GetSessions(now, monthLater)` that are not running and have started. |
| Lifecycle.OpenOneEffect | sessions.go:39-47 | One step opens the session exactly when it is not running and has started, setting its running bit. It never fails and never stops a running session. |
| Lifecycle.OpenEachEffect | sessions.go:39-47 | The loop never fails and opens exactly the snapshot sessions to open, in order. It changes only running bits and never clears one. |
| Lifecycle.OpenEachRuns | sessions.go:39-47 | Every session the loop opens is still running when the loop ends. |
| Lifecycle.GetSessionsSnapshot | sessions.go:37-39 | The loop works on the sessions ending within [now, a month later). |
| Lifecycle.OpenSessionsEffect | sessions.go:33-48 | `openSessions` always succeeds and opens exactly the considered sessions that are not running and have started. Only running bits are added and no session stops. Afterwards every considered session that has started is running. |
| Lifecycle.OpenedSettled | sessions.go:33-48 | When only flags changed, no running bit was lost and every considered session that should open runs, every stored session ending in the window that has started is running. |
| Lifecycle.SettledOpensNothing | sessions.go:40-42 | When every considered session that has started is already running, `openSessions` changes nothing. |
| Lifecycle.NothingToOpen | sessions.go:40-42 | A loop over sessions that are all running or not yet started changes nothing. |
| Lifecycle.OpenTwice | sessions.go:33-48 | A second `openSessions` with the same time changes nothing. |
| Lifecycle.NeedsReport | sessions.go:22 | A report is needed exactly when the session has text or HTML recipients or stored messages. |
| Lifecycle.CloseOne | sessions.go:18-27 | One step panics only for a session past its end, exactly when it needs a report and has no BBS or has an id, retrievals and no row. A session not past its end changes nothing. Otherwise the tables are one `UpdateSession` of the session with its running bit cleared, that write-back is recorded, and a report to its first BBS follows exactly when needed. |
| Lifecycle.CloseOneEffect | sessions.go:18-26 | One step panics exactly when the session is past its end, needs a report and has no BBS. Otherwise it clears the running bit of a session past its end, touches no other row and sets no running bit. |
| Lifecycle.CloseEach | sessions.go:17-28 | The loop keeps every stored id, and over stored sessions it panics exactly when one of them is past its end, needs a report and has no BBS. |
| Lifecycle.CloseEachPanics | sessions.go:17-28 | Over the running sessions, the loop panics exactly when one of them is past its end, needs a report and has no BBS. |
| Lifecycle.CloseEachWrites | sessions.go:17-28 | On success the write-backs are the sessions past their end, running bit cleared, in order, and each report directly follows its own session's write-back, exactly when one is needed. |
| Lifecycle.CloseEachEffect | sessions.go:17-28 | The loop panics exactly when some session to close needs a report and has no BBS. Otherwise it stops every session past its end and starts none. |
| Lifecycle.CloseSessionsEffect | sessions.go:14-29 | `closeSessions` panics exactly when a running session past its end needs a report and has no BBS. Otherwise each row afterwards is the row with its running bit cleared if it was running and past its end, and unchanged if not. The write-backs are those sessions in order, and each report directly follows its session's write-back. |
| Lifecycle.CloseSessions | sessions.go:14-29 | `closeSessions` keeps every stored id. With stored ids it panics exactly when a running session is past its end, needs a report and has no BBS, and otherwise writes back exactly the running sessions past their end, each report directly following its own write-back. |
| Lifecycle.ClosedRowsSettled | sessions.go:17-18 | After closing, no running session is past its end. |
| Lifecycle.NothingToClose | sessions.go:18 | A loop over sessions none of which is past its end changes nothing. |
| Lifecycle.CloseTwice | sessions.go:14-29 | After a successful `closeSessions`, a second one at the same time writes nothing, sends nothing and changes no row. |

## Left out

- Mailbox transport (retrieve/retrieve.go:93-118): for polling, `ConnectToBBS` and the kpc3plus/telnet connections become a `Mailbox` parameter, whether the connection is made and what each read answers. `Send`, `Kill` and `Close` are recorded as effects whose success is part of the parameter, and close errors are only logged.
- The `interval` package: the parsed `RetrieveAt` cadence is a function parameter deciding whether a minute matches, because that package is not part of this model.
- Retrieve.ForRunningSessions: saving a response (`st.SaveResponse`, retrieve/retrieve.go:145-147) is recorded as a `SavedResponse` effect and not applied to a response table. Polling therefore does not model the plain insert of store/response.go:45-60 or its panic on an id already taken, and the promise that a pass over valid tables never panics covers the session tables only. `ResponseStore.SaveResponse` models that insert on its own.
- `analyze.Analyze`, `analysis.Responses` and `analysis.Commit`: the responses a message produces are part of what its read returns, and the commit is an effect. These are foreign calls.
- Lifecycle.CloseOne: the connection for the report is always taken to be made. When `ConnectToBBS` returns nil (the BBS's transport is disabled or the connection fails, retrieve/retrieve.go:104-116), sessions.go:24-25 hands nil to `report.Send` and calls `Close` on it; what those do with nil is in code that is not part of this model, so the model records `ReportSent` either way.
- `report.Send` and report generation: closing records a `ReportSent` action naming the BBS, the call sign and the session, because the report package's generation is not part of this model.
- The wall clock: `time.Now()` and `time.Since` become parameters (`now`, the per-poll start and the handling time of each response, the elapsed time seen by each transaction attempt). `AddDate(0, 1, 0)` becomes the parameter `monthLater`.
- Tx.Transaction: requires the elapsed time before attempt k to be at least the time slept so far, since the sleeps themselves are not modelled. The commit or rollback done by `sqlitex`'s end function is not modelled, so a busy commit is not retried; the store operations are modelled as atomic writes.
- Unreferenced code in db/tx.go:59-144 (`xattemptTransaction` and the begin/commit/rollback helpers): nothing calls it.
- SQLite itself: tables are sequences of rows. Stored timestamps are compared as instants at their stored precision, rather than as text in a layout with a zone offset. `INSERT OR REPLACE`, the unique hash index on messages, and the cascade of a deleted session's retrievals are taken as the schema's behaviour.
- Statement.ColumnBlob: a text or integer column read as a blob yields an empty slice in the model, where SQLite would convert the value to bytes; no caller does this.
- Statement.ColumnInt: a text, blob or timestamp column read as an integer yields 0 in the model, where SQLite would convert the value; the store reads every integer column it bound with `BindInt`.
- Statement.ColumnText: an integer, blob or timestamp column read as text yields "" in the model, where SQLite would render the value as text; the store reads timestamps only with `ColumnTime`.
- Statement.ColumnBool: a text, blob or timestamp column read as a bool yields false in the model, where SQLite would convert the value to an integer first.
- Statement.ColumnTime: a non-empty blob panics in the model. Go reads it as text and would parse a blob whose bytes spell a timestamp; no store query binds a blob to a time column.
- `BindFloat`/`ColumnFloat`: floating point.
- Model-message decoding (store/session.go:143-149), model-image files (store/session.go:258-300) and `store.Open` (store/store.go:17-31): file system and foreign parsers.
- Message fields with a nil value in `ComputeRecommendedHandlingOrder`: a field's value is a plain string, because the message package that defines fields is not part of this model.
- The HTML text itself: string concatenation, `html.EscapeString`, the non-breaking replacer, the title and generation blocks and the embedded prolog. The model states which blocks, lines and footnotes appear, and in what order.
- Logging, and Go's fixed-width `int` overflow in the message-number counter, which would need over 2^63 calls.
- Lifecycle.OpenSessionsEffect, Lifecycle.CloseSessionsEffect: assume the stored start and end are whole seconds, which every write through the store guarantees.
- After a panic the model returns `Fatal` and does not describe partially written state, such as the sessions already closed before the one that panicked.
- webserver/, cmd/ and report/report.go: HTTP and command-line plumbing, and type declarations.

=== FILE: clock.dfy ===
/** Instants and durations.

    An instant is a count of nanoseconds since Go's zero time
    (January 1, year 1, 00:00:00 UTC), so the zero `time.Time` value is the
    instant 0.  A duration is a count of nanoseconds, as Go's `time.Duration`. */
module Clock {

  type Time = int
  type Duration = int

  const Nanosecond: Duration := 1
  const Millisecond: Duration := 1_000_000
  const Second: Duration := 1_000_000_000
  const Minute: Duration := 60 * Second

  /** The zero `time.Time`, which the program uses to mean "never". */
  const Zero: Time := 0

  /** Rounds `t` down to a multiple of `d` since the zero time, as Go's
      `Time.Truncate` does. */
  function Truncate(t: Time, d: Duration): (r: Time)
    requires d > 0
    ensures r <= t < r + d
  {
    t - t % d
  }

  /** The truncated instant is the largest multiple of `d` not after `t`. */
  lemma TruncateMultiple(t: Time, d: Duration)
    requires d > 0
    ensures Truncate(t, d) == (t / d) * d
  {
  }

  /** Whether `t` lies exactly on a whole minute. */
  predicate OnMinute(t: Time) {
    t % Minute == 0
  }

  /** The precision a stored timestamp keeps: the layouts the program uses
      either stop at whole seconds ("2006-01-02 15:04:05-07:00") or keep
      nanoseconds ("2006-01-02 15:04:05.999999999-07:00"). */
  datatype Precision = WholeSeconds | Nanoseconds {
    function Unit(): (d: Duration)
      ensures d > 0
    {
      match this
      case WholeSeconds => Second
      case Nanoseconds => Nanosecond
    }
  }

  /** The instant a timestamp written with precision `p` reads back as:
      formatting drops the digits the layout does not print. */
  function Stored(t: Time, p: Precision): (r: Time)
    ensures r <= t < r + p.Unit()
    ensures p == Nanoseconds ==> r == t
    ensures t == Zero ==> r == Zero
  {
    Truncate(t, p.Unit())
  }

  /** Storing is idempotent: a stored instant stores as itself. */
  lemma StoredIdempotent(t: Time, p: Precision)
    ensures Stored(Stored(t, p), p) == Stored(t, p)
  {
  }
}

=== FILE: handling_order.dfy ===
/** The computed recommended handling order (config/msgtypes.go:10-42).

    Only two form types compute it: an ICS-213 general message maps its
    Severity field, and an EOC-213RR resource request maps its Priority
    field.  In both, the loop over the fields stops at the first field with
    the label, whether or not its value is recognised. */
module HandlingOrder {
  import opened Outcomes

  /** A form field: its label (`fieldLabel`, since `label` is a Dafny keyword) and its value. */
  datatype Field = Field(fieldLabel: string, value: string)

  /** The parts of a decoded message the mapping looks at: its type tag and
      its fields in form order. */
  datatype Form = Form(tag: string, fields: seq<Field>)

  const Immediate := "IMMEDIATE"
  const Priority := "PRIORITY"
  const Routine := "ROUTINE"

  predicate IsHandlingOrder(s: string) {
    s == "" || s == Immediate || s == Priority || s == Routine
  }

  function SeverityOrder(v: string): string {
    match v
    case "EMERGENCY" => Immediate
    case "URGENT" => Priority
    case "OTHER" => Routine
    case _ => ""
  }

  function PriorityOrder(v: string): string {
    match v
    case "Now" => Immediate
    case "High" => Immediate
    case "Medium" => Priority
    case "Low" => Routine
    case _ => ""
  }

  /** The position of the first field carrying `fieldLabel`, if any. */
  function FirstLabelled(fields: seq<Field>, fieldLabel: string): (r: Option<nat>)
    ensures r.Some? ==> r.value < |fields| && fields[r.value].fieldLabel == fieldLabel
    ensures r.Some? ==> forall i :: 0 <= i < r.value ==> fields[i].fieldLabel != fieldLabel
    ensures r.None? ==> forall i :: 0 <= i < |fields| ==> fields[i].fieldLabel != fieldLabel
  {
    if |fields| == 0 then None
    else if fields[0].fieldLabel == fieldLabel then Some(0)
    else match FirstLabelled(fields[1..], fieldLabel)
      case None => None
      case Some(i) => Some(i + 1)
  }

  /** The `for` loop with its `break`: scans for the fieldLabel and maps the
      value of the first field that has it. */
  function Scan(fields: seq<Field>, fieldLabel: string, severity: bool): (r: string)
    ensures IsHandlingOrder(r)
    ensures FirstLabelled(fields, fieldLabel).None? ==> r == ""
  {
    if |fields| == 0 then ""
    else if fields[0].fieldLabel == fieldLabel then
      (if severity then SeverityOrder(fields[0].value) else PriorityOrder(fields[0].value))
    else Scan(fields[1..], fieldLabel, severity)
  }

  /** `ComputeRecommendedHandlingOrder`. */
  function ComputeRecommendedHandlingOrder(m: Form): (r: string)
    ensures IsHandlingOrder(r)
    ensures r != "" ==> m.tag == "ICS213" || m.tag == "EOC213RR"
  {
    match m.tag
    case "ICS213" => Scan(m.fields, "Severity", true)
    case "EOC213RR" => Scan(m.fields, "Priority", false)
    case _ => ""
  }

  lemma {:induction false} ScanFindsFirst(fields: seq<Field>, fieldLabel: string, severity: bool)
    ensures Scan(fields, fieldLabel, severity) ==
      match FirstLabelled(fields, fieldLabel)
      case None => ""
      case Some(i) => if severity then SeverityOrder(fields[i].value) else PriorityOrder(fields[i].value)
    decreases |fields|
  {
    if |fields| > 0 && fields[0].fieldLabel != fieldLabel {
      ScanFindsFirst(fields[1..], fieldLabel, severity);
    }
  }

  /** The handling order is the mapped value of the first field with the
      type's fieldLabel, and "" for any other type or when no field has it. */
  lemma HandlingOrderOfFirstField(m: Form)
    ensures m.tag == "ICS213" ==>
      ComputeRecommendedHandlingOrder(m) ==
        match FirstLabelled(m.fields, "Severity")
        case None => ""
        case Some(i) => SeverityOrder(m.fields[i].value)
    ensures m.tag == "EOC213RR" ==>
      ComputeRecommendedHandlingOrder(m) ==
        match FirstLabelled(m.fields, "Priority")
        case None => ""
        case Some(i) => PriorityOrder(m.fields[i].value)
    ensures m.tag != "ICS213" && m.tag != "EOC213RR" ==> ComputeRecommendedHandlingOrder(m) == ""
  {
    ScanFindsFirst(m.fields, "Severity", true);
    ScanFindsFirst(m.fields, "Priority", false);
  }

  /** Fields after the first labelled one never matter, even when its value
      is not recognised: a later "EMERGENCY" does not rescue an earlier
      unknown severity. */
  lemma LaterFieldsIgnored(tag: string, before: seq<Field>, f: Field, after: seq<Field>)
    requires f.fieldLabel == (if tag == "ICS213" then "Severity" else "Priority")
    requires forall i :: 0 <= i < |before| ==> before[i].fieldLabel != f.fieldLabel
    ensures ComputeRecommendedHandlingOrder(Form(tag, before + [f] + after)) ==
            ComputeRecommendedHandlingOrder(Form(tag, [f]))
  {
    var fields := before + [f] + after;
    HandlingOrderOfFirstField(Form(tag, fields));
    HandlingOrderOfFirstField(Form(tag, [f]));
    assert fields[|before|] == f;
    FirstLabelledAt(fields, f.fieldLabel, |before|);
  }

  lemma FirstLabelledAt(fields: seq<Field>, fieldLabel: string, k: nat)
    requires k < |fields| && fields[k].fieldLabel == fieldLabel
    requires forall i :: 0 <= i < k ==> fields[i].fieldLabel != fieldLabel
    ensures FirstLabelled(fields, fieldLabel) == Some(k)
  {
  }

  /** Which severity and priority values give each order. */
  lemma OrderTable(v: string)
    ensures SeverityOrder(v) == Immediate <==> v == "EMERGENCY"
    ensures SeverityOrder(v) == Priority <==> v == "URGENT"
    ensures SeverityOrder(v) == Routine <==> v == "OTHER"
    ensures PriorityOrder(v) == Immediate <==> v == "Now" || v == "High"
    ensures PriorityOrder(v) == Priority <==> v == "Medium"
    ensures PriorityOrder(v) == Routine <==> v == "Low"
  {
  }
}

=== FILE: lifecycle.dfy ===
/** Opening and closing practice sessions (sessions.go).

    Both passes work on a snapshot read at the start: `closeSessions` on the
    running sessions, `openSessions` on the sessions ending within the next
    month.  Each changes a session's running flag and writes the session
    back; closing also sends the session's report when it has recipients or
    messages.  The report itself is produced elsewhere and appears here only
    as the action of sending it. */
module Lifecycle {
  import opened Clock
  import opened Outcomes
  import opened ListCodec
  import opened SessionStore
  import MessageStore

  // ---- the running flag ----

  function SetRunning(f: Flags): Flags { f | Running }

  function ClearRunning(f: Flags): Flags { f & !Running }

  /** Opening adds only the running bit; closing removes only it. */
  lemma RunningBitOnly(f: Flags)
    ensures SetRunning(f) & Running != 0 && SetRunning(f) & !Running == f & !Running
    ensures ClearRunning(f) & Running == 0 && ClearRunning(f) | Running == f | Running
  {
  }

  // ---- rewriting the flags of a stored session ----

  predicate OnSecond(t: Time) { Stored(t, WholeSeconds) == t }

  /** The stored start and end times carry whole seconds, as the database's
      timestamp layout guarantees. */
  ghost predicate WholeSecondTimes(rows: seq<SessionRow>) {
    forall i :: 0 <= i < |rows| ==> OnSecond(rows[i].start) && OnSecond(rows[i].end)
  }

  /** `rows` differ from `orig` at most in their flags. */
  ghost predicate FlagsOnly(orig: seq<SessionRow>, rows: seq<SessionRow>) {
    |rows| == |orig| && forall i :: 0 <= i < |rows| ==> rows[i] == orig[i].(flags := rows[i].flags)
  }

  /** Re-encoding a decoded row gives the row back, with the new flags. */
  lemma EncodeDecoded(t: Tables, row: SessionRow, f: Flags)
    requires OnSecond(row.start) && OnSecond(row.end)
    ensures EncodeRow(DecodeRow(t, row).(flags := f), row.id) == row.(flags := f)
  {
    JoinSplit(row.reportToText);
    JoinSplit(row.reportToHtml);
    JoinSplit(row.toBbses);
    JoinSplit(row.downBbses);
    JoinSplit(row.messageTypes);
  }

  /** Writing back a snapshot session with new flags changes just that
      row's flags. */
  lemma FlagWrite(t0: Tables, t: Tables, j: nat, f: Flags)
    requires Valid(t) && WholeSecondTimes(t0.sessions) && FlagsOnly(t0.sessions, t.sessions)
    requires j < |t0.sessions|
    ensures var r := UpdateSession(t, DecodeRow(t0, t0.sessions[j]).(flags := f));
      && r.Ok?
      && r.value.tables.sessions == t.sessions[j := t.sessions[j].(flags := f)]
      && r.value.session == DecodeRow(t0, t0.sessions[j]).(flags := f)
      && Valid(r.value.tables)
      && FlagsOnly(t0.sessions, r.value.tables.sessions)
  {
    var s := DecodeRow(t0, t0.sessions[j]).(flags := f);
    assert t.sessions[j].id == s.id;
    assert HasRow(t.sessions, s.id);
    EncodeDecoded(t0, t0.sessions[j], f);
    var row := EncodeRow(s, s.id);
    var replaced := ReplaceRow(t.sessions, row);
    assert replaced == t.sessions[j := t.sessions[j].(flags := f)] by {
      forall i | 0 <= i < |replaced|
        ensures replaced[i] == t.sessions[j := t.sessions[j].(flags := f)][i]
      {
        if i != j {
          assert t.sessions[i].id != t.sessions[j].id by {
            if i < j {
              assert t.sessions[i].id != t.sessions[j].id;
            }
          }
        }
      }
    }
    UpdateKeepsValid(t, s);
  }

  /** The row of a snapshot session: its identity finds it. */
  lemma RowOf(t0: Tables, t: Tables, s: Session) returns (j: nat)
    requires Valid(t) && FlagsOnly(t0.sessions, t.sessions)
    requires FromRow(t0, s)
    ensures j < |t0.sessions| && s == DecodeRow(t0, t0.sessions[j])
    ensures forall i :: 0 <= i < |t.sessions| && t.sessions[i].id == s.id ==> i == j
  {
    j :| 0 <= j < |t0.sessions| && s == DecodeRow(t0, t0.sessions[j]);
    assert t.sessions[j].id == s.id;
  }

  // ---- openSessions ----

  predicate ShouldOpen(s: Session, now: Time) {
    s.flags & Running == 0 && s.start <= now
  }

  /** A row with identity `id` is stored in `u`, and every such row is
      running. */
  ghost predicate RunsId(u: Tables, id: int) {
    HasRow(u.sessions, id) &&
    forall i :: 0 <= i < |u.sessions| && u.sessions[i].id == id ==> u.sessions[i].flags & Running != 0
  }

  /** One iteration of `openSessions`: a session not yet running whose
      start is not after `now` gets the running bit and is written back.
      Returns the tables and the identities opened.  It panics only where
      the write does: a session with retrievals whose row is gone. */
  function OpenOne(t: Tables, now: Time, s: Session): (r: Result<(Tables, seq<int>)>)
    ensures r.Fatal? <==> ShouldOpen(s, now) && s.id != 0 && !HasRow(t.sessions, s.id) && |s.retrieve| > 0
    ensures r.Ok? ==> (r.value.1 == [] <==> !ShouldOpen(s, now)) && |r.value.1| <= 1
    ensures r.Ok? && s.id != 0 ==> r.value.1 == (if ShouldOpen(s, now) then [s.id] else [])
    ensures r.Ok? && !ShouldOpen(s, now) ==> r.value.0 == t
    ensures r.Ok? && ShouldOpen(s, now) && (s.id == 0 || HasRow(t.sessions, s.id)) ==> RunsId(r.value.0, r.value.1[0])
    ensures r.Ok? ==> KeepsIds(t, r.value.0)
  {
    if !ShouldOpen(s, now) then Ok((t, []))
    else
      var o := s.(flags := SetRunning(s.flags));
      match UpdateSession(t, o)
      case Fatal(e) => Fatal(e)
      case Ok(saved) =>
        RunningBitOnly(s.flags);
        OpenedRuns(t, o);
        SavedKeepsIds(t, o);
        Ok((saved.tables, [saved.session.id]))
  }

  /** A successful save keeps every stored identity. */
  lemma SavedKeepsIds(t: Tables, s: Session)
    requires UpdateSession(t, s).Ok?
    ensures KeepsIds(t, UpdateSession(t, s).value.tables)
  {
    forall id | HasRow(t.sessions, id)
      ensures HasRow(UpdateSession(t, s).value.tables.sessions, id)
    {
      SaveKeepsIds(t, s, id);
    }
  }

  /** Saving a running session whose row exists, or a new one, leaves its
      identity stored and running. */
  lemma OpenedRuns(t: Tables, s: Session)
    requires s.flags & Running != 0
    requires UpdateSession(t, s).Ok?
    ensures s.id == 0 || HasRow(t.sessions, s.id) ==>
      RunsId(UpdateSession(t, s).value.tables, UpdateSession(t, s).value.session.id)
  {
    var saved := UpdateSession(t, s).value;
    var u := saved.tables;
    if s.id == 0 {
      assert u.sessions[|t.sessions|].id == saved.session.id;
    } else {
      HasRowReplaced(t.sessions, EncodeRow(s, s.id), s.id);
    }
  }

  /** Every session in `ss` is new (identity 0) or has a row in `t`, so
      writing it back cannot fail. */
  ghost predicate Savable(t: Tables, ss: seq<Session>) {
    forall k :: 0 <= k < |ss| ==> ss[k].id == 0 || HasRow(t.sessions, ss[k].id)
  }

  /** Every session in `ss` has a non-zero identity with a row in `t`. */
  ghost predicate AllStored(t: Tables, ss: seq<Session>) {
    forall k :: 0 <= k < |ss| ==> ss[k].id != 0 && HasRow(t.sessions, ss[k].id)
  }

  /** Both properties pass from a snapshot to its tail once the first step
      has kept every stored identity. */
  lemma StoredTail(t: Tables, t1: Tables, ss: seq<Session>)
    requires |ss| > 0 && KeepsIds(t, t1)
    ensures Savable(t, ss) ==> (ss[0].id == 0 || HasRow(t.sessions, ss[0].id)) && Savable(t1, ss[1..])
    ensures AllStored(t, ss) ==> ss[0].id != 0 && HasRow(t.sessions, ss[0].id) && AllStored(t1, ss[1..])
  {
    assert forall k :: 0 <= k < |ss| - 1 ==> ss[1..][k] == ss[k + 1];
  }

  /** The loop of `openSessions` over its snapshot.  It reports one
      identity per session to open, in order, and panics only on a session
      whose row is gone. */
  function OpenEach(t: Tables, now: Time, ss: seq<Session>): (r: Result<(Tables, seq<int>)>)
    ensures r.Ok? ==> |r.value.1| == |ToOpen(ss, now)|
    ensures r.Ok? && (forall k :: 0 <= k < |ss| ==> ss[k].id != 0) ==> r.value.1 == ToOpen(ss, now)
    ensures Savable(t, ss) ==> r.Ok?
    ensures r.Ok? ==> KeepsIds(t, r.value.0)
    decreases |ss|
  {
    if |ss| == 0 then Ok((t, []))
    else
      var step := OpenOne(t, now, ss[0]);
      if step.Fatal? then Fatal(step.reason)
      else
        StoredTail(t, step.value.0, ss);
        var rest := OpenEach(step.value.0, now, ss[1..]);
        assert (forall k :: 0 <= k < |ss| ==> ss[k].id != 0) ==> forall k :: 0 <= k < |ss| - 1 ==> ss[1..][k].id != 0;
        if rest.Fatal? then rest else Ok((rest.value.0, step.value.1 + rest.value.1))
  }

  /** `openSessions`: `monthLater` is `now` plus one calendar month.  It
      never panics, keeps every stored identity and, with non-zero row ids,
      reports exactly the considered sessions to open. */
  function OpenSessions(t: Tables, now: Time, monthLater: Time): (r: Result<(Tables, seq<int>)>)
    ensures r.Ok? && KeepsIds(t, r.value.0)
    ensures (forall i :: 0 <= i < |t.sessions| ==> t.sessions[i].id != 0) ==>
      r.value.1 == ToOpen(GetSessions(t, now, monthLater), now)
  {
    var ss := GetSessions(t, now, monthLater);
    SnapshotIds(t, ss);
    OpenEach(t, now, ss)
  }

  /** Sessions read from `t` carry identities stored in `t`. */
  lemma SnapshotIds(t: Tables, ss: seq<Session>)
    requires forall k :: 0 <= k < |ss| ==> FromRow(t, ss[k])
    ensures Savable(t, ss)
    ensures (forall i :: 0 <= i < |t.sessions| ==> t.sessions[i].id != 0) ==>
      AllStored(t, ss) && forall k :: 0 <= k < |ss| ==> ss[k].id != 0
  {
    forall k | 0 <= k < |ss|
      ensures exists i :: 0 <= i < |t.sessions| && t.sessions[i].id == ss[k].id
    {
      var i :| 0 <= i < |t.sessions| && ss[k] == DecodeRow(t, t.sessions[i]);
      assert t.sessions[i].id == ss[k].id;
    }
  }

  /** The identities of the snapshot sessions that should open, in order. */
  function ToOpen(ss: seq<Session>, now: Time): seq<int> {
    if |ss| == 0 then []
    else (if ShouldOpen(ss[0], now) then [ss[0].id] else []) + ToOpen(ss[1..], now)
  }

  /** Running bits are never lost from `t` to `u`. */
  ghost predicate KeepsRunning(t: Tables, u: Tables) {
    |u.sessions| == |t.sessions| &&
    forall i :: 0 <= i < |t.sessions| && t.sessions[i].flags & Running != 0 ==> u.sessions[i].flags & Running != 0
  }

  /** Apart from the running bit, the flags are those of `t0`. */
  ghost predicate OtherBitsAsIn(t0: Tables, u: Tables) {
    |u.sessions| == |t0.sessions| &&
    forall i :: 0 <= i < |u.sessions| ==> u.sessions[i].flags & !Running == t0.sessions[i].flags & !Running
  }

  /** Every row carrying `s`'s identity is running. */
  ghost predicate RunsSession(u: Tables, s: Session) {
    forall i :: 0 <= i < |u.sessions| && u.sessions[i].id == s.id ==> u.sessions[i].flags & Running != 0
  }

  ghost predicate Snapshot(t0: Tables, ss: seq<Session>) {
    forall k :: 0 <= k < |ss| ==> FromRow(t0, ss[k])
  }

  /** Everything the open loop relies on in the tables it works on. */
  ghost predicate Working(t0: Tables, t: Tables) {
    Valid(t) && WholeSecondTimes(t0.sessions) && FlagsOnly(t0.sessions, t.sessions) && OtherBitsAsIn(t0, t)
  }

  /** One iteration over a snapshot session never fails, keeps the working
      invariants and running bits, reports the identity exactly when the
      session should open, and leaves it running then. */
  lemma OpenOneEffect(t0: Tables, t: Tables, now: Time, s: Session)
    requires Working(t0, t) && FromRow(t0, s)
    ensures var r := OpenOne(t, now, s);
      && r.Ok?
      && Working(t0, r.value.0)
      && KeepsRunning(t, r.value.0)
      && r.value.1 == (if ShouldOpen(s, now) then [s.id] else [])
      && (ShouldOpen(s, now) ==> RunsSession(r.value.0, s))
  {
    if ShouldOpen(s, now) {
      var j := RowOf(t0, t, s);
      var f := SetRunning(s.flags);
      FlagWrite(t0, t, j, f);
      var saved := UpdateSession(t, s.(flags := f)).value;
      assert saved.session.id == s.id;
      OpenedRow(t0, t, saved.tables, s, j);
    }
  }

  /** The tables after setting the running bit of snapshot session `s`,
      stored in row `j`. */
  lemma OpenedRow(t0: Tables, t: Tables, u: Tables, s: Session, j: nat)
    requires Working(t0, t)
    requires j < |t0.sessions| && s == DecodeRow(t0, t0.sessions[j])
    requires forall i :: 0 <= i < |t.sessions| && t.sessions[i].id == s.id ==> i == j
    requires u.sessions == t.sessions[j := t.sessions[j].(flags := SetRunning(s.flags))]
    requires Valid(u) && FlagsOnly(t0.sessions, u.sessions)
    ensures Working(t0, u) && KeepsRunning(t, u) && RunsSession(u, s)
  {
    RunningBitOnly(s.flags);
    assert s.flags == t0.sessions[j].flags;
    assert u.sessions[j].flags == SetRunning(s.flags);
    forall i | 0 <= i < |u.sessions|
      ensures u.sessions[i].flags & !Running == t0.sessions[i].flags & !Running
      ensures t.sessions[i].flags & Running != 0 ==> u.sessions[i].flags & Running != 0
    {
      if i != j {
        assert u.sessions[i] == t.sessions[i];
      }
    }
    assert forall i :: 0 <= i < |u.sessions| && u.sessions[i].id == s.id ==> i == j;
  }

  lemma SnapshotTail(t0: Tables, ss: seq<Session>)
    requires |ss| > 0 && Snapshot(t0, ss)
    ensures Snapshot(t0, ss[1..])
  {
    forall k | 0 <= k < |ss| - 1
      ensures FromRow(t0, ss[1..][k])
    {
      assert ss[1..][k] == ss[k + 1];
    }
  }

  /** The whole open loop over a snapshot: it never fails, opens exactly the
      sessions that should open, in order, changes nothing but running bits
      and never clears one. */
  lemma {:induction false} OpenEachEffect(t0: Tables, t: Tables, now: Time, ss: seq<Session>)
    requires Working(t0, t) && Snapshot(t0, ss)
    ensures var r := OpenEach(t, now, ss);
      && r.Ok?
      && r.value.1 == ToOpen(ss, now)
      && Working(t0, r.value.0)
      && KeepsRunning(t, r.value.0)
    decreases |ss|
  {
    if |ss| > 0 {
      SnapshotTail(t0, ss);
      OpenOneEffect(t0, t, now, ss[0]);
      var t1 := OpenOne(t, now, ss[0]).value.0;
      OpenEachEffect(t0, t1, now, ss[1..]);
      KeepsRunningTrans(t, t1, OpenEach(t1, now, ss[1..]).value.0);
    }
  }

  /** Every session the open loop opens is still running when it ends. */
  lemma {:induction false} OpenEachRuns(t0: Tables, t: Tables, now: Time, ss: seq<Session>)
    requires Working(t0, t) && Snapshot(t0, ss)
    ensures var r := OpenEach(t, now, ss);
      && r.Ok?
      && (forall k :: 0 <= k < |ss| && ShouldOpen(ss[k], now) ==> RunsSession(r.value.0, ss[k]))
    decreases |ss|
  {
    if |ss| > 0 {
      var rest := ss[1..];
      SnapshotTail(t0, ss);
      OpenOneEffect(t0, t, now, ss[0]);
      var t1 := OpenOne(t, now, ss[0]).value.0;
      OpenEachEffect(t0, t1, now, rest);
      OpenEachRuns(t0, t1, now, rest);
      var u := OpenEach(t1, now, rest).value.0;
      OpenEachUnfold(t, now, ss);
      OpenEachJoin(t0, t1, u, now, ss);
    }
  }

  /** A session opened by the first step and those opened by the rest of
      the loop are all running at its end. */
  lemma OpenEachJoin(t0: Tables, t1: Tables, u: Tables, now: Time, ss: seq<Session>)
    requires |ss| > 0
    requires FlagsOnly(t0.sessions, t1.sessions) && FlagsOnly(t0.sessions, u.sessions) && KeepsRunning(t1, u)
    requires ShouldOpen(ss[0], now) ==> RunsSession(t1, ss[0])
    requires forall k :: 0 <= k < |ss| - 1 && ShouldOpen(ss[1..][k], now) ==> RunsSession(u, ss[1..][k])
    ensures forall k :: 0 <= k < |ss| && ShouldOpen(ss[k], now) ==> RunsSession(u, ss[k])
  {
    forall k | 0 <= k < |ss| && ShouldOpen(ss[k], now)
      ensures RunsSession(u, ss[k])
    {
      if k > 0 {
        assert ss[1..][k - 1] == ss[k];
      } else {
        RunsSessionKept(t0, t1, u, ss[0]);
      }
    }
  }

  /** The loop's tables after a first step that succeeds are those the rest
      of the loop leaves. */
  lemma OpenEachUnfold(t: Tables, now: Time, ss: seq<Session>)
    requires |ss| > 0 && OpenOne(t, now, ss[0]).Ok?
    requires OpenEach(OpenOne(t, now, ss[0]).value.0, now, ss[1..]).Ok?
    ensures OpenEach(t, now, ss) == OpenEach(OpenOne(t, now, ss[0]).value.0, now, ss[1..]).(value := (
      OpenEach(OpenOne(t, now, ss[0]).value.0, now, ss[1..]).value.0,
      OpenOne(t, now, ss[0]).value.1 + OpenEach(OpenOne(t, now, ss[0]).value.0, now, ss[1..]).value.1))
  {
  }

  lemma RunsSessionKept(t0: Tables, t1: Tables, u: Tables, s: Session)
    requires FlagsOnly(t0.sessions, t1.sessions) && FlagsOnly(t0.sessions, u.sessions)
    requires KeepsRunning(t1, u) && RunsSession(t1, s)
    ensures RunsSession(u, s)
  {
    forall i | 0 <= i < |u.sessions| && u.sessions[i].id == s.id
      ensures u.sessions[i].flags & Running != 0
    {
      assert u.sessions[i].id == t0.sessions[i].id == t1.sessions[i].id;
    }
  }

  lemma KeepsRunningTrans(t: Tables, t1: Tables, u: Tables)
    requires KeepsRunning(t, t1) && KeepsRunning(t1, u)
    ensures KeepsRunning(t, u)
  {
  }

  /** Every row ending in the window whose start is not after `now` is
      running. */
  ghost predicate Settled(t: Tables, now: Time, monthLater: Time) {
    forall i :: 0 <= i < |t.sessions| && EndsWithin(t.sessions[i], now, monthLater) && t.sessions[i].start <= now ==>
      t.sessions[i].flags & Running != 0
  }

  lemma GetSessionsSnapshot(t: Tables, now: Time, monthLater: Time)
    requires Valid(t) && WholeSecondTimes(t.sessions)
    ensures Working(t, t) && Snapshot(t, GetSessions(t, now, monthLater))
  {
    assert FlagsOnly(t.sessions, t.sessions);
  }

  /** `openSessions` never fails on valid tables, opens exactly the
      sessions ending within the month that are not running and have
      started, changes nothing but running bits and afterwards every session
      that should be running is. */
  lemma OpenSessionsEffect(t: Tables, now: Time, monthLater: Time)
    requires Valid(t) && WholeSecondTimes(t.sessions)
    ensures var r := OpenSessions(t, now, monthLater);
      && r.Ok?
      && r.value.1 == ToOpen(GetSessions(t, now, monthLater), now)
      && Valid(r.value.0)
      && FlagsOnly(t.sessions, r.value.0.sessions)
      && OtherBitsAsIn(t, r.value.0)
      && KeepsRunning(t, r.value.0)
      && Settled(r.value.0, now, monthLater)
  {
    var ss := GetSessions(t, now, monthLater);
    GetSessionsSnapshot(t, now, monthLater);
    OpenEachEffect(t, t, now, ss);
    OpenEachRuns(t, t, now, ss);
    OpenedSettled(t, OpenSessions(t, now, monthLater).value.0, now, monthLater);
  }

  /** Tables in which every running session still runs and every snapshot
      session that should open runs are settled. */
  lemma OpenedSettled(t: Tables, u: Tables, now: Time, monthLater: Time)
    requires Valid(t) && WholeSecondTimes(t.sessions)
    requires FlagsOnly(t.sessions, u.sessions) && KeepsRunning(t, u)
    requires var ss := GetSessions(t, now, monthLater);
      forall k :: 0 <= k < |ss| && ShouldOpen(ss[k], now) ==> RunsSession(u, ss[k])
    ensures Settled(u, now, monthLater)
  {
    var ss := GetSessions(t, now, monthLater);
    forall i | 0 <= i < |u.sessions| && EndsWithin(u.sessions[i], now, monthLater) && u.sessions[i].start <= now
      ensures u.sessions[i].flags & Running != 0
    {
      assert u.sessions[i] == t.sessions[i].(flags := u.sessions[i].flags);
      GetSessionsComplete(t, now, monthLater, i);
      var s := DecodeRow(t, t.sessions[i]);
      var k :| 0 <= k < |ss| && ss[k] == s;
      if t.sessions[i].flags & Running == 0 {
        assert ShouldOpen(ss[k], now);
        assert RunsSession(u, ss[k]);
      }
    }
  }

  /** On settled tables `openSessions` opens nothing and writes nothing. */
  lemma SettledOpensNothing(t: Tables, now: Time, monthLater: Time)
    requires Settled(t, now, monthLater)
    ensures OpenSessions(t, now, monthLater) == Ok((t, []))
  {
    var ss := GetSessions(t, now, monthLater);
    forall k | 0 <= k < |ss|
      ensures !ShouldOpen(ss[k], now)
    {
      var j :| 0 <= j < |t.sessions| && ss[k] == DecodeRow(t, t.sessions[j]);
      assert EndsWithin(t.sessions[j], now, monthLater);
    }
    NothingToOpen(t, now, ss);
  }

  lemma {:induction false} NothingToOpen(t: Tables, now: Time, ss: seq<Session>)
    requires forall k :: 0 <= k < |ss| ==> !ShouldOpen(ss[k], now)
    ensures OpenEach(t, now, ss) == Ok((t, []))
    decreases |ss|
  {
    if |ss| > 0 {
      var e: seq<int> := [];
      assert OpenOne(t, now, ss[0]) == Ok((t, e));
      NothingToOpen(t, now, ss[1..]);
      assert OpenEach(t, now, ss[1..]) == Ok((t, e));
      assert e + e == e;
      assert OpenEach(t, now, ss) == Ok((t, e));
    }
  }

  /** A second `openSessions` at the same time changes nothing. */
  lemma OpenTwice(t: Tables, now: Time, monthLater: Time)
    requires Valid(t) && WholeSecondTimes(t.sessions)
    ensures var r := OpenSessions(t, now, monthLater);
      r.Ok? && OpenSessions(r.value.0, now, monthLater) == Ok((r.value.0, []))
  {
    OpenSessionsEffect(t, now, monthLater);
    SettledOpensNothing(OpenSessions(t, now, monthLater).value.0, now, monthLater);
  }

  // ---- closeSessions ----

  /** What closing does outside the tables, in order: the session written
      back, then the end-of-session report sent over a connection to a BBS
      as the session's call sign. */
  datatype Action =
    | Persisted(session: Session)
    | ReportSent(bbs: string, callSign: string, sessionId: int)

  predicate ShouldClose(s: Session, now: Time) { s.end < now }

  /** A report goes out when there are report recipients or listing the
      session's messages yields some. */
  predicate NeedsReport(s: Session, msgs: MessageStore.MessageTable): (b: bool)
    ensures b <==> |s.reportToText| != 0 || |s.reportToHtml| != 0 || |MessageStore.GetSessionMessages(msgs, s.id)| > 0
  {
    |s.reportToText| != 0 || |s.reportToHtml| != 0 || MessageStore.SessionHasMessages(msgs, s.id)
  }

  function Cleared(s: Session): Session { s.(flags := ClearRunning(s.flags)) }

  /** One iteration of `closeSessions`: a session past its end loses the
      running bit and is written back; then, if a report is needed, it is
      sent through the session's first destination BBS, whose absence is an
      index-out-of-range panic.  For a stored session it panics exactly
      when that happens, and otherwise its actions are the write-back of the
      cleared session followed by the report when one is needed. */
  function CloseOne(t: Tables, msgs: MessageStore.MessageTable, now: Time, s: Session): (r: Result<(Tables, seq<Action>)>)
    ensures r.Fatal? ==> ShouldClose(s, now)
    ensures s.id != 0 ==>
      (r.Fatal? <==> Stuck(s, msgs, now) || (ShouldClose(s, now) && !HasRow(t.sessions, s.id) && |s.retrieve| > 0))
    ensures r.Ok? ==> ReportsFollowWrites(r.value.1, msgs) && KeepsIds(t, r.value.0)
    ensures r.Ok? && s.id != 0 ==> PersistedOf(r.value.1) == (if ShouldClose(s, now) then [Cleared(s)] else [])
    ensures r.Ok? && !ShouldClose(s, now) ==> r.value == (t, [])
    ensures r.Ok? && ShouldClose(s, now) ==>
      UpdateSession(t, Cleared(s)).Ok? && r.value.0 == UpdateSession(t, Cleared(s)).value.tables
  {
    if !ShouldClose(s, now) then Ok((t, []))
    else
      match UpdateSession(t, Cleared(s))
      case Fatal(e) => Fatal(e)
      case Ok(saved) =>
        var c := saved.session;
        SavedKeepsIds(t, Cleared(s));
        if !NeedsReport(c, msgs) then
          WriteOnly(c, msgs);
          Ok((saved.tables, [Persisted(c)]))
        else if |c.toBbses| == 0 then Fatal("index out of range")
        else
          WriteThenReport(c, msgs);
          Ok((saved.tables, [Persisted(c), ReportSent(c.toBbses[0], c.callSign, c.id)]))
  }

  /** A lone write-back of a session needing no report. */
  lemma WriteOnly(c: Session, msgs: MessageStore.MessageTable)
    requires !NeedsReport(c, msgs)
    ensures PersistedOf([Persisted(c)]) == [c] && ReportsFollowWrites([Persisted(c)], msgs)
  {
    assert [Persisted(c)][1..] == [];
  }

  /** A write-back followed by the session's report. */
  lemma WriteThenReport(c: Session, msgs: MessageStore.MessageTable)
    requires NeedsReport(c, msgs) && |c.toBbses| > 0
    ensures var a := [Persisted(c), ReportSent(c.toBbses[0], c.callSign, c.id)];
      PersistedOf(a) == [c] && ReportsFollowWrites(a, msgs)
  {
    var a := [Persisted(c), ReportSent(c.toBbses[0], c.callSign, c.id)];
    assert a[1..][1..] == [];
    assert PersistedOf(a[1..]) == PersistedOf(a[1..][1..]) == [];
  }

  /** The loop of `closeSessions` over its snapshot.  Over stored sessions
      it panics exactly when some session is stuck; `CloseEachWrites` states
      its actions. */
  function CloseEach(t: Tables, msgs: MessageStore.MessageTable, now: Time, ss: seq<Session>): (r: Result<(Tables, seq<Action>)>)
    ensures r.Ok? ==> KeepsIds(t, r.value.0)
    ensures AllStored(t, ss) ==> (r.Fatal? <==> exists k :: 0 <= k < |ss| && Stuck(ss[k], msgs, now))
    decreases |ss|
  {
    if |ss| == 0 then Ok((t, []))
    else
      var step := CloseOne(t, msgs, now, ss[0]);
      if step.Fatal? then
        assert AllStored(t, ss) ==> Stuck(ss[0], msgs, now);
        Fatal(step.reason)
      else
        StoredTail(t, step.value.0, ss);
        var rest := CloseEach(step.value.0, msgs, now, ss[1..]);
        assert (ss[0].id != 0 && HasRow(t.sessions, ss[0].id)) ==>
          ((exists k :: 0 <= k < |ss| && Stuck(ss[k], msgs, now)) <==>
           (exists k :: 0 <= k < |ss| - 1 && Stuck(ss[1..][k], msgs, now))) by {
          if ss[0].id != 0 && HasRow(t.sessions, ss[0].id) {
            StuckTail(ss, msgs, now);
          }
        }
        if rest.Fatal? then rest else Ok((rest.value.0, step.value.1 + rest.value.1))
  }

  /** `closeSessions`, over the sessions running when it starts.  With
      non-zero row ids it panics exactly when a running session is stuck,
      and otherwise writes back the running sessions past their end; each
      report follows its own session's write-back. */
  function CloseSessions(t: Tables, msgs: MessageStore.MessageTable, now: Time): (r: Result<(Tables, seq<Action>)>)
    ensures r.Ok? ==> ReportsFollowWrites(r.value.1, msgs) && KeepsIds(t, r.value.0)
    ensures (forall i :: 0 <= i < |t.sessions| ==> t.sessions[i].id != 0) ==>
      && (r.Fatal? <==> exists k :: 0 <= k < |GetRunningSessions(t)| && Stuck(GetRunningSessions(t)[k], msgs, now))
      && (r.Ok? ==> PersistedOf(r.value.1) == ToClose(GetRunningSessions(t), now))
  {
    var ss := GetRunningSessions(t);
    SnapshotIds(t, ss);
    CloseEachWrites(t, msgs, now, ss);
    CloseEach(t, msgs, now, ss)
  }

  /** The reference for the rows after closing: a running row past its end
      loses the running bit, every other row stays as it was. */
  function ClosedRow(row: SessionRow, now: Time): SessionRow {
    if row.flags & Running != 0 && row.end < now then row.(flags := ClearRunning(row.flags)) else row
  }

  /** The sessions written back, in order. */
  function PersistedOf(actions: seq<Action>): seq<Session> {
    if |actions| == 0 then []
    else (if actions[0].Persisted? then [actions[0].session] else []) + PersistedOf(actions[1..])
  }

  /** The reference for what gets written back: the snapshot sessions past
      their end, running bit cleared. */
  function ToClose(ss: seq<Session>, now: Time): seq<Session> {
    if |ss| == 0 then []
    else (if ShouldClose(ss[0], now) then [Cleared(ss[0])] else []) + ToClose(ss[1..], now)
  }

  /** Every report directly follows the write-back of its own session, goes
      to that session's first BBS under its call sign, and is sent exactly
      when the session needs one. */
  ghost predicate ReportsFollowWrites(actions: seq<Action>, msgs: MessageStore.MessageTable) {
    && (|actions| > 0 ==> actions[0].Persisted?)
    && ReportsAfterOwnWrite(actions)
    && ReportedWhenNeeded(actions, msgs)
  }

  /** Each report comes right after the write-back of the session it is
      about, to that session's first BBS under its call sign. */
  ghost predicate ReportsAfterOwnWrite(actions: seq<Action>) {
    forall p :: 0 <= p < |actions| && actions[p].ReportSent? ==>
      p > 0 && actions[p - 1].Persisted? &&
      |actions[p - 1].session.toBbses| > 0 &&
      actions[p] == ReportSent(actions[p - 1].session.toBbses[0], actions[p - 1].session.callSign, actions[p - 1].session.id)
  }

  /** A write-back is followed by a report exactly when its session needs
      one. */
  ghost predicate ReportedWhenNeeded(actions: seq<Action>, msgs: MessageStore.MessageTable) {
    forall p {:trigger actions[p]} :: 0 <= p < |actions| && actions[p].Persisted? ==>
      (p + 1 < |actions| && actions[p + 1].ReportSent? <==> NeedsReport(actions[p].session, msgs))
  }

  /** A closing session that needs a report but has no BBS to send it to. */
  predicate Stuck(s: Session, msgs: MessageStore.MessageTable, now: Time) {
    ShouldClose(s, now) && NeedsReport(s, msgs) && |s.toBbses| == 0
  }

  /** Rows are either untouched or closed as the reference says. */
  ghost predicate ClosedOrUntouched(t0: Tables, u: Tables, now: Time) {
    |u.sessions| == |t0.sessions| &&
    forall i :: 0 <= i < |u.sessions| ==> u.sessions[i] == t0.sessions[i] || u.sessions[i] == ClosedRow(t0.sessions[i], now)
  }

  /** No row carrying `s`'s identity is running. */
  ghost predicate StopsSession(u: Tables, s: Session) {
    forall i :: 0 <= i < |u.sessions| && u.sessions[i].id == s.id ==> u.sessions[i].flags & Running == 0
  }

  ghost predicate RunningSnapshot(t0: Tables, ss: seq<Session>) {
    forall k :: 0 <= k < |ss| ==> FromRow(t0, ss[k]) && ss[k].flags & Running != 0
  }

  ghost predicate Closing(t0: Tables, t: Tables, now: Time) {
    Valid(t) && WholeSecondTimes(t0.sessions) && FlagsOnly(t0.sessions, t.sessions) && ClosedOrUntouched(t0, t, now)
  }

  lemma CloseOneEffect(t0: Tables, t: Tables, msgs: MessageStore.MessageTable, now: Time, s: Session)
    requires Closing(t0, t, now) && FromRow(t0, s) && s.flags & Running != 0
    ensures var r := CloseOne(t, msgs, now, s);
      && (r.Fatal? <==> Stuck(s, msgs, now))
      && (r.Ok? ==>
            && Closing(t0, r.value.0, now)
            && (ShouldClose(s, now) ==> StopsSession(r.value.0, s))
            && (forall i :: 0 <= i < |t.sessions| && t.sessions[i].flags & Running == 0 ==>
                  r.value.0.sessions[i].flags & Running == 0)
            && (forall i :: 0 <= i < |t.sessions| && t.sessions[i].id != s.id ==> r.value.0.sessions[i] == t.sessions[i]))
  {
    var j := RowOf(t0, t, s);
    assert s.id != 0 && HasRow(t.sessions, s.id) by {
      assert t.sessions[j].id == s.id;
    }
    if ShouldClose(s, now) {
      var f := ClearRunning(s.flags);
      FlagWrite(t0, t, j, f);
      assert Cleared(s) == DecodeRow(t0, t0.sessions[j]).(flags := f);
      var u := UpdateSession(t, Cleared(s)).value.tables;
      ClearedRow(t0, t, u, now, s, j);
    }
  }

  /** The tables after clearing the running bit of snapshot session `s`,
      stored in row `j`. */
  lemma ClearedRow(t0: Tables, t: Tables, u: Tables, now: Time, s: Session, j: nat)
    requires Closing(t0, t, now) && s.flags & Running != 0 && ShouldClose(s, now)
    requires j < |t0.sessions| && s == DecodeRow(t0, t0.sessions[j])
    requires forall i :: 0 <= i < |t.sessions| && t.sessions[i].id == s.id ==> i == j
    requires u.sessions == t.sessions[j := t.sessions[j].(flags := ClearRunning(s.flags))]
    requires Valid(u) && FlagsOnly(t0.sessions, u.sessions)
    ensures Closing(t0, u, now) && StopsSession(u, s)
    ensures forall i :: 0 <= i < |t.sessions| && t.sessions[i].flags & Running == 0 ==> u.sessions[i].flags & Running == 0
    ensures forall i :: 0 <= i < |t.sessions| && t.sessions[i].id != s.id ==> u.sessions[i] == t.sessions[i]
  {
    RunningBitOnly(s.flags);
    assert s.flags == t0.sessions[j].flags && s.end == t0.sessions[j].end;
    assert u.sessions[j] == ClosedRow(t0.sessions[j], now);
  }

  lemma ReportsFollowWritesConcat(a: seq<Action>, b: seq<Action>, msgs: MessageStore.MessageTable)
    requires ReportsFollowWrites(a, msgs) && ReportsFollowWrites(b, msgs)
    ensures ReportsFollowWrites(a + b, msgs)
  {
    ReportsAfterOwnWriteConcat(a, b);
    ReportedWhenNeededConcat(a, b, msgs);
    if |a| > 0 {
      assert (a + b)[0] == a[0];
    } else {
      assert a + b == b;
    }
  }

  lemma ReportsAfterOwnWriteConcat(a: seq<Action>, b: seq<Action>)
    requires ReportsAfterOwnWrite(a) && ReportsAfterOwnWrite(b)
    requires |b| > 0 ==> b[0].Persisted?
    ensures ReportsAfterOwnWrite(a + b)
  {
    var ab := a + b;
    forall p | 0 <= p < |ab| && ab[p].ReportSent?
      ensures p > 0 && ab[p - 1].Persisted? &&
        |ab[p - 1].session.toBbses| > 0 &&
        ab[p] == ReportSent(ab[p - 1].session.toBbses[0], ab[p - 1].session.callSign, ab[p - 1].session.id)
    {
      if p >= |a| {
        assert ab[p] == b[p - |a|];
        assert p - |a| > 0;
        assert ab[p - 1] == b[p - 1 - |a|];
      } else {
        assert ab[p] == a[p];
        assert ab[p - 1] == a[p - 1];
      }
    }
  }

  lemma ReportedWhenNeededConcat(a: seq<Action>, b: seq<Action>, msgs: MessageStore.MessageTable)
    requires ReportedWhenNeeded(a, msgs) && ReportedWhenNeeded(b, msgs)
    requires |b| > 0 ==> b[0].Persisted?
    ensures ReportedWhenNeeded(a + b, msgs)
  {
    var ab := a + b;
    forall p | 0 <= p < |ab| && ab[p].Persisted?
      ensures p + 1 < |ab| && ab[p + 1].ReportSent? <==> NeedsReport(ab[p].session, msgs)
    {
      if p >= |a| {
        var q := p - |a|;
        assert ab[p] == b[q];
        assert b[q].Persisted?;
        if p + 1 < |ab| {
          assert ab[p + 1] == b[q + 1];
        }
      } else if p + 1 < |a| {
        assert ab[p] == a[p] && ab[p + 1] == a[p + 1];
      } else {
        assert ab[p] == a[p];
        assert !NeedsReport(a[p].session, msgs);
        if |b| > 0 {
          assert ab[p + 1] == b[0];
        }
      }
    }
  }

  lemma {:induction false} PersistedOfConcat(a: seq<Action>, b: seq<Action>)
    ensures PersistedOf(a + b) == PersistedOf(a) + PersistedOf(b)
    decreases |a|
  {
    if |a| > 0 {
      assert (a + b)[1..] == a[1..] + b;
      PersistedOfConcat(a[1..], b);
    } else {
      assert a + b == b;
    }
  }

  /** Over a snapshot of running sessions, the loop panics exactly when
      some session to close needs a report and has no BBS. */
  lemma CloseEachPanics(t0: Tables, t: Tables, msgs: MessageStore.MessageTable, now: Time, ss: seq<Session>)
    requires Closing(t0, t, now) && RunningSnapshot(t0, ss)
    ensures CloseEach(t, msgs, now, ss).Fatal? <==> exists k :: 0 <= k < |ss| && Stuck(ss[k], msgs, now)
  {
    SnapshotStored(t0, t, ss);
    StoredPanics(t, msgs, now, ss);
  }

  /** When the loop over a snapshot of running sessions succeeds, it has
      stopped every session past its end and started none. */
  lemma {:induction false} CloseEachEffect(t0: Tables, t: Tables, msgs: MessageStore.MessageTable, now: Time, ss: seq<Session>)
    requires Closing(t0, t, now) && RunningSnapshot(t0, ss)
    ensures var r := CloseEach(t, msgs, now, ss);
      r.Ok? ==>
        && Closing(t0, r.value.0, now)
        && (forall k :: 0 <= k < |ss| && ShouldClose(ss[k], now) ==> StopsSession(r.value.0, ss[k]))
        && (forall i :: 0 <= i < |t.sessions| && t.sessions[i].flags & Running == 0 ==>
              r.value.0.sessions[i].flags & Running == 0)
    decreases |ss|
  {
    if |ss| > 0 {
      var rest := ss[1..];
      RunningSnapshotTail(t0, ss);
      CloseOneEffect(t0, t, msgs, now, ss[0]);
      var step := CloseOne(t, msgs, now, ss[0]);
      if step.Ok? {
        var t1 := step.value.0;
        CloseEachEffect(t0, t1, msgs, now, rest);
        var tail := CloseEach(t1, msgs, now, rest);
        if tail.Ok? {
          var u := tail.value.0;
          assert CloseEach(t, msgs, now, ss) == Ok((u, step.value.1 + tail.value.1));
          CloseEachJoin(t0, t, t1, u, now, ss);
        }
      }
    }
  }

  /** The snapshot sessions are stored in the working tables under
      non-zero identities. */
  lemma SnapshotStored(t0: Tables, t: Tables, ss: seq<Session>)
    requires Valid(t) && FlagsOnly(t0.sessions, t.sessions)
    requires forall k :: 0 <= k < |ss| ==> FromRow(t0, ss[k])
    ensures AllStored(t, ss)
  {
    forall k | 0 <= k < |ss|
      ensures ss[k].id != 0 && HasRow(t.sessions, ss[k].id)
    {
      var j :| 0 <= j < |t0.sessions| && ss[k] == DecodeRow(t0, t0.sessions[j]);
      assert t.sessions[j].id == ss[k].id;
    }
  }

  /** Over stored sessions, the loop panics exactly when one is stuck. */
  lemma StoredPanics(t: Tables, msgs: MessageStore.MessageTable, now: Time, ss: seq<Session>)
    requires AllStored(t, ss)
    ensures CloseEach(t, msgs, now, ss).Fatal? <==> exists k :: 0 <= k < |ss| && Stuck(ss[k], msgs, now)
  {
  }

  lemma RunningSnapshotTail(t0: Tables, ss: seq<Session>)
    requires |ss| > 0 && RunningSnapshot(t0, ss)
    ensures RunningSnapshot(t0, ss[1..])
  {
    forall k | 0 <= k < |ss| - 1
      ensures FromRow(t0, ss[1..][k]) && ss[1..][k].flags & Running != 0
    {
      assert ss[1..][k] == ss[k + 1];
    }
  }


  /** The loop's actions, for any tables and sessions: each report directly
      follows its own session's write-back and is sent exactly when that
      session needs one; with non-zero identities the write-backs are
      exactly the sessions past their end, running bit cleared, in order. */
  lemma {:induction false} CloseEachWrites(t: Tables, msgs: MessageStore.MessageTable, now: Time, ss: seq<Session>)
    ensures var r := CloseEach(t, msgs, now, ss);
      r.Ok? ==>
        && ReportsFollowWrites(r.value.1, msgs)
        && ((forall k :: 0 <= k < |ss| ==> ss[k].id != 0) ==> PersistedOf(r.value.1) == ToClose(ss, now))
    decreases |ss|
  {
    if |ss| > 0 {
      var rest := ss[1..];
      var step := CloseOne(t, msgs, now, ss[0]);
      if step.Ok? {
        var t1 := step.value.0;
        CloseEachWrites(t1, msgs, now, rest);
        var tail := CloseEach(t1, msgs, now, rest);
        if tail.Ok? {
          assert CloseEach(t, msgs, now, ss) == Ok((tail.value.0, step.value.1 + tail.value.1));
          CloseEachWritesJoin(step.value.1, tail.value.1, msgs, now, ss);
        }
      }
    }
  }

  /** The step of `CloseEachWrites`: the first session's actions followed
      by those of the rest. */
  lemma CloseEachWritesJoin(a: seq<Action>, b: seq<Action>, msgs: MessageStore.MessageTable, now: Time, ss: seq<Session>)
    requires |ss| > 0
    requires ReportsFollowWrites(a, msgs) && ReportsFollowWrites(b, msgs)
    requires ss[0].id != 0 ==> PersistedOf(a) == (if ShouldClose(ss[0], now) then [Cleared(ss[0])] else [])
    requires (forall k :: 0 <= k < |ss| - 1 ==> ss[1..][k].id != 0) ==> PersistedOf(b) == ToClose(ss[1..], now)
    ensures ReportsFollowWrites(a + b, msgs)
    ensures (forall k :: 0 <= k < |ss| ==> ss[k].id != 0) ==> PersistedOf(a + b) == ToClose(ss, now)
  {
    var rest := ss[1..];
    ReportsFollowWritesConcat(a, b, msgs);
    PersistedOfConcat(a, b);
    assert ToClose(ss, now) == (if ShouldClose(ss[0], now) then [Cleared(ss[0])] else []) + ToClose(rest, now);
    assert forall k :: 0 <= k < |rest| ==> rest[k] == ss[k + 1];
  }

  lemma StuckTail(ss: seq<Session>, msgs: MessageStore.MessageTable, now: Time)
    requires |ss| > 0 && !Stuck(ss[0], msgs, now)
    ensures (exists k :: 0 <= k < |ss| && Stuck(ss[k], msgs, now)) <==> (exists k :: 0 <= k < |ss| - 1 && Stuck(ss[1..][k], msgs, now))
  {
    var rest := ss[1..];
    forall k | 0 <= k < |ss| && Stuck(ss[k], msgs, now)
      ensures exists k' :: 0 <= k' < |rest| && Stuck(rest[k'], msgs, now)
    {
      assert k > 0 && rest[k - 1] == ss[k];
    }
    forall k | 0 <= k < |rest| && Stuck(rest[k], msgs, now)
      ensures exists k' :: 0 <= k' < |ss| && Stuck(ss[k'], msgs, now)
    {
      assert ss[k + 1] == rest[k];
    }
  }

  /** The first step and the rest of the loop combine: the sessions
      stopped by either stay stopped, and no stopped row restarts. */
  lemma CloseEachJoin(t0: Tables, t: Tables, t1: Tables, u: Tables, now: Time, ss: seq<Session>)
    requires |ss| > 0
    requires Closing(t0, t, now) && Closing(t0, t1, now) && Closing(t0, u, now)
    requires ShouldClose(ss[0], now) ==> StopsSession(t1, ss[0])
    requires forall i :: 0 <= i < |t.sessions| && t.sessions[i].flags & Running == 0 ==> t1.sessions[i].flags & Running == 0
    requires forall i :: 0 <= i < |t1.sessions| && t1.sessions[i].flags & Running == 0 ==> u.sessions[i].flags & Running == 0
    requires forall k :: 0 <= k < |ss| - 1 && ShouldClose(ss[1..][k], now) ==> StopsSession(u, ss[1..][k])
    ensures forall k :: 0 <= k < |ss| && ShouldClose(ss[k], now) ==> StopsSession(u, ss[k])
    ensures forall i :: 0 <= i < |t.sessions| && t.sessions[i].flags & Running == 0 ==> u.sessions[i].flags & Running == 0
  {
    assert forall i :: 0 <= i < |t0.sessions| ==> u.sessions[i].id == t0.sessions[i].id == t1.sessions[i].id;
    StopsAll(t0, t1, u, now, ss);
  }

  /** Stopping the first session survives the rest of the pass. */
  lemma StopsAll(t0: Tables, t1: Tables, u: Tables, now: Time, ss: seq<Session>)
    requires |ss| > 0
    requires |t0.sessions| == |t1.sessions| == |u.sessions|
    requires forall i :: 0 <= i < |t0.sessions| ==> u.sessions[i].id == t0.sessions[i].id == t1.sessions[i].id
    requires ShouldClose(ss[0], now) ==> StopsSession(t1, ss[0])
    requires forall i :: 0 <= i < |t1.sessions| && t1.sessions[i].flags & Running == 0 ==> u.sessions[i].flags & Running == 0
    requires forall k :: 0 <= k < |ss| - 1 && ShouldClose(ss[1..][k], now) ==> StopsSession(u, ss[1..][k])
    ensures forall k :: 0 <= k < |ss| && ShouldClose(ss[k], now) ==> StopsSession(u, ss[k])
  {
    forall k | 0 <= k < |ss| && ShouldClose(ss[k], now)
      ensures StopsSession(u, ss[k])
    {
      if k > 0 {
        assert ss[1..][k - 1] == ss[k];
      }
    }
  }

  /** `closeSessions` fails only when a session to close needs a report and
      has no BBS to send it to.  Otherwise the rows afterwards are exactly
      the reference: every running session past its end has lost the running
      bit and nothing else changed; the sessions written back are the
      running ones past their end, in snapshot order; and each report
      directly follows its session's write-back. */
  lemma CloseSessionsEffect(t: Tables, msgs: MessageStore.MessageTable, now: Time)
    requires Valid(t) && WholeSecondTimes(t.sessions)
    ensures var ss := GetRunningSessions(t);
      var r := CloseSessions(t, msgs, now);
      && (r.Fatal? <==> exists k :: 0 <= k < |ss| && Stuck(ss[k], msgs, now))
      && (r.Ok? ==>
            && Valid(r.value.0)
            && |r.value.0.sessions| == |t.sessions|
            && (forall i :: 0 <= i < |t.sessions| ==> r.value.0.sessions[i] == ClosedRow(t.sessions[i], now))
            && PersistedOf(r.value.1) == ToClose(ss, now)
            && ReportsFollowWrites(r.value.1, msgs))
  {
    var ss := GetRunningSessions(t);
    assert FlagsOnly(t.sessions, t.sessions);
    assert ClosedOrUntouched(t, t, now);
    CloseEachPanics(t, t, msgs, now, ss);
    CloseEachEffect(t, t, msgs, now, ss);
    var r := CloseSessions(t, msgs, now);
    if r.Ok? {
      ClosedRowsExactly(t, r.value.0, now);
    }
  }

  /** Tables in which every running snapshot session past its end is
      stopped, and each row is untouched or closed, hold exactly the closed
      rows. */
  lemma ClosedRowsExactly(t: Tables, u: Tables, now: Time)
    requires Closing(t, u, now)
    requires var ss := GetRunningSessions(t);
      forall k :: 0 <= k < |ss| && ShouldClose(ss[k], now) ==> StopsSession(u, ss[k])
    ensures forall i :: 0 <= i < |t.sessions| ==> u.sessions[i] == ClosedRow(t.sessions[i], now)
  {
    var ss := GetRunningSessions(t);
    forall i | 0 <= i < |t.sessions|
      ensures u.sessions[i] == ClosedRow(t.sessions[i], now)
    {
      var row := t.sessions[i];
      if row.flags & Running != 0 && row.end < now {
        RunningSessionsExactly(t);
        assert DecodeRow(t, row) in ss;
        var k :| 0 <= k < |ss| && ss[k] == DecodeRow(t, row);
        assert StopsSession(u, ss[k]);
        assert u.sessions[i].id == row.id;
        assert u.sessions[i] != row;
      } else {
        assert ClosedRow(row, now) == row;
      }
    }
  }


  lemma {:induction false} NothingToClose(t: Tables, msgs: MessageStore.MessageTable, now: Time, ss: seq<Session>)
    requires forall k :: 0 <= k < |ss| ==> !ShouldClose(ss[k], now)
    ensures CloseEach(t, msgs, now, ss) == Ok((t, []))
    decreases |ss|
  {
    if |ss| > 0 {
      var e: seq<Action> := [];
      assert CloseOne(t, msgs, now, ss[0]) == Ok((t, e));
      NothingToClose(t, msgs, now, ss[1..]);
      assert e + e == e;
    }
  }

  /** Once `closeSessions` has succeeded, running it again at the same time
      writes nothing, sends nothing and changes no row. */
  lemma CloseTwice(t: Tables, msgs: MessageStore.MessageTable, now: Time)
    requires Valid(t) && WholeSecondTimes(t.sessions)
    requires CloseSessions(t, msgs, now).Ok?
    ensures var u := CloseSessions(t, msgs, now).value.0;
      CloseSessions(u, msgs, now) == Ok((u, []))
  {
    CloseSessionsEffect(t, msgs, now);
    var u := CloseSessions(t, msgs, now).value.0;
    ClosedRowsSettled(t, u, now);
    NothingToClose(u, msgs, now, GetRunningSessions(u));
  }

  /** After closing, no running session is past its end. */
  lemma ClosedRowsSettled(t: Tables, u: Tables, now: Time)
    requires |u.sessions| == |t.sessions|
    requires forall i :: 0 <= i < |t.sessions| ==> u.sessions[i] == ClosedRow(t.sessions[i], now)
    ensures forall k :: 0 <= k < |GetRunningSessions(u)| ==> !ShouldClose(GetRunningSessions(u)[k], now)
  {
    var ss := GetRunningSessions(u);
    forall k | 0 <= k < |ss|
      ensures !ShouldClose(ss[k], now)
    {
      var j :| 0 <= j < |u.sessions| && ss[k] == DecodeRow(u, u.sessions[j]);
      ClosedRowNotDue(t.sessions[j], u, now);
    }
  }

  /** A closed row that still reads back as running is not past its end. */
  lemma ClosedRowNotDue(row: SessionRow, u: Tables, now: Time)
    ensures var s := DecodeRow(u, ClosedRow(row, now));
      s.flags & Running != 0 ==> !ShouldClose(s, now)
  {
  }
}

=== FILE: list_codec.dfy ===
/** The codec for list-valued session fields (store/store.go).

    A list is stored as its elements joined with ';' (Go's
    `strings.Join(list, ";")`) and read back with `split`, which, unlike
    `strings.Split`, turns the empty string into the empty list. */
module ListCodec {

  const Separator: char := ';'

  /** The number of separators in `s`. */
  function Separators(s: string): nat {
    if |s| == 0 then 0
    else (if s[0] == Separator then 1 else 0) + Separators(s[1..])
  }

  /** Go's `strings.Split(s, ";")`: the pieces between separators, always at
      least one. */
  function SplitAll(s: string): (r: seq<string>)
    ensures |r| == Separators(s) + 1
    ensures forall i :: 0 <= i < |r| ==> Separator !in r[i]
  {
    if |s| == 0 then [""]
    else
      var rest := SplitAll(s[1..]);
      if s[0] == Separator then [""] + rest
      else [[s[0]] + rest[0]] + rest[1..]
  }

  /** Go's `strings.Join(list, ";")`. */
  function Join(list: seq<string>): string {
    if |list| == 0 then ""
    else if |list| == 1 then list[0]
    else list[0] + [Separator] + Join(list[1..])
  }

  /** `split` from store/store.go. */
  function Split(s: string): (r: seq<string>)
    ensures s == "" <==> r == []
    ensures s != "" ==> |r| == Separators(s) + 1
    ensures forall i :: 0 <= i < |r| ==> Separator !in r[i]
  {
    if s == "" then [] else SplitAll(s)
  }

  /** Whether a list survives the codec unchanged: no element contains the
      separator, and it is not the one-element list holding "" (which joins to
      "" and so reads back as the empty list). */
  predicate Storable(list: seq<string>) {
    && list != [""]
    && forall i :: 0 <= i < |list| ==> Separator !in list[i]
  }

  lemma {:induction false} JoinSplitAll(s: string)
    ensures Join(SplitAll(s)) == s
    decreases |s|
  {
    if |s| > 0 {
      var rest := SplitAll(s[1..]);
      JoinSplitAll(s[1..]);
      if s[0] == Separator {
        assert SplitAll(s) == [""] + rest;
        JoinEmptyHead(rest);
      } else {
        assert SplitAll(s) == [[s[0]] + rest[0]] + rest[1..];
        JoinExtendHead(s[0], rest);
      }
      assert s == [s[0]] + s[1..];
    }
  }

  /** An empty first element adds a leading separator. */
  lemma JoinEmptyHead(rest: seq<string>)
    requires |rest| > 0
    ensures Join([""] + rest) == [Separator] + Join(rest)
  {
    assert ([""] + rest)[1..] == rest;
  }

  lemma ConsAssoc(c: char, a: string, tail: string)
    ensures ([c] + a) + [Separator] + tail == [c] + (a + [Separator] + tail)
  {
  }

  /** Extending the first element by a character extends the joined text. */
  lemma JoinExtendHead(c: char, rest: seq<string>)
    requires |rest| > 0
    ensures Join([[c] + rest[0]] + rest[1..]) == [c] + Join(rest)
  {
    var l := [[c] + rest[0]] + rest[1..];
    if |rest| == 1 {
      assert l == [[c] + rest[0]];
    } else {
      assert l[1..] == rest[1..];
      ConsAssoc(c, rest[0], Join(rest[1..]));
    }
  }

  /** Reading back what was stored gives the stored text: join(split(s)) == s. */
  lemma JoinSplit(s: string)
    ensures Join(Split(s)) == s
  {
    if s != "" {
      JoinSplitAll(s);
    }
  }

  lemma {:induction false} SplitAllJoin(list: seq<string>)
    requires |list| > 0
    requires forall i :: 0 <= i < |list| ==> Separator !in list[i]
    ensures SplitAll(Join(list)) == list
    decreases |list|
  {
    if |list| == 1 {
      SplitAllNoSeparator(list[0]);
    } else {
      SplitAllJoin(list[1..]);
      SplitAllPrefix(list[0], Join(list[1..]));
      assert list == [list[0]] + list[1..];
    }
  }

  lemma {:induction false} SplitAllNoSeparator(s: string)
    requires Separator !in s
    ensures SplitAll(s) == [s]
    decreases |s|
  {
    if |s| > 0 {
      SplitAllNoSeparator(s[1..]);
      assert s == [s[0]] + s[1..];
    }
  }

  /** Splitting `a ; b` where `a` has no separator yields `a` before the
      pieces of `b`. */
  lemma {:induction false} SplitAllPrefix(a: string, b: string)
    requires Separator !in a
    ensures SplitAll(a + [Separator] + b) == [a] + SplitAll(b)
    decreases |a|
  {
    var s := a + [Separator] + b;
    if |a| == 0 {
      assert s == [Separator] + b;
      assert s[1..] == b;
    } else {
      assert s[1..] == a[1..] + [Separator] + b;
      SplitAllPrefix(a[1..], b);
      assert [s[0]] + a[1..] == a;
    }
  }

  /** A storable list reads back unchanged: split(join(l)) == l. */
  lemma SplitJoin(list: seq<string>)
    requires Storable(list)
    ensures Split(Join(list)) == list
  {
    if |list| == 0 {
    } else if |list| == 1 {
      SplitAllJoin(list);
    } else {
      SplitAllJoin(list);
      assert |Join(list)| > 0;
    }
  }

  /** The two lists the codec cannot tell apart. */
  lemma EmptyElementIsLost()
    ensures Split(Join([""])) == []
  {
  }
}

=== FILE: login_store.dfy ===
/** Ephemeral web login tokens (store/login.go).

    Expiry times are stored at whole-second precision, and the purge compares
    them with the current time formatted the same way. */
module LoginStore {
  import opened Clock

  datatype Login = Login(token: string, callSign: string, expires: Time)

  type LoginTable = seq<Login>

  /** A login survives a purge at `now` unless it expired strictly before. */
  predicate Live(l: Login, now: Time) {
    l.expires >= Stored(now, WholeSeconds)
  }

  /** `DELETE FROM login WHERE expires<?`: keeps the live logins, in order. */
  function Purge(t: LoginTable, now: Time): (r: LoginTable)
    ensures |r| <= |t|
    ensures forall i :: 0 <= i < |r| ==> r[i] in t && Live(r[i], now)
  {
    if |t| == 0 then []
    else (if Live(t[0], now) then [t[0]] else []) + Purge(t[1..], now)
  }

  /** Every live login survives the purge unchanged. */
  lemma {:induction false} PurgeKeepsLive(t: LoginTable, now: Time, k: nat)
    requires k < |t| && Live(t[k], now)
    ensures t[k] in Purge(t, now)
    decreases k
  {
    if k > 0 {
      PurgeKeepsLive(t[1..], now, k - 1);
    }
  }

  /** A second purge at the same time removes nothing. */
  lemma {:induction false} PurgeIdempotent(t: LoginTable, now: Time)
    ensures Purge(Purge(t, now), now) == Purge(t, now)
    decreases |t|
  {
    if |t| > 0 {
      var rest := Purge(t[1..], now);
      PurgeIdempotent(t[1..], now);
      if Live(t[0], now) {
        assert Purge(t, now) == [t[0]] + rest;
        assert ([t[0]] + rest)[1..] == rest;
        assert Purge([t[0]] + rest, now) == [t[0]] + Purge(rest, now);
      } else {
        assert Purge(t, now) == rest;
      }
    }
  }

  /** Purging at a later time never brings a login back. */
  lemma {:induction false} PurgeLaterIsSmaller(t: LoginTable, now: Time, later: Time)
    requires now <= later
    ensures Purge(Purge(t, now), later) == Purge(t, later)
    decreases |t|
  {
    if |t| > 0 {
      var rest := Purge(t[1..], now);
      PurgeLaterIsSmaller(t[1..], now, later);
      StoredMonotone(now, later);
      if Live(t[0], now) {
        assert Purge(t, now) == [t[0]] + rest;
        assert ([t[0]] + rest)[1..] == rest;
        assert Purge([t[0]] + rest, later) == (if Live(t[0], later) then [t[0]] else []) + Purge(rest, later);
      } else {
        assert Purge(t, now) == rest;
        assert !Live(t[0], later);
      }
    }
  }

  lemma StoredMonotone(a: Time, b: Time)
    requires a <= b
    ensures Stored(a, WholeSeconds) <= Stored(b, WholeSeconds)
  {
    assert a / Second <= b / Second;
    assert Stored(a, WholeSeconds) == (a / Second) * Second;
    assert Stored(b, WholeSeconds) == (b / Second) * Second;
  }

  /** `AddLogin`: adds exactly one login, its expiry cut to whole seconds. */
  function AddLogin(t: LoginTable, token: string, callSign: string, expires: Time): (r: LoginTable)
    ensures |r| == |t| + 1 && r[..|t|] == t
    ensures r[|t|].token == token && r[|t|].callSign == callSign
    ensures r[|t|].expires <= expires < r[|t|].expires + Second
  {
    t + [Login(token, callSign, Stored(expires, WholeSeconds))]
  }

  function Lookup(t: LoginTable, token: string): (callSign: string)
    ensures callSign != "" ==> exists i :: 0 <= i < |t| && t[i].token == token && t[i].callSign == callSign
  {
    if |t| == 0 then ""
    else if t[0].token == token then t[0].callSign
    else Lookup(t[1..], token)
  }

  /** `GetLogin`: purges expired logins, then looks the token up among the
      survivors.  A call sign comes back only from a live login with that
      token; the empty string means there is none (or its call sign is
      empty). */
  function GetLogin(t: LoginTable, token: string, now: Time): (r: (LoginTable, string))
    ensures r.0 == Purge(t, now)
    ensures r.1 != "" ==> exists l :: l in t && Live(l, now) && l.token == token && l.callSign == r.1
  {
    var kept := Purge(t, now);
    var callSign := Lookup(kept, token);
    LookupLive(t, token, now);
    (kept, callSign)
  }

  lemma LookupLive(t: LoginTable, token: string, now: Time)
    ensures var c := Lookup(Purge(t, now), token);
      c != "" ==> exists l :: l in t && Live(l, now) && l.token == token && l.callSign == c
  {
    var kept := Purge(t, now);
    var c := Lookup(kept, token);
    if c != "" {
      var i :| 0 <= i < |kept| && kept[i].token == token && kept[i].callSign == c;
      assert kept[i] in t;
    }
  }

  lemma {:induction false} LookupFinds(t: LoginTable, token: string, k: nat)
    requires k < |t| && t[k].token == token
    requires forall i :: 0 <= i < |t| && t[i].token == token ==> t[i].callSign == t[k].callSign
    ensures Lookup(t, token) == t[k].callSign
    decreases k
  {
    if t[0].token != token {
      LookupFinds(t[1..], token, k - 1);
    }
  }

  /** A live login whose token is not shared with another live login is
      found: `GetLogin` returns its call sign. */
  lemma GetLoginFindsLive(t: LoginTable, token: string, now: Time, k: nat)
    requires k < |t| && t[k].token == token && Live(t[k], now)
    requires forall i :: 0 <= i < |t| && t[i].token == token && Live(t[i], now) ==> i == k
    ensures GetLogin(t, token, now).1 == t[k].callSign
  {
    var kept := Purge(t, now);
    PurgeKeepsLive(t, now, k);
    var j :| 0 <= j < |kept| && kept[j] == t[k];
    forall i | 0 <= i < |kept| && kept[i].token == token
      ensures kept[i].callSign == t[k].callSign
    {
      assert kept[i] in t;
      var a :| 0 <= a < |t| && t[a] == kept[i];
    }
    LookupFinds(kept, token, j);
  }

  /** An expired login is never honoured, even if still in the table. */
  lemma GetLoginRejectsExpired(t: LoginTable, token: string, now: Time)
    requires forall i :: 0 <= i < |t| && t[i].token == token ==> !Live(t[i], now)
    ensures GetLogin(t, token, now).1 == ""
  {
  }
}

=== FILE: message_ids.dfy ===
/** Per-prefix message identifier counters (store/msgid.go).

    Each prefix has one stored counter; `NextMessageID` reads it (a missing
    counter counts as 0), stores the next number and formats it as
    prefix, "-", the number zero-padded to at least three digits, and "P". */
module MessageIds {

  type Counters = map<string, int>

  // ---- decimal formatting (Go's %d and %03d) ----

  predicate IsDigit(c: char) { '0' <= c <= '9' }

  predicate AllDigits(s: string) {
    forall i :: 0 <= i < |s| ==> IsDigit(s[i])
  }

  function DigitChar(d: nat): (c: char)
    requires d < 10
    ensures IsDigit(c)
  {
    ('0' as int + d) as char
  }

  function DigitValue(c: char): (d: nat)
    requires IsDigit(c)
    ensures d < 10
  {
    (c as int - '0' as int) as nat
  }

  lemma DigitValueOfChar(d: nat)
    requires d < 10
    ensures DigitValue(DigitChar(d)) == d
  {
  }

  /** The shortest decimal spelling of `n`. */
  function Digits(n: nat): (s: string)
    ensures |s| >= 1 && AllDigits(s)
    ensures n >= 10 ==> s[0] != '0'
    decreases n
  {
    if n < 10 then [DigitChar(n)] else Digits(n / 10) + [DigitChar(n % 10)]
  }

  /** Reads a run of decimal digits, most significant first. */
  function Value(s: string): nat
    requires AllDigits(s)
    decreases |s|
  {
    if |s| == 0 then 0 else Value(s[..|s| - 1]) * 10 + DigitValue(s[|s| - 1])
  }

  function Zeros(k: nat): (s: string)
    ensures |s| == k && AllDigits(s)
  {
    seq(k, _ => '0')
  }

  /** Left-pads with zeros to at least width `w`, as the `0` flag does. */
  function Pad(s: string, w: nat): (r: string)
    requires AllDigits(s)
    ensures AllDigits(r)
    ensures |r| == if |s| >= w then |s| else w
  {
    if |s| >= w then s else Zeros(w - |s|) + s
  }

  /** `%03d`: the width counts the minus sign of a negative number. */
  function Number(n: int): (s: string)
    ensures |s| >= 3
    ensures n >= 0 <==> AllDigits(s)
  {
    if n >= 0 then Pad(Digits(n), 3)
    else
      var r := "-" + Pad(Digits(-n), 2);
      assert !IsDigit(r[0]);
      r
  }

  /** Reads back what `Number` wrote. */
  function ParseNumber(s: string): int
  {
    if AllDigits(s) then Value(s)
    else if |s| > 0 && s[0] == '-' && AllDigits(s[1..]) then 0 - Value(s[1..]) as int
    else 0
  }

  lemma {:induction false} ValueOfDigits(n: nat)
    ensures Value(Digits(n)) == n
    decreases n
  {
    if n >= 10 {
      var s := Digits(n);
      assert s[..|s| - 1] == Digits(n / 10);
      ValueOfDigits(n / 10);
      DigitValueOfChar(n % 10);
    } else {
      DigitValueOfChar(n);
    }
  }

  lemma {:induction false} LeadingZeroIgnored(s: string)
    requires AllDigits(s)
    ensures Value("0" + s) == Value(s)
    decreases |s|
  {
    if |s| > 0 {
      var t := "0" + s;
      assert t[..|t| - 1] == "0" + s[..|s| - 1];
      LeadingZeroIgnored(s[..|s| - 1]);
    } else {
      assert ("0" + s)[..0] == [];
    }
  }

  lemma {:induction false} LeadingZerosIgnored(k: nat, s: string)
    requires AllDigits(s)
    ensures Value(Zeros(k) + s) == Value(s)
    decreases k
  {
    if k > 0 {
      assert Zeros(k) + s == "0" + (Zeros(k - 1) + s);
      LeadingZeroIgnored(Zeros(k - 1) + s);
      LeadingZerosIgnored(k - 1, s);
    } else {
      assert Zeros(k) + s == s;
    }
  }

  lemma PadValue(s: string, w: nat)
    requires AllDigits(s)
    ensures Value(Pad(s, w)) == Value(s)
  {
    var r := Pad(s, w);
    if |s| < w {
      assert r == Zeros(w - |s|) + s;
      LeadingZerosIgnored(w - |s|, s);
    } else {
      assert r == s;
    }
  }

  /** Formatting loses nothing: every number reads back from its spelling. */
  lemma NumberRoundTrip(n: int)
    ensures ParseNumber(Number(n)) == n
  {
    if n >= 0 {
      PadValue(Digits(n), 3);
      ValueOfDigits(n);
    } else {
      var s := Number(n);
      var p := Pad(Digits(-n), 2);
      assert s == "-" + p && s[1..] == p;
      assert !AllDigits(s) && s[0] == '-' && AllDigits(p);
      PadValue(Digits(-n), 2);
      ValueOfDigits(-n);
      assert ParseNumber(s) == 0 - Value(p) as int;
    }
  }

  // ---- identifiers ----

  /** The identifier `fmt.Sprintf("%s-%03dP", prefix, num)`: the prefix, a
      dash, at least three characters for the number, and a final "P". */
  function FormatId(prefix: string, num: int): (r: string)
    ensures |r| >= |prefix| + 5
  {
    prefix + "-" + Number(num) + "P"
  }

  /** An identifier starts with its prefix and a dash and ends in "P"; the
      characters in between parse back to the number, and are all digits
      exactly for a non-negative number. */
  lemma FormatIdParses(prefix: string, num: int)
    ensures var r := FormatId(prefix, num);
      && r[..|prefix|] == prefix && r[|prefix|] == '-' && r[|r| - 1] == 'P'
      && ParseNumber(r[|prefix| + 1..|r| - 1]) == num
      && (num >= 0 <==> AllDigits(r[|prefix| + 1..|r| - 1]))
  {
    FormatIdShape(prefix, num);
    var r := FormatId(prefix, num);
    assert r[|prefix| + 1..|r| - 1] == Number(num);
    NumberRoundTrip(num);
  }

  lemma FormatIdShape(prefix: string, num: int)
    ensures var r := FormatId(prefix, num);
      r[..|prefix|] == prefix && r[|prefix|] == '-' && r[|r| - 1] == 'P'
  {
  }

  /** Within one prefix, different numbers give different identifiers. */
  lemma FormatIdInjective(prefix: string, a: int, b: int)
    requires FormatId(prefix, a) == FormatId(prefix, b)
    ensures a == b
  {
    FormatIdParses(prefix, a);
    FormatIdParses(prefix, b);
  }

  /** The number `NextMessageID` issues for `prefix` next. */
  function NextNumber(c: Counters, prefix: string): (n: int)
    ensures prefix !in c ==> n == 1
    ensures prefix in c ==> n > c[prefix]
  {
    if prefix in c then c[prefix] + 1 else 1
  }

  /** `NextMessageID`: issues the next number for `prefix`, stores it as the
      prefix's counter and leaves every other prefix's counter alone. */
  function NextMessageID(c: Counters, prefix: string): (r: (Counters, string))
    ensures r.0.Keys == c.Keys + {prefix}
    ensures forall p :: p in c && p != prefix ==> r.0[p] == c[p]
    ensures r.0[prefix] == NextNumber(c, prefix)
    ensures r.1 == FormatId(prefix, r.0[prefix])
  {
    var n := NextNumber(c, prefix);
    (c[prefix := n], FormatId(prefix, n))
  }

  /** The identifiers issued by calls for `prefixes`, in order, with the
      numbers behind them and the counters left afterwards. */
  function IssueAll(c: Counters, prefixes: seq<string>): (r: (Counters, seq<int>, seq<string>))
    ensures |r.1| == |prefixes| && |r.2| == |prefixes|
    decreases |prefixes|
  {
    if |prefixes| == 0 then (c, [], [])
    else
      var next := NextMessageID(c, prefixes[0]);
      var rest := IssueAll(next.0, prefixes[1..]);
      (rest.0, [next.0[prefixes[0]]] + rest.1, [next.1] + rest.2)
  }

  /** Each issued identifier spells its prefix and number. */
  lemma {:induction false} IssuedFormatted(c: Counters, prefixes: seq<string>, i: nat)
    requires i < |prefixes|
    ensures IssueAll(c, prefixes).2[i] == FormatId(prefixes[i], IssueAll(c, prefixes).1[i])
    decreases i
  {
    var next := NextMessageID(c, prefixes[0]);
    var rest := IssueAll(next.0, prefixes[1..]);
    var r := IssueAll(c, prefixes);
    if i == 0 {
      assert r.1[0] == next.0[prefixes[0]] && r.2[0] == next.1;
    } else {
      IssuedFormatted(next.0, prefixes[1..], i - 1);
      assert r.1[i] == rest.1[i - 1] && r.2[i] == rest.2[i - 1];
      assert prefixes[1..][i - 1] == prefixes[i];
    }
  }

  /** The numbers a run of calls issues, counted without formatting: each
      call takes its prefix's next number and stores it as the counter. */
  function IssuedNumbers(c: Counters, prefixes: seq<string>): (nums: seq<int>)
    ensures |nums| == |prefixes|
    decreases |prefixes|
  {
    if |prefixes| == 0 then []
    else
      var n := NextNumber(c, prefixes[0]);
      [n] + IssuedNumbers(c[prefixes[0] := n], prefixes[1..])
  }

  /** The numbers behind the issued identifiers are exactly the counted ones. */
  lemma {:induction false} IssueAllNumbers(c: Counters, prefixes: seq<string>)
    ensures IssueAll(c, prefixes).1 == IssuedNumbers(c, prefixes)
    decreases |prefixes|
  {
    if |prefixes| > 0 {
      var next := NextMessageID(c, prefixes[0]);
      assert next.0 == c[prefixes[0] := NextNumber(c, prefixes[0])];
      IssueAllNumbers(next.0, prefixes[1..]);
    }
  }

  /** Every later counted number for a prefix exceeds what the counter held. */
  lemma {:induction false} NumbersAbove(c: Counters, prefixes: seq<string>, j: nat)
    requires j < |prefixes|
    ensures var nums := IssuedNumbers(c, prefixes);
      (prefixes[j] in c ==> nums[j] > c[prefixes[j]]) &&
      (prefixes[j] !in c ==> nums[j] >= 1)
    decreases j
  {
    var c1 := c[prefixes[0] := NextNumber(c, prefixes[0])];
    if j > 0 {
      NumbersAbove(c1, prefixes[1..], j - 1);
      assert prefixes[1..][j - 1] == prefixes[j];
    }
  }

  /** Counted numbers for one prefix strictly increase from call to call. */
  lemma {:induction false} NumbersIncreasing(c: Counters, prefixes: seq<string>, i: nat, j: nat)
    requires i < j < |prefixes| && prefixes[i] == prefixes[j]
    ensures IssuedNumbers(c, prefixes)[i] < IssuedNumbers(c, prefixes)[j]
    decreases i
  {
    var c1 := c[prefixes[0] := NextNumber(c, prefixes[0])];
    assert prefixes[1..][j - 1] == prefixes[j];
    if i == 0 {
      NumbersAbove(c1, prefixes[1..], j - 1);
    } else {
      assert prefixes[1..][i - 1] == prefixes[i];
      NumbersIncreasing(c1, prefixes[1..], i - 1, j - 1);
    }
  }

  /** Every later number for a prefix exceeds what the counter held. */
  lemma IssuedAbove(c: Counters, prefixes: seq<string>, j: nat)
    requires j < |prefixes|
    ensures var nums := IssueAll(c, prefixes).1;
      (prefixes[j] in c ==> nums[j] > c[prefixes[j]]) &&
      (prefixes[j] !in c ==> nums[j] >= 1)
  {
    IssueAllNumbers(c, prefixes);
    NumbersAbove(c, prefixes, j);
  }

  /** Numbers issued for one prefix strictly increase from call to call. */
  lemma IssuedIncreasing(c: Counters, prefixes: seq<string>, i: nat, j: nat)
    requires i < j < |prefixes| && prefixes[i] == prefixes[j]
    ensures IssueAll(c, prefixes).1[i] < IssueAll(c, prefixes).1[j]
  {
    IssueAllNumbers(c, prefixes);
    NumbersIncreasing(c, prefixes, i, j);
  }

  /** No identifier is ever issued twice for the same prefix. */
  lemma IssuedDistinct(c: Counters, prefixes: seq<string>, i: nat, j: nat)
    requires i < j < |prefixes| && prefixes[i] == prefixes[j]
    ensures IssueAll(c, prefixes).2[i] != IssueAll(c, prefixes).2[j]
  {
    var r := IssueAll(c, prefixes);
    IssuedIncreasing(c, prefixes, i, j);
    IssuedFormatted(c, prefixes, i);
    IssuedFormatted(c, prefixes, j);
    if r.2[i] == r.2[j] {
      FormatIdInjective(prefixes[i], r.1[i], r.1[j]);
    }
  }

  /** The first identifier ever issued for a prefix carries number 1. */
  lemma FirstIdOfPrefix(prefix: string)
    ensures NextMessageID(map[], prefix).1 == prefix + "-001P"
  {
    assert Digits(1) == "1";
    assert Number(1) == "001";
  }
}

=== FILE: message_store.dfy ===
/** Received messages as stored in the database (store/message.go).

    The `message` table is keyed by local identifier and has a unique index on
    the content hash, so `INSERT OR REPLACE` first deletes every row that
    clashes with the new one on either key.  Delivery times are stored at
    whole-second precision.  The table is a sequence of rows in insertion
    order. */
module MessageStore {
  import opened Clock
  import opened Outcomes
  import opened Ordering

  datatype Message = Message(
    localId: string,
    hash: string,
    deliveryTime: Time,
    message: string,
    session: int,
    fromAddress: string,
    fromCallSign: string,
    fromBbs: string,
    toBbs: string,
    jurisdiction: string,
    messageType: string,
    score: int,
    summary: string,
    analysis: string)

  type MessageTable = seq<Message>

  /** No two rows share a local identifier or a hash. */
  ghost predicate Valid(t: MessageTable) {
    forall i, j :: 0 <= i < j < |t| ==> t[i].localId != t[j].localId && t[i].hash != t[j].hash
  }

  /** A message as it reads back: its delivery time loses sub-second digits. */
  function Reloaded(m: Message): (r: Message)
    ensures r.localId == m.localId && r.hash == m.hash && r.session == m.session
  {
    m.(deliveryTime := Stored(m.deliveryTime, WholeSeconds))
  }

  /** Row `x` shares neither the local identifier nor the hash of `m`. */
  predicate Clear(m: Message, x: Message) {
    x.localId != m.localId && x.hash != m.hash
  }

  /** The rows that do not clash with `m` on either key: every such row
      survives, and nothing else does. */
  function Unclashing(t: MessageTable, m: Message): (r: MessageTable)
    ensures forall i :: 0 <= i < |r| ==> r[i] in t && r[i].localId != m.localId && r[i].hash != m.hash
    ensures forall i :: 0 <= i < |t| && t[i].localId != m.localId && t[i].hash != m.hash ==> t[i] in r
    ensures multiset(r) <= multiset(t)
  {
    var r := Filter(t, x => Clear(m, x));
    assert forall i :: 0 <= i < |r| ==> Clear(m, r[i]);
    r
  }

  /** `SaveMessage`: insert or replace.  Rows clashing with `m` on its local
      identifier or its hash are deleted, then `m` is appended. */
  function SaveMessage(t: MessageTable, m: Message): (r: MessageTable)
    ensures |r| > 0 && r[|r| - 1] == Reloaded(m)
    ensures forall i :: 0 <= i < |r| - 1 ==> r[i] in t && r[i].localId != m.localId && r[i].hash != m.hash
  {
    Unclashing(t, m) + [Reloaded(m)]
  }

  /** The first row with local identifier `id`. */
  function FindById(t: MessageTable, id: string): (r: Option<Message>)
    ensures r.None? <==> forall i :: 0 <= i < |t| ==> t[i].localId != id
    ensures r.Some? ==> r.value in t && r.value.localId == id
  {
    if |t| == 0 then None
    else if t[0].localId == id then Some(t[0])
    else
      var r := FindById(t[1..], id);
      assert forall i :: 0 < i < |t| ==> t[i] == t[1..][i - 1];
      r
  }

  /** The first row with hash `h`. */
  function FindByHash(t: MessageTable, h: string): (r: Option<Message>)
    ensures r.None? <==> forall i :: 0 <= i < |t| ==> t[i].hash != h
    ensures r.Some? ==> r.value in t && r.value.hash == h
  {
    if |t| == 0 then None
    else if t[0].hash == h then Some(t[0])
    else
      var r := FindByHash(t[1..], h);
      assert forall i :: 0 < i < |t| ==> t[i] == t[1..][i - 1];
      r
  }

  /** `GetMessage`: the stored message with that local identifier, or nil. */
  function GetMessage(t: MessageTable, id: string): (r: Option<Message>)
    ensures r.None? <==> forall i :: 0 <= i < |t| ==> t[i].localId != id
    ensures r.Some? ==> r.value in t && r.value.localId == id
  {
    FindById(t, id)
  }

  /** `GetMessageByHash`: the stored message with that hash, or nil. */
  function GetMessageByHash(t: MessageTable, h: string): (r: Option<Message>)
    ensures r.None? <==> forall i :: 0 <= i < |t| ==> t[i].hash != h
    ensures r.Some? ==> r.value in t && r.value.hash == h
  {
    FindByHash(t, h)
  }

  /** `HasMessageHash`: the local identifier of the message with that hash,
      or "" when there is none. */
  function HasMessageHash(t: MessageTable, h: string): (id: string)
    ensures (forall i :: 0 <= i < |t| ==> t[i].hash != h) ==> id == ""
    ensures GetMessageByHash(t, h).Some? ==> id == GetMessageByHash(t, h).value.localId
  {
    match FindByHash(t, h)
    case None => ""
    case Some(m) => m.localId
  }


  function OfSession(t: MessageTable, session: int): (r: MessageTable)
    ensures forall i :: 0 <= i < |r| ==> r[i] in t && r[i].session == session
  {
    if |t| == 0 then []
    else (if t[0].session == session then [t[0]] else []) + OfSession(t[1..], session)
  }

  lemma {:induction false} OfSessionComplete(t: MessageTable, session: int, k: nat)
    requires k < |t| && t[k].session == session
    ensures t[k] in OfSession(t, session)
    decreases k
  {
    if k > 0 {
      OfSessionComplete(t[1..], session, k - 1);
    }
  }

  predicate DeliveredNoLater(a: Message, b: Message) {
    a.deliveryTime <= b.deliveryTime
  }

  lemma DeliveredNoLaterIsTotalPreorder()
    ensures TotalPreorder(DeliveredNoLater)
  {
  }

  /** `GetSessionMessages`: the session's messages in order of delivery. */
  function GetSessionMessages(t: MessageTable, session: int): (r: MessageTable)
    ensures forall i :: 0 <= i < |r| ==> r[i] in t && r[i].session == session
    ensures forall i, j :: 0 <= i < j < |r| ==> r[i].deliveryTime <= r[j].deliveryTime
  {
    var mine := OfSession(t, session);
    var r := SortBy(mine, DeliveredNoLater);
    DeliveredNoLaterIsTotalPreorder();
    SortBySorted(mine, DeliveredNoLater);
    forall i | 0 <= i < |r|
      ensures r[i] in t && r[i].session == session
    {
      assert r[i] in multiset(mine);
    }
    r
  }

  /** `GetSessionMessages` returns every message of the session. */
  lemma SessionMessagesComplete(t: MessageTable, session: int, k: nat)
    requires k < |t| && t[k].session == session
    ensures t[k] in GetSessionMessages(t, session)
  {
    OfSessionComplete(t, session, k);
    assert t[k] in multiset(OfSession(t, session));
  }

  lemma {:induction false} OfSessionCount(t: MessageTable, session: int, m: Message)
    ensures multiset(OfSession(t, session))[m] == if m.session == session then multiset(t)[m] else 0
    decreases |t|
  {
    if |t| > 0 {
      assert t == [t[0]] + t[1..];
      OfSessionCount(t[1..], session, m);
    }
  }

  /** `GetSessionMessages` lists each message of the session as often as it
      is stored, and no other message. */
  lemma SessionMessagesCount(t: MessageTable, session: int, m: Message)
    ensures multiset(GetSessionMessages(t, session))[m] == if m.session == session then multiset(t)[m] else 0
  {
    OfSessionCount(t, session, m);
  }

  /** `SessionHasMessages`: whether some stored message belongs to the
      session, which is whether listing the session's messages yields
      any. */
  predicate SessionHasMessages(t: MessageTable, session: int): (b: bool)
    ensures b <==> |GetSessionMessages(t, session)| > 0
  {
    var r := GetSessionMessages(t, session);
    assert (exists i :: 0 <= i < |t| && t[i].session == session) ==> |r| > 0 by {
      if exists i :: 0 <= i < |t| && t[i].session == session {
        var k :| 0 <= k < |t| && t[k].session == session;
        SessionMessagesComplete(t, session, k);
      }
    }
    assert |r| > 0 ==> r[0] in t;
    exists i :: 0 <= i < |t| && t[i].session == session
  }

  /** Saving keeps identifiers and hashes unique. */
  lemma SaveKeepsValid(t: MessageTable, m: Message)
    requires Valid(t)
    ensures Valid(SaveMessage(t, m))
  {
    var kept := Unclashing(t, m);
    UnclashingUnique(t, m);
  }

  lemma {:induction false} UnclashingUnique(t: MessageTable, m: Message)
    requires Valid(t)
    ensures Valid(Unclashing(t, m))
    decreases |t|
  {
    if |t| > 0 {
      var rest := Unclashing(t[1..], m);
      UnclashingUnique(t[1..], m);
      if t[0].localId != m.localId && t[0].hash != m.hash {
        var r := Unclashing(t, m);
        assert r == [t[0]] + rest;
        forall j | 0 <= j < |rest|
          ensures rest[j].localId != t[0].localId && rest[j].hash != t[0].hash
        {
          var k :| 0 <= k < |t[1..]| && t[1..][k] == rest[j];
          assert t[k + 1] == rest[j];
        }
        ConsValid(t[0], rest);
      } else {
        assert Unclashing(t, m) == rest;
      }
    }
  }

  /** A row that clashes with no row of a valid table can head it. */
  lemma ConsValid(x: Message, rest: MessageTable)
    requires Valid(rest)
    requires forall j :: 0 <= j < |rest| ==> rest[j].localId != x.localId && rest[j].hash != x.hash
    ensures Valid([x] + rest)
  {
    var r := [x] + rest;
    forall i, j | 0 <= i < j < |r|
      ensures r[i].localId != r[j].localId && r[i].hash != r[j].hash
    {
      assert r[j] == rest[j - 1];
      if i > 0 {
        assert r[i] == rest[i - 1];
      }
    }
  }

  /** After saving `m`, reading by its identifier gives `m` as stored, and so
      does reading by its hash: the new message replaced whatever clashed. */
  lemma SaveThenGet(t: MessageTable, m: Message)
    ensures GetMessage(SaveMessage(t, m), m.localId) == Some(Reloaded(m))
    ensures GetMessageByHash(SaveMessage(t, m), m.hash) == Some(Reloaded(m))
    ensures HasMessageHash(SaveMessage(t, m), m.hash) == m.localId
  {
    var kept := Unclashing(t, m);
    FindByIdAppended(kept, Reloaded(m));
    FindByHashAppended(kept, Reloaded(m));
  }

  lemma {:induction false} FindByIdAppended(t: MessageTable, m: Message)
    requires forall i :: 0 <= i < |t| ==> t[i].localId != m.localId
    ensures FindById(t + [m], m.localId) == Some(m)
    decreases |t|
  {
    if |t| == 0 {
      assert t + [m] == [m];
    } else {
      assert (t + [m])[1..] == t[1..] + [m];
      FindByIdAppended(t[1..], m);
    }
  }

  lemma {:induction false} FindByHashAppended(t: MessageTable, m: Message)
    requires forall i :: 0 <= i < |t| ==> t[i].hash != m.hash
    ensures FindByHash(t + [m], m.hash) == Some(m)
    decreases |t|
  {
    if |t| == 0 {
      assert t + [m] == [m];
    } else {
      assert (t + [m])[1..] == t[1..] + [m];
      FindByHashAppended(t[1..], m);
    }
  }

  /** Saving two messages with the same hash leaves one message with that
      hash, the later one; the earlier one is gone. */
  lemma DuplicateHashSuperseded(t: MessageTable, first: Message, second: Message)
    requires first.hash == second.hash && first.localId != second.localId
    ensures var u := SaveMessage(SaveMessage(t, first), second);
      && GetMessageByHash(u, second.hash) == Some(Reloaded(second))
      && GetMessage(u, first.localId) == None
      && (forall i :: 0 <= i < |u| && u[i].hash == second.hash ==> u[i] == Reloaded(second))
  {
    var once := SaveMessage(t, first);
    var u := SaveMessage(once, second);
    SaveThenGet(once, second);
    forall i | 0 <= i < |u|
      ensures u[i].localId != first.localId
    {
      if i < |u| - 1 {
        FirstIdGone(once, first, second, u[i]);
      }
    }
  }

  lemma FirstIdGone(once: MessageTable, first: Message, second: Message, x: Message)
    requires |once| > 0 && once[|once| - 1] == Reloaded(first)
    requires forall k :: 0 <= k < |once| - 1 ==> once[k].localId != first.localId
    requires first.hash == second.hash && first.localId != second.localId
    requires x in once && x.hash != second.hash
    ensures x.localId != first.localId
  {
    var k :| 0 <= k < |once| && once[k] == x;
  }
}

=== FILE: ordering.dfy ===
/** Ordering used by the store's `ORDER BY` queries.

    SQLite's default (BINARY) collation compares text byte by byte; on UTF-8
    that is the order of the characters' code points, which is `TextLe`.
    `SortBy` orders rows by a total preorder; SQLite leaves the order of
    rows with equal keys unspecified, so the store's contracts only say that a
    result is a sorted permutation of the selected rows. */
module Ordering {

  /** Lexicographic order on text. */
  predicate TextLe(a: string, b: string) {
    |a| == 0 || (|b| > 0 && (a[0] < b[0] || (a[0] == b[0] && TextLe(a[1..], b[1..]))))
  }

  lemma {:induction false} TextLeTotal(a: string, b: string)
    ensures TextLe(a, b) || TextLe(b, a)
    decreases |a|
  {
    if |a| > 0 && |b| > 0 && a[0] == b[0] {
      TextLeTotal(a[1..], b[1..]);
    }
  }

  lemma {:induction false} TextLeTransitive(a: string, b: string, c: string)
    requires TextLe(a, b) && TextLe(b, c)
    ensures TextLe(a, c)
    decreases |a|
  {
    if |a| > 0 && a[0] == b[0] && b[0] == c[0] {
      TextLeTransitive(a[1..], b[1..], c[1..]);
    }
  }

  lemma {:induction false} TextLeAntisymmetric(a: string, b: string)
    requires TextLe(a, b) && TextLe(b, a)
    ensures a == b
    decreases |a|
  {
    if |a| > 0 {
      TextLeAntisymmetric(a[1..], b[1..]);
      assert a == [a[0]] + a[1..] && b == [b[0]] + b[1..];
    }
  }

  ghost predicate TotalPreorder<T(!new)>(le: (T, T) -> bool) {
    && (forall a, b :: le(a, b) || le(b, a))
    && (forall a, b, c :: le(a, b) && le(b, c) ==> le(a, c))
  }

  ghost predicate Sorted<T>(s: seq<T>, le: (T, T) -> bool) {
    forall i, j :: 0 <= i < j < |s| ==> le(s[i], s[j])
  }

  /** Places `x` before the first element it is not after. */
  function Insert<T>(x: T, s: seq<T>, le: (T, T) -> bool): (r: seq<T>)
    ensures multiset(r) == multiset(s) + multiset{x}
    ensures |r| == |s| + 1
  {
    if |s| == 0 || le(x, s[0]) then [x] + s
    else
      assert s == [s[0]] + s[1..];
      [s[0]] + Insert(x, s[1..], le)
  }

  /** Insertion sort, stable: rows with equal keys keep their table order. */
  function SortBy<T>(s: seq<T>, le: (T, T) -> bool): (r: seq<T>)
    ensures multiset(r) == multiset(s)
    ensures |r| == |s|
  {
    if |s| == 0 then []
    else
      assert s == [s[0]] + s[1..];
      Insert(s[0], SortBy(s[1..], le), le)
  }

  lemma {:induction false} InsertSorted<T(!new)>(x: T, s: seq<T>, le: (T, T) -> bool)
    requires TotalPreorder(le)
    requires Sorted(s, le)
    ensures Sorted(Insert(x, s, le), le)
    decreases |s|
  {
    if |s| == 0 || le(x, s[0]) {
    } else {
      InsertSorted(x, s[1..], le);
      var r := Insert(x, s, le);
      var tail := Insert(x, s[1..], le);
      assert r == [s[0]] + tail;
      forall j | 0 <= j < |tail|
        ensures le(s[0], tail[j])
      {
        assert tail[j] in multiset(tail);
        assert tail[j] in multiset(s[1..]) + multiset{x};
        if tail[j] in multiset(s[1..]) {
          var k :| 0 <= k < |s[1..]| && s[1..][k] == tail[j];
          assert s[k + 1] == tail[j];
        }
      }
    }
  }

  lemma {:induction false} SortBySorted<T(!new)>(s: seq<T>, le: (T, T) -> bool)
    requires TotalPreorder(le)
    ensures Sorted(SortBy(s, le), le)
    decreases |s|
  {
    if |s| > 0 {
      SortBySorted(s[1..], le);
      InsertSorted(s[0], SortBy(s[1..], le), le);
    }
  }

  /** Keeps the elements satisfying `p`, in order (a `WHERE` clause over rows in
      table order). */
  function Filter<T>(s: seq<T>, p: T -> bool): (r: seq<T>)
    ensures |r| <= |s|
    ensures forall i :: 0 <= i < |r| ==> r[i] in s && p(r[i])
    ensures forall i :: 0 <= i < |s| && p(s[i]) ==> s[i] in r
    ensures multiset(r) <= multiset(s)
  {
    if |s| == 0 then []
    else
      assert s == [s[0]] + s[1..];
      (if p(s[0]) then [s[0]] else []) + Filter(s[1..], p)
  }

  /** A `WHERE` clause keeps each row satisfying it exactly as often as the
      table holds it, and no other row. */
  lemma {:induction false} FilterCount<T>(s: seq<T>, p: T -> bool, x: T)
    ensures multiset(Filter(s, p))[x] == if p(x) then multiset(s)[x] else 0
    decreases |s|
  {
    if |s| > 0 {
      assert s == [s[0]] + s[1..];
      FilterCount(s[1..], p, x);
    }
  }

  /** No two elements share a key (a `UNIQUE` or primary-key column). */
  ghost predicate DistinctBy<T, K>(s: seq<T>, key: T -> K) {
    forall i, j :: 0 <= i < j < |s| ==> key(s[i]) != key(s[j])
  }

  lemma MultisetTwice<T>(s: seq<T>, i: nat, j: nat)
    requires i < j < |s| && s[i] == s[j]
    ensures multiset(s)[s[i]] >= 2
  {
    assert s == s[..i] + [s[i]] + s[i + 1..j] + [s[j]] + s[j + 1..];
  }

  /** With distinct keys, no element occurs twice. */
  lemma {:induction false} OnceWhenDistinct<T, K>(s: seq<T>, key: T -> K, x: T)
    requires DistinctBy(s, key)
    ensures multiset(s)[x] <= 1
    decreases |s|
  {
    if |s| > 0 {
      assert s == [s[0]] + s[1..];
      assert DistinctBy(s[1..], key) by {
        forall i, j | 0 <= i < j < |s[1..]|
          ensures key(s[1..][i]) != key(s[1..][j])
        {
          assert s[1..][i] == s[i + 1] && s[1..][j] == s[j + 1];
        }
      }
      OnceWhenDistinct(s[1..], key, x);
      if s[0] == x {
        forall k | 0 <= k < |s[1..]|
          ensures s[1..][k] != x
        {
          assert s[1..][k] == s[k + 1];
        }
        assert x !in s[1..];
      }
    }
  }

  /** Selecting or reordering rows keeps their keys distinct. */
  lemma DistinctBySub<T, K>(a: seq<T>, b: seq<T>, key: T -> K)
    requires multiset(a) <= multiset(b)
    requires DistinctBy(b, key)
    ensures DistinctBy(a, key)
  {
    forall i, j | 0 <= i < j < |a|
      ensures key(a[i]) != key(a[j])
    {
      if key(a[i]) == key(a[j]) {
        assert a[i] in multiset(b) && a[j] in multiset(b);
        var p :| 0 <= p < |b| && b[p] == a[i];
        var q :| 0 <= q < |b| && b[q] == a[j];
        assert p == q;
        MultisetTwice(a, i, j);
        OnceWhenDistinct(b, key, a[i]);
        assert false;
      }
    }
  }
}

=== FILE: outcomes.dfy ===
/** Optional values and fatal outcomes shared by the whole model.

    Go's nil results become `None`; a Go `panic` (a failed SQL
    statement, an unparsable timestamp, an index out of range) becomes `Fatal`,
    which ends the process in the original program. */
module Outcomes {

  datatype Option<+T> = None | Some(value: T)

  /** The result of an operation that may end the process with a panic. */
  datatype Result<+T> = Ok(value: T) | Fatal(reason: string)
}

=== FILE: report_html.dfy ===
/** The structure of the HTML session report (report/html.go:59-184).

    The rendering is modelled as the blocks and rows it writes rather than
    as HTML text: which blocks and lines appear, how jurisdictions are laid
    out in columns, which message rows carry links and which score class
    each row shows. */
module ReportHtml {
  import opened Outcomes

  datatype Source = Source(name: string, count: int, simulatedDown: bool)
  datatype Count = Count(name: string, count: int)
  datatype ReportMessage = ReportMessage(
    id: string,
    fromCallSign: string,
    prefix: string,
    suffix: string,
    source: string,
    multiple: bool,
    jurisdiction: string,
    score: int,
    summary: string)

  /** The report fields the body blocks read. */
  datatype Report = Report(
    hasModel: bool,
    notSentFrom: string,
    modified: bool,
    validCount: int,
    invalidCount: int,
    replacedCount: int,
    droppedCount: int,
    averageValidScore: int,
    sources: seq<Source>,
    jurisdictions: seq<Count>,
    mtypeCounts: seq<Count>,
    messages: seq<ReportMessage>)

  // ---- expectations and results (htmlExpectsResults) ----

  datatype Expectations = Expectations(
    titleMark: bool,
    copyOfModel: bool,
    notSentFrom: Option<string>,
    modifiedNote: bool)

  datatype ResultLine =
    | Counted(count: int, averageScore: int)
    | NotCounted(count: int)
    | Duplicate(count: int)
    | DeliveryReceipts(count: int)
    | NoMessages

  function ExpectationsBlock(r: Report): (e: Expectations)
    ensures e.titleMark <==> r.modified
    ensures e.modifiedNote <==> r.modified
    ensures e.copyOfModel <==> r.hasModel
    ensures e.notSentFrom.Some? <==> r.notSentFrom != ""
    ensures e.notSentFrom.Some? ==> e.notSentFrom.value == r.notSentFrom
  {
    Expectations(r.modified, r.hasModel,
      if r.notSentFrom != "" then Some(r.notSentFrom) else None,
      r.modified)
  }

  function Total(r: Report): int {
    r.validCount + r.invalidCount + r.replacedCount + r.droppedCount
  }

  /** The lines of the Results block, in order. */
  function ResultsBlock(r: Report): (lines: seq<ResultLine>)
    ensures 1 <= |lines| <= 4
  {
    if Total(r) != 0 then
      (if r.validCount != 0 then [Counted(r.validCount, r.averageValidScore)] else []) +
      (if r.invalidCount != 0 then [NotCounted(r.invalidCount)] else []) +
      (if r.replacedCount != 0 then [Duplicate(r.replacedCount)] else []) +
      (if r.droppedCount != 0 then [DeliveryReceipts(r.droppedCount)] else [])
    else [NoMessages]
  }

  /** "Messages: 0" appears exactly when the four counts sum to zero, and
      then alone; the average score appears only with a non-zero valid
      count; every line shown carries a non-zero count. */
  lemma ResultsLines(r: Report)
    ensures NoMessages in ResultsBlock(r) <==> Total(r) == 0
    ensures Total(r) == 0 ==> ResultsBlock(r) == [NoMessages]
    ensures forall l :: l in ResultsBlock(r) && l.Counted? ==> l.count == r.validCount != 0 && l.averageScore == r.averageValidScore
    ensures (exists l :: l in ResultsBlock(r) && l.Counted?) <==> Total(r) != 0 && r.validCount != 0
    ensures forall l :: l in ResultsBlock(r) && !l.NoMessages? ==> l.count != 0
  {
    var lines := ResultsBlock(r);
    if Total(r) != 0 && r.validCount != 0 {
      assert lines[0].Counted?;
    }
  }

  // ---- statistics (htmlStatistics) ----

  datatype SourcesBlock = SourcesBlock(rows: seq<Source>, outageNote: bool)

  datatype Statistics = Statistics(
    sources: Option<SourcesBlock>,
    jurisdictionColumns: Option<seq<seq<Count>>>,
    types: Option<seq<Count>>)

  /** The Sources block with its "*Simulated outage" note. */
  method SourcesBlockOf(sources: seq<Source>) returns (b: SourcesBlock)
    ensures b.rows == sources
    ensures b.outageNote <==> exists i :: 0 <= i < |sources| && sources[i].simulatedDown
  {
    var hasDown := false;
    var rows: seq<Source> := [];
    for k := 0 to |sources|
      invariant rows == sources[..k]
      invariant hasDown <==> exists i :: 0 <= i < k && sources[i].simulatedDown
    {
      if sources[k].simulatedDown {
        hasDown := true;
      }
      rows := rows + [sources[k]];
    }
    assert sources[..|sources|] == sources;
    b := SourcesBlock(rows, hasDown);
  }

  /** The groups' concatenation. */
  function Flatten<T>(groups: seq<seq<T>>): seq<T> {
    if |groups| == 0 then [] else Flatten(groups[..|groups| - 1]) + groups[|groups| - 1]
  }

  lemma FlattenAppend<T>(groups: seq<seq<T>>, g: seq<T>)
    ensures Flatten(groups + [g]) == Flatten(groups) + g
  {
    assert (groups + [g])[..|groups|] == groups;
  }

  /** The column count: enough columns that none is longer than six. */
  function Columns(n: nat): nat { (n + 5) / 6 }

  /** The row count: `n` spread as evenly as possible over the columns. */
  function Rows(n: nat): nat
    requires n > 0
  {
    (n + Columns(n) - 1) / Columns(n)
  }

  /** Ceiling-division facts: cols = ⌈n/6⌉ and rows = ⌈n/cols⌉, so
      `rows` is between 1 and 6 and rows * cols covers all `n` entries. */
  lemma LayoutBounds(n: nat)
    requires n > 0
    ensures Columns(n) >= 1 && (Columns(n) - 1) * 6 < n <= Columns(n) * 6
    ensures 1 <= Rows(n) <= 6
    ensures (Rows(n) - 1) * Columns(n) < n <= Rows(n) * Columns(n)
  {
    var c := Columns(n);
    var r := Rows(n);
    assert (n + c - 1) == r * c + (n + c - 1) % c;
    assert n <= r * c;
    assert (r - 1) * c < n;
    assert n + c - 1 < 7 * c;
    CeilBelow(n + c - 1, c, 7);
  }

  lemma CeilBelow(a: nat, c: nat, k: nat)
    requires c > 0 && a < k * c
    ensures a / c < k
  {
  }

  /** The layout has room for every entry. */
  lemma ColumnsCover(n: nat)
    requires n > 0
    ensures Rows(n) >= 1 && n <= Rows(n) * Columns(n)
  {
    LayoutBounds(n);
  }

  /** A further run fits among the columns while entries remain. */
  lemma AnotherColumnFits(k: nat, rows: nat, cols: nat, n: nat)
    requires k * rows < n <= rows * cols
    ensures k + 1 <= cols
  {
  }

  lemma MulStep(k: nat, rows: nat)
    ensures (k + 1) * rows == k * rows + rows
  {
  }

  /** The Jurisdictions block's columns: consecutive runs of `rows` entries,
      the last possibly shorter, at most `cols` of them, together listing
      every jurisdiction once in order. */
  method JurisdictionColumns(js: seq<Count>) returns (groups: seq<seq<Count>>)
    requires |js| > 0
    ensures Flatten(groups) == js
    ensures |groups| <= Columns(|js|)
    ensures forall g :: g in groups ==> 1 <= |g| <= Rows(|js|)
    ensures forall k :: 0 <= k < |groups| - 1 ==> |groups[k]| == Rows(|js|)
  {
    var n := |js|;
    var cols := (n + 5) / 6;
    var rows := (n + cols - 1) / cols;
    assert cols == Columns(n) && rows == Rows(n);
    ColumnsCover(n);
    groups := [];
    var col := 0;
    while col < n
      invariant col == |groups| * rows
      invariant |groups| <= cols
      invariant col <= n ==> Flatten(groups) == js[..col]
      invariant col > n ==> Flatten(groups) == js
      invariant forall g :: g in groups ==> 1 <= |g| <= rows
      invariant col <= n ==> forall k :: 0 <= k < |groups| ==> |groups[k]| == rows
      invariant col > n ==> forall k :: 0 <= k < |groups| - 1 ==> |groups[k]| == rows
      decreases n - col
    {
      var group, i := ColumnRun(js, col, rows);
      AnotherColumnFits(|groups|, rows, cols, n);
      MulStep(|groups|, rows);
      FlattenAppend(groups, group);
      assert js[..col] + js[col..i] == js[..i];
      if i == n {
        assert js[..n] == js;
      }
      groups := groups + [group];
      col := col + rows;
    }
    if col == n {
      assert js[..n] == js;
    }
  }

  /** The inner loop: the entries from `col` up to the next `rows`, or to
      the end. */
  method ColumnRun(js: seq<Count>, col: nat, rows: nat) returns (group: seq<Count>, i: nat)
    requires col < |js| && rows >= 1
    ensures col < i <= |js| && i <= col + rows
    ensures i == |js| || i == col + rows
    ensures group == js[col..i]
  {
    group := [];
    i := col;
    while i < |js| && i < col + rows
      invariant col <= i <= |js| && i <= col + rows
      invariant group == js[col..i]
      decreases |js| - i
    {
      group := group + [js[i]];
      i := i + 1;
    }
  }

  /** `htmlStatistics`: nothing at all when the report has no sources, no
      jurisdictions and no message types; otherwise each non-empty list gets
      its block. */
  method StatisticsBlock(r: Report) returns (s: Option<Statistics>)
    ensures s.None? <==> |r.sources| == 0 && |r.jurisdictions| == 0 && |r.mtypeCounts| == 0
    ensures s.Some? ==> (s.value.sources.Some? <==> |r.sources| != 0)
    ensures s.Some? ==> (s.value.jurisdictionColumns.Some? <==> |r.jurisdictions| != 0)
    ensures s.Some? ==> (s.value.types.Some? <==> |r.mtypeCounts| != 0)
    ensures s.Some? && s.value.jurisdictionColumns.Some? ==> Flatten(s.value.jurisdictionColumns.value) == r.jurisdictions
    ensures s.Some? && s.value.types.Some? ==> s.value.types.value == r.mtypeCounts
  {
    if |r.sources| == 0 && |r.jurisdictions| == 0 && |r.mtypeCounts| == 0 {
      return None;
    }
    var sources: Option<SourcesBlock> := None;
    if |r.sources| != 0 {
      var b := SourcesBlockOf(r.sources);
      sources := Some(b);
    }
    var columns: Option<seq<seq<Count>>> := None;
    if |r.jurisdictions| != 0 {
      var groups := JurisdictionColumns(r.jurisdictions);
      columns := Some(groups);
    }
    var types: Option<seq<Count>> := if |r.mtypeCounts| != 0 then Some(r.mtypeCounts) else None;
    s := Some(Statistics(sources, columns, types));
  }

  // ---- messages (htmlMessages) ----

  /** The colour class of a score. */
  function ScoreClass(score: int): (c: string)
    ensures c in {"invalid", "ok", "warning", "error"}
  {
    if score == 0 then "invalid"
    else if score == 100 then "ok"
    else if score >= 90 then "warning"
    else "error"
  }

  /** Each class covers exactly its band of scores. */
  lemma ScoreClassBands(score: int)
    ensures ScoreClass(score) == "invalid" <==> score == 0
    ensures ScoreClass(score) == "ok" <==> score == 100
    ensures ScoreClass(score) == "warning" <==> score >= 90 && score != 100
    ensures ScoreClass(score) == "error" <==> score != 0 && score < 90
  {
  }

  /** A message row links to the message when links are on for everyone
      (`links` empty) or for this sender. */
  predicate HasLinks(links: string, m: ReportMessage) {
    links == "" || (links != "" && links == m.fromCallSign)
  }

  datatype MessageRow = MessageRow(
    linkedId: Option<string>,
    prefix: string,
    suffix: string,
    source: string,
    multipleMark: bool,
    jurisdiction: string,
    scoreClass: string,
    score: int,
    summary: string)

  datatype MessagesBlock = MessagesBlock(rows: seq<MessageRow>, multipleNote: bool)

  function Row(links: string, m: ReportMessage): MessageRow {
    MessageRow(if HasLinks(links, m) then Some(m.id) else None,
      m.prefix, m.suffix, m.source, m.multiple, m.jurisdiction,
      ScoreClass(m.score), m.score, m.summary)
  }

  /** `htmlMessages`: one row per message in order; the footnote about
      multiple messages appears exactly when some message is marked. */
  method MessagesBlockOf(messages: seq<ReportMessage>, links: string) returns (b: MessagesBlock)
    ensures |b.rows| == |messages|
    ensures forall i :: 0 <= i < |messages| ==> b.rows[i] == Row(links, messages[i])
    ensures b.multipleNote <==> exists i :: 0 <= i < |messages| && messages[i].multiple
  {
    var hasMultiple := false;
    var rows: seq<MessageRow> := [];
    for k := 0 to |messages|
      invariant |rows| == k
      invariant forall i :: 0 <= i < k ==> rows[i] == Row(links, messages[i])
      invariant hasMultiple <==> exists i :: 0 <= i < k && messages[i].multiple
    {
      if messages[k].multiple {
        hasMultiple := true;
      }
      rows := rows + [Row(links, messages[k])];
    }
    b := MessagesBlock(rows, hasMultiple);
  }

  /** Links: with `links` empty every row links; with a call sign, exactly
      that sender's rows do. */
  lemma LinkRule(links: string, m: ReportMessage)
    ensures links == "" ==> Row(links, m).linkedId == Some(m.id)
    ensures links != "" ==> (Row(links, m).linkedId.Some? <==> m.fromCallSign == links)
  {
  }
}

=== FILE: response_store.dfy ===
/** Outgoing responses as stored in the database (store/response.go).

    The `response` table is keyed by local identifier; a plain `INSERT` of an
    identifier already present fails, and the failed statement panics.  The
    send time keeps nanoseconds, and the zero time is stored as "". */
module ResponseStore {
  import opened Clock
  import opened Outcomes
  import opened Ordering

  datatype Response = Response(
    localId: string,
    responseTo: string,
    to: string,
    subject: string,
    body: string,
    sendTime: Time,
    senderCall: string,
    senderBbs: string)

  type ResponseTable = seq<Response>

  ghost predicate Valid(t: ResponseTable) {
    forall i, j :: 0 <= i < j < |t| ==> t[i].localId != t[j].localId
  }

  predicate HasId(t: ResponseTable, id: string) {
    exists i :: 0 <= i < |t| && t[i].localId == id
  }

  /** `SaveResponse`: appends the response; rows already stored are never
      touched. */
  function SaveResponse(t: ResponseTable, r: Response): (u: Result<ResponseTable>)
    ensures u.Fatal? <==> HasId(t, r.localId)
    ensures u.Ok? ==> |u.value| == |t| + 1 && u.value[..|t|] == t
    ensures u.Ok? ==> u.value[|t|] == r.(sendTime := Stored(r.sendTime, Nanoseconds))
  {
    if HasId(t, r.localId) then Fatal("UNIQUE constraint failed: response.id")
    else Ok(t + [r.(sendTime := Stored(r.sendTime, Nanoseconds))])
  }

  function RespondingTo(t: ResponseTable, to: string): (r: ResponseTable)
    ensures forall i :: 0 <= i < |r| ==> r[i] in t && r[i].responseTo == to
  {
    if |t| == 0 then []
    else (if t[0].responseTo == to then [t[0]] else []) + RespondingTo(t[1..], to)
  }

  lemma {:induction false} RespondingToComplete(t: ResponseTable, to: string, k: nat)
    requires k < |t| && t[k].responseTo == to
    ensures t[k] in RespondingTo(t, to)
    decreases k
  {
    if k > 0 {
      RespondingToComplete(t[1..], to, k - 1);
    }
  }

  /** `ORDER BY id`. */
  predicate IdNoGreater(a: Response, b: Response) {
    TextLe(a.localId, b.localId)
  }

  lemma IdNoGreaterIsTotalPreorder()
    ensures TotalPreorder(IdNoGreater)
  {
    forall a: Response, b: Response
      ensures IdNoGreater(a, b) || IdNoGreater(b, a)
    {
      TextLeTotal(a.localId, b.localId);
    }
    forall a: Response, b: Response, c: Response | IdNoGreater(a, b) && IdNoGreater(b, c)
      ensures IdNoGreater(a, c)
    {
      TextLeTransitive(a.localId, b.localId, c.localId);
    }
  }

  /** `GetResponses`: the responses to message `to`, ordered by identifier;
      each carries `to` as the message it responds to. */
  function GetResponses(t: ResponseTable, to: string): (r: ResponseTable)
    ensures forall i :: 0 <= i < |r| ==> r[i] in t && r[i].responseTo == to
    ensures forall i, j :: 0 <= i < j < |r| ==> TextLe(r[i].localId, r[j].localId)
  {
    var mine := RespondingTo(t, to);
    var r := SortBy(mine, IdNoGreater);
    IdNoGreaterIsTotalPreorder();
    SortBySorted(mine, IdNoGreater);
    forall i | 0 <= i < |r|
      ensures r[i] in t && r[i].responseTo == to
    {
      assert r[i] in multiset(mine);
    }
    r
  }

  /** `GetResponses` returns every stored response to the message. */
  lemma GetResponsesComplete(t: ResponseTable, to: string, k: nat)
    requires k < |t| && t[k].responseTo == to
    ensures t[k] in GetResponses(t, to)
  {
    RespondingToComplete(t, to, k);
    assert t[k] in multiset(RespondingTo(t, to));
  }

  /** With unique identifiers, `GetResponses` lists the responses strictly in
      identifier order. */
  lemma GetResponsesStrictlyOrdered(t: ResponseTable, to: string)
    requires Valid(t)
    ensures var r := GetResponses(t, to);
      forall i, j :: 0 <= i < j < |r| ==> r[i].localId != r[j].localId
  {
    var mine := RespondingTo(t, to);
    RespondingToUnique(t, to);
    DistinctBySub(GetResponses(t, to), mine, (x: Response) => x.localId);
  }

  lemma {:induction false} RespondingToUnique(t: ResponseTable, to: string)
    requires Valid(t)
    ensures Valid(RespondingTo(t, to))
    decreases |t|
  {
    if |t| > 0 {
      var rest := RespondingTo(t[1..], to);
      RespondingToUnique(t[1..], to);
      if t[0].responseTo == to {
        var r := RespondingTo(t, to);
        assert r == [t[0]] + rest;
        forall j | 0 <= j < |rest|
          ensures rest[j].localId != t[0].localId
        {
          var k :| 0 <= k < |t[1..]| && t[1..][k] == rest[j];
          assert t[k + 1] == rest[j];
        }
        forall i, j | 0 <= i < j < |r|
          ensures r[i].localId != r[j].localId
        {
          assert r[j] == rest[j - 1];
          if i > 0 {
            assert r[i] == rest[i - 1];
          }
        }
      } else {
        assert RespondingTo(t, to) == rest;
      }
    }
  }

  /** After a successful save, the response is among the responses to its
      message, and every earlier response to any message still is. */
  lemma SaveThenGetResponses(t: ResponseTable, r: Response, to: string, k: nat)
    requires SaveResponse(t, r).Ok?
    requires k < |t| && t[k].responseTo == to
    ensures r.(sendTime := Stored(r.sendTime, Nanoseconds)) in GetResponses(SaveResponse(t, r).value, r.responseTo)
    ensures t[k] in GetResponses(SaveResponse(t, r).value, to)
  {
    var u := SaveResponse(t, r).value;
    GetResponsesComplete(u, r.responseTo, |t|);
    assert u[k] == t[k];
    GetResponsesComplete(u, to, k);
  }

  /** Saving keeps identifiers unique. */
  lemma SaveKeepsValid(t: ResponseTable, r: Response)
    requires Valid(t)
    requires SaveResponse(t, r).Ok?
    ensures Valid(SaveResponse(t, r).value)
  {
  }
}

=== FILE: retrieve.dfy ===
/** Retrieving and answering check-in messages (retrieve/retrieve.go).

    For every retrieval of a session, the program decides from the session's
    cadence whether a poll is due; if so it connects to the BBS, reads the
    messages in order, answers and removes each one, and finally records the
    start of the poll as the retrieval's `LastRun`.

    The cadence (the session's parsed `RetrieveAt` interval) is a parameter:
    `cadence(retrieveAt, t)` says whether it matches the minute at `t`.  A
    BBS connection is a `Mailbox`: whether connecting succeeds and what each
    read returns.  The analysis of a message is part of what its read
    returns: the responses it produces and whether sending them and killing
    the message succeed. */
module Retrieve {
  import opened Clock
  import opened Outcomes
  import SessionStore
  import ResponseStore

  type Session = SessionStore.Session
  type Tables = SessionStore.Tables
  type Flags = SessionStore.Flags
  type Response = ResponseStore.Response

  type Cadence = (string, Time) -> bool

  // ---- when a poll is due ----

  /** The latest whole minute strictly before `now`. */
  function StartPoint(now: Time): (p: Time)
    ensures OnMinute(p)
    ensures now - Minute <= p < now
  {
    if now == Truncate(now, Minute) then now - Minute else Truncate(now, Minute)
  }

  /** Some whole minute in (lo, hi] matches. */
  ghost predicate TriggerBetween(matches: Time -> bool, lo: Time, hi: Time) {
    exists m :: lo < m <= hi && OnMinute(m) && matches(m)
  }

  /** The walk back from the starting point: it stops at the latest matching
      minute after `lastRun`, and otherwise at the first minute not after
      `lastRun`.  A poll is due exactly when some whole minute after the last
      run, up to the starting point, matches the cadence. */
  method DuePoint(matches: Time -> bool, lastRun: Time, now: Time) returns (due: bool, point: Time)
    ensures OnMinute(point) && point <= StartPoint(now)
    ensures due <==> point > lastRun
    ensures due <==> TriggerBetween(matches, lastRun, StartPoint(now))
    ensures due ==> matches(point) && !TriggerBetween(matches, point, StartPoint(now))
    ensures !due && StartPoint(now) > lastRun ==> lastRun - Minute < point
  {
    var point0 := StartPoint(now);
    point := point0;
    while point > lastRun && !matches(point)
      invariant OnMinute(point) && point <= point0
      invariant !TriggerBetween(matches, point, point0)
      invariant point0 > lastRun ==> lastRun - Minute < point
      decreases point - lastRun
    {
      point := point - Minute;
    }
    due := point > lastRun;
  }

  function Matcher(cadence: Cadence, s: Session): Time -> bool {
    t => cadence(s.retrieveAt, t)
  }

  /** The decision for retrieval `i` of session `s` at time `now`. */
  ghost predicate Due(cadence: Cadence, s: Session, i: nat, now: Time)
    requires i < |s.retrieve|
  {
    TriggerBetween(Matcher(cadence, s), s.retrieve[i].lastRun, StartPoint(now))
  }

  /** A poll recorded at a time no earlier than `now` is not due again at
      `now`: the same matching minute never triggers twice. */
  lemma NotDueAgain(matches: Time -> bool, start: Time, now: Time)
    requires start >= now
    ensures !TriggerBetween(matches, start, StartPoint(now))
  {
  }

  // ---- handling one message ----

  /** What the program does to the BBS and the store, in order. */
  datatype Effect =
    | Sent(to: string, subject: string, body: string)
    | Killed(msgnum: nat)
    | Committed(msgnum: nat)
    | SavedResponse(response: Response)
    | Closed

  /** The analysis of one message and how the BBS reacts to handling it:
      `sendOk[j]` says whether sending response `j` succeeds (missing
      entries succeed), `killOk` whether deleting the message does. */
  datatype Incoming = Incoming(responses: seq<Response>, sendOk: seq<bool>, killOk: bool)

  predicate SendSucceeds(sendOk: seq<bool>, j: nat) {
    j >= |sendOk| || sendOk[j]
  }

  function SentOf(r: Response): Effect {
    Sent(r.to, r.subject, r.body)
  }

  /** The sends for responses `j..`: stops at the first failure. */
  function SendFrom(rs: seq<Response>, sendOk: seq<bool>, j: nat): (r: (seq<Effect>, bool))
    requires j <= |rs|
    ensures |r.0| <= |rs| - j
    ensures forall k :: 0 <= k < |r.0| ==> r.0[k] == SentOf(rs[j + k])
    ensures r.1 <==> forall k :: j <= k < |rs| ==> SendSucceeds(sendOk, k)
    ensures r.1 ==> |r.0| == |rs| - j
    decreases |rs| - j
  {
    if j == |rs| then ([], true)
    else if !SendSucceeds(sendOk, j) then ([], false)
    else
      var rest := SendFrom(rs, sendOk, j + 1);
      ([SentOf(rs[j])] + rest.0, rest.1)
  }

  /** The times a message's responses are stamped: `at(j)` is the clock
      reading taken for response `j`. */
  type Stamps = nat -> Time

  /** The saves of responses `from..`, each with its own stamp. */
  function Stamped(rs: seq<Response>, at: Stamps, from: nat): (r: seq<Effect>)
    requires from <= |rs|
    ensures |r| == |rs| - from
    ensures forall k :: 0 <= k < |r| ==> r[k] == SavedResponse(rs[from + k].(sendTime := at(from + k)))
    decreases |rs| - from
  {
    if from == |rs| then [] else [SavedResponse(rs[from].(sendTime := at(from)))] + Stamped(rs, at, from + 1)
  }

  predicate IsSent(e: Effect) { e.Sent? }
  predicate IsKilled(e: Effect) { e.Killed? }

  /** `handleMessage`: sends each response unless the session forbids it,
      stamps it with the clock reading taken after its send either way,
      deletes the message unless forbidden, then commits the analysis and
      saves the responses.  A failed send or delete ends the handling before
      the commit, so a message is committed exactly when its handling
      completes, and a failed handling has only sent. */
  function HandleMessage(flags: Flags, msgnum: nat, inc: Incoming, at: Stamps): (r: (seq<Effect>, bool))
    ensures r.1 <==> Committed(msgnum) in r.0
    ensures !r.1 ==> forall e :: e in r.0 ==> IsSent(e)
  {
    var dontSend := flags & SessionStore.DontSendResponses != 0;
    var dontKill := flags & SessionStore.DontKillMessages != 0;
    var sends := if dontSend then ([], true) else SendFrom(inc.responses, inc.sendOk, 0);
    if !sends.1 then (sends.0, false)
    else if !dontKill && !inc.killOk then (sends.0, false)
    else
      (sends.0 + (if dontKill then [] else [Killed(msgnum)]) + [Committed(msgnum)] +
        Stamped(inc.responses, at, 0), true)
  }

  /** The sends and the deletion `HandleMessage` performs. */
  function SendsOf(flags: Flags, inc: Incoming): (seq<Effect>, bool) {
    if flags & SessionStore.DontSendResponses != 0 then ([], true) else SendFrom(inc.responses, inc.sendOk, 0)
  }

  /** What `HandleMessage` produces, segment by segment. */
  lemma HandleMessageShape(flags: Flags, msgnum: nat, inc: Incoming, at: Stamps)
    ensures var r := HandleMessage(flags, msgnum, inc, at);
      var sends := SendsOf(flags, inc);
      (!r.1 ==> r.0 == sends.0) &&
      (r.1 ==> r.0 == sends.0 + ((if flags & SessionStore.DontKillMessages != 0 then [] else [Killed(msgnum)]) +
                                 [Committed(msgnum)] + Stamped(inc.responses, at, 0)))
  {
  }

  /** The stage of handling an effect belongs to, in the order
      `handleMessage` goes through them. */
  function Stage(e: Effect): nat {
    match e
    case Sent(_, _, _) => 0
    case Killed(_) => 1
    case Committed(_) => 2
    case SavedResponse(_) => 3
    case Closed => 4
  }

  /** Handling goes through its stages in order: every send comes before the
      deletion, the deletion before the commit, and the commit before every
      saved response. */
  lemma HandleMessageOrder(flags: Flags, msgnum: nat, inc: Incoming, at: Stamps)
    ensures var r := HandleMessage(flags, msgnum, inc, at);
      forall i, j :: 0 <= i < j < |r.0| ==> Stage(r.0[i]) <= Stage(r.0[j])
  {
    HandleMessageShape(flags, msgnum, inc, at);
    var r := HandleMessage(flags, msgnum, inc, at);
    var sends := SendsOf(flags, inc).0;
    assert forall e :: e in sends ==> IsSent(e);
    if r.1 {
      var kill: seq<Effect> := if flags & SessionStore.DontKillMessages != 0 then [] else [Killed(msgnum)];
      var saves := Stamped(inc.responses, at, 0);
      assert r.0 == sends + kill + [Committed(msgnum)] + saves;
      var c := |sends| + |kill|;
      forall i | 0 <= i < |r.0|
        ensures Stage(r.0[i]) == if i < |sends| then 0 else if i < c then 1 else if i == c then 2 else 3
      {
        if i < |sends| {
          assert r.0[i] == sends[i];
        } else if i < c {
          assert r.0[i] == kill[i - |sends|];
        } else if i > c {
          assert r.0[i] == saves[i - c - 1];
        }
      }
    } else {
      assert forall i :: 0 <= i < |r.0| ==> Stage(r.0[i]) == 0;
    }
  }

  /** With `DontSendResponses` set nothing is sent; with `DontKillMessages`
      set nothing is deleted. */
  lemma HandleRespectsFlags(flags: Flags, msgnum: nat, inc: Incoming, at: Stamps)
    ensures flags & SessionStore.DontSendResponses != 0 ==>
      forall e :: e in HandleMessage(flags, msgnum, inc, at).0 ==> !IsSent(e)
    ensures flags & SessionStore.DontKillMessages != 0 ==>
      forall e :: e in HandleMessage(flags, msgnum, inc, at).0 ==> !IsKilled(e)
  {
    HandleMessageShape(flags, msgnum, inc, at);
    var sends := SendsOf(flags, inc);
    assert forall e :: e in sends.0 ==> IsSent(e);
    assert forall e :: e in Stamped(inc.responses, at, 0) ==> e.SavedResponse?;
  }

  /** The analysis is committed exactly when every send (if any are made)
      and the deletion (if made) succeed. */
  lemma HandleCommitsIff(flags: Flags, msgnum: nat, inc: Incoming, at: Stamps)
    ensures var r := HandleMessage(flags, msgnum, inc, at);
      (r.1 <==> Committed(msgnum) in r.0) &&
      (r.1 <==> (flags & SessionStore.DontSendResponses != 0 ||
                 forall k :: 0 <= k < |inc.responses| ==> SendSucceeds(inc.sendOk, k)) &&
                (flags & SessionStore.DontKillMessages != 0 || inc.killOk))
  {
    HandleMessageShape(flags, msgnum, inc, at);
    var sends := SendsOf(flags, inc);
    assert forall e :: e in sends.0 ==> IsSent(e);
  }

  /** After a commit every response is saved, stamped with its own clock
      reading; after a failure only sends have happened and nothing is
      saved. */
  lemma HandleSavesAll(flags: Flags, msgnum: nat, inc: Incoming, at: Stamps)
    ensures var r := HandleMessage(flags, msgnum, inc, at);
      (r.1 ==> forall k :: 0 <= k < |inc.responses| ==> SavedResponse(inc.responses[k].(sendTime := at(k))) in r.0) &&
      (!r.1 ==> forall e :: e in r.0 ==> IsSent(e))
  {
    HandleMessageShape(flags, msgnum, inc, at);
    var sends := SendsOf(flags, inc);
    assert forall e :: e in sends.0 ==> IsSent(e);
    var r := HandleMessage(flags, msgnum, inc, at);
    if r.1 {
      forall k | 0 <= k < |inc.responses|
        ensures SavedResponse(inc.responses[k].(sendTime := at(k))) in r.0
      {
        var st := Stamped(inc.responses, at, 0);
        assert r.0[|r.0| - |st| + k] == st[k];
      }
    }
  }

  // ---- polling one BBS ----

  /** What one read returns; reading past the last answer yields the empty
      message, which means no more messages. */
  datatype ReadAnswer = Got(message: string, reply: Incoming) | ReadFailed

  /** One BBS as seen from a poll: whether the connection is made, and the
      answers to reads of message numbers 1, 2, …. */
  datatype Mailbox = Mailbox(connected: bool, answers: seq<ReadAnswer>)

  predicate Delivered(a: ReadAnswer) { a.Got? && a.message != "" }

  /** How many reads deliver a message before the first that does not. */
  function Stop(answers: seq<ReadAnswer>): (k: nat)
    ensures k <= |answers|
    ensures forall j :: 0 <= j < k ==> Delivered(answers[j])
    ensures k < |answers| ==> !Delivered(answers[k])
  {
    if |answers| == 0 || !Delivered(answers[0]) then 0 else 1 + Stop(answers[1..])
  }

  /** The read loop ended at an empty message rather than a read error. */
  predicate Clean(answers: seq<ReadAnswer>) {
    Stop(answers) == |answers| || answers[Stop(answers)].Got?
  }

  /** A read that fails before any empty message stops the loop there, and
      the loop did not end cleanly. */
  lemma ReadFailure(answers: seq<ReadAnswer>, k: nat)
    requires k <= Stop(answers) && k < |answers| && answers[k].ReadFailed?
    ensures k == Stop(answers) && !Clean(answers)
  {
  }

  /** An empty message, or the end of the mailbox, stops the loop cleanly. */
  lemma EndOfReads(answers: seq<ReadAnswer>, k: nat)
    requires k <= Stop(answers)
    requires k < |answers| ==> answers[k].Got? && answers[k].message == ""
    ensures k == Stop(answers) && Clean(answers)
  {
  }

  /** A non-empty message read where the loop stands lies before its stop. */
  lemma MoreToRead(answers: seq<ReadAnswer>, k: nat)
    requires k <= Stop(answers)
    requires k < |answers| && answers[k].Got? && answers[k].message != ""
    ensures k < Stop(answers)
  {
  }

  /** The effects of handling messages 1..k. */
  function HandledUpTo(flags: Flags, answers: seq<ReadAnswer>, k: nat, clock: nat -> Stamps): seq<Effect>
    requires k <= Stop(answers)
  {
    if k == 0 then []
    else HandledUpTo(flags, answers, k - 1, clock) + HandleMessage(flags, k, answers[k - 1].reply, clock(k)).0
  }

  /** Handling one more message appends its effects. */
  lemma HandledNext(flags: Flags, answers: seq<ReadAnswer>, k: nat, clock: nat -> Stamps)
    requires k < Stop(answers)
    ensures HandledUpTo(flags, answers, k + 1, clock) ==
      HandledUpTo(flags, answers, k, clock) + HandleMessage(flags, k + 1, answers[k].reply, clock(k + 1)).0
  {
  }


  /** The session with retrieval `i` marked as run at `start`. */
  function WithLastRun(s: Session, i: nat, start: Time): (u: Session)
    requires i < |s.retrieve|
    ensures |u.retrieve| == |s.retrieve|
    ensures u.retrieve[i] == SessionStore.Retrieval(s.retrieve[i].bbs, start)
    ensures forall j :: 0 <= j < |s.retrieve| && j != i ==> u.retrieve[j] == s.retrieve[j]
    ensures u.(retrieve := s.retrieve) == s
  {
    s.(retrieve := s.retrieve[i := s.retrieve[i].(lastRun := start)])
  }

  /** `checkBBS`: polls retrieval `i` of session `s`.  `start` is the time
      the poll began and `clock(n)` the stamps of message `n`'s responses.  Only a
      read loop that ends at an empty message records `start` as the
      retrieval's last run and saves the session; an unreachable BBS or a
      read error leaves both the session and the store alone.  A handled
      message's own failures do not stop the loop. */
  method CheckBbs(t: Tables, s: Session, i: nat, box: Mailbox, start: Time, clock: nat -> Stamps)
    returns (r: Result<SessionStore.Saved>, effects: seq<Effect>, updated: bool)
    requires i < |s.retrieve|
    ensures updated <==> box.connected && Clean(box.answers)
    ensures !updated ==> r == Ok(SessionStore.Saved(t, s))
    ensures updated ==> r == SessionStore.UpdateSession(t, WithLastRun(s, i, start))
    ensures !box.connected ==> effects == []
    ensures box.connected ==> effects == HandledUpTo(s.flags, box.answers, Stop(box.answers), clock) + [Closed]
  {
    if !box.connected {
      return Ok(SessionStore.Saved(t, s)), [], false;
    }
    var handled, clean := ReadMessages(s.flags, box.answers, clock);
    effects := handled + [Closed];
    if !clean {
      return Ok(SessionStore.Saved(t, s)), effects, false;
    }
    r := SessionStore.UpdateSession(t, WithLastRun(s, i, start));
    updated := true;
  }

  /** The read loop of `checkBBS`: reads message after message, handling
      each, until a read fails or a message is empty; only the latter ends
      the loop cleanly. */
  method ReadMessages(flags: Flags, answers: seq<ReadAnswer>, clock: nat -> Stamps)
    returns (effects: seq<Effect>, clean: bool)
    ensures clean <==> Clean(answers)
    ensures effects == HandledUpTo(flags, answers, Stop(answers), clock)
  {
    var msgnum: nat := 1;
    effects := [];
    while true
      invariant 1 <= msgnum <= Stop(answers) + 1
      invariant effects == HandledUpTo(flags, answers, msgnum - 1, clock)
      decreases |answers| + 1 - msgnum
    {
      var a := if msgnum - 1 < |answers| then answers[msgnum - 1] else Got("", Incoming([], [], true));
      if a.ReadFailed? {
        ReadFailure(answers, msgnum - 1);
        return effects, false;
      }
      if a.message == "" {
        EndOfReads(answers, msgnum - 1);
        return effects, true;
      }
      MoreToRead(answers, msgnum - 1);
      HandledNext(flags, answers, msgnum - 1, clock);
      var handled := HandleMessage(flags, msgnum, answers[msgnum - 1].reply, clock(msgnum));
      effects := effects + handled.0;
      msgnum := msgnum + 1;
    }
  }

  // ---- the two entry points ----

  /** What happened to one retrieval during a pass. */
  datatype Poll = Skipped | Polled(effects: seq<Effect>, updated: bool)

  /** Some poll of the pass completed and saved the session. */
  predicate Updated(polls: seq<Poll>) {
    exists j :: 0 <= j < |polls| && polls[j].Polled? && polls[j].updated
  }

  lemma UpdatedAppend(polls: seq<Poll>, p: Poll)
    ensures Updated(polls + [p]) <==> Updated(polls) || (p.Polled? && p.updated)
  {
    var q := polls + [p];
    if Updated(q) {
      var j :| 0 <= j < |q| && q[j].Polled? && q[j].updated;
      if j < |polls| {
        assert polls[j] == q[j];
      }
    }
    if Updated(polls) {
      var j :| 0 <= j < |polls| && polls[j].Polled? && polls[j].updated;
      assert q[j] == polls[j];
    }
    if p.Polled? && p.updated {
      assert q[|polls|] == p;
    }
  }

  /** The last-run times after a pass: those of the retrievals whose poll
      completed become their poll's start time. */
  ghost predicate RecordedRuns(before: Session, after: Session, polls: seq<Poll>, start: nat -> Time)
  {
    |polls| == |before.retrieve| == |after.retrieve| &&
    after.(retrieve := before.retrieve, id := before.id) == before &&
    forall j :: 0 <= j < |polls| ==>
      after.retrieve[j].bbs == before.retrieve[j].bbs &&
      after.retrieve[j].lastRun == (if polls[j].Polled? && polls[j].updated then start(j) else before.retrieve[j].lastRun)
  }

  /** Each retrieval listed in `polls` was polled exactly when it was due. */
  ghost predicate Decided(cadence: Cadence, s: Session, now: Time, polls: seq<Poll>) {
    forall j :: 0 <= j < |polls| && j < |s.retrieve| ==> (polls[j].Polled? <==> Due(cadence, s, j, now))
  }

  /** Each poll made is what `CheckBbs` does with its retrieval's mailbox:
      it saves exactly when the connection is made and the reads end at an
      empty message, and it handles every delivered message and closes the
      connection exactly when the connection is made. */
  ghost predicate Performed(flags: Flags, polls: seq<Poll>, box: nat -> Mailbox, clock: nat -> nat -> Stamps) {
    forall j :: 0 <= j < |polls| ==> PollPerformed(flags, polls[j], box(j), clock(j))
  }

  /** Poll `p`, if made, is what `CheckBbs` does with mailbox `b`. */
  ghost predicate PollPerformed(flags: Flags, p: Poll, b: Mailbox, clock: nat -> Stamps) {
    p.Polled? ==>
      && p.updated == (b.connected && Clean(b.answers))
      && p.effects == (if b.connected then HandledUpTo(flags, b.answers, Stop(b.answers), clock) + [Closed] else [])
  }


  /** A pass whose polls start no earlier than `now` leaves nothing due at
      `now`, except retrievals whose poll did not complete. */
  lemma PassSettles(cadence: Cadence, s: Session, after: Session, polls: seq<Poll>, now: Time, start: nat -> Time)
    requires Decided(cadence, s, now, polls)
    requires RecordedRuns(s, after, polls, start)
    requires forall j :: 0 <= j < |polls| ==> start(j) >= now
    ensures forall j :: 0 <= j < |polls| && Due(cadence, after, j, now) ==> polls[j].Polled? && !polls[j].updated
  {
    assert Matcher(cadence, after) == Matcher(cadence, s) by {
      assert after.retrieveAt == s.retrieveAt;
    }
    forall j | 0 <= j < |polls| && polls[j].Polled? && polls[j].updated
      ensures !Due(cadence, after, j, now)
    {
      NotDueAgain(Matcher(cadence, s), start(j), now);
    }
  }

  /** What the pass has kept in the store once some polls are done: nothing
      written while no poll completed; afterwards, for a stored session, the
      tables one save of the current version would give.  Identities and
      validity are kept, and a session that has a row keeps it. */
  ghost predicate StoreSoFar(t: Tables, s: Session, tables: Tables, cur: Session, updated: bool) {
    && (!updated ==> tables == t && cur == s)
    && (updated && s.id != 0 ==> SessionStore.UpdateSession(t, cur) == Ok(SessionStore.Saved(tables, cur)))
    && SessionStore.KeepsIds(t, tables)
    && (SessionStore.Valid(t) ==> SessionStore.Valid(tables))
    && (s.id == 0 || SessionStore.HasRow(t.sessions, s.id) ==> cur.id == 0 || SessionStore.HasRow(tables.sessions, cur.id))
  }

  /** How the session being polled relates to `s` after its first `|polls|`
      retrievals: only those retrievals' last runs may have changed, each to
      its poll's start when that poll completed. */
  ghost predicate Tracks(s: Session, start: nat -> Time, cur: Session, polls: seq<Poll>) {
    && |polls| <= |s.retrieve| && |cur.retrieve| == |s.retrieve|
    && cur.(retrieve := s.retrieve, id := s.id) == s
    && (s.id != 0 ==> cur.id == s.id)
    && (forall j :: |polls| <= j < |s.retrieve| ==> cur.retrieve[j] == s.retrieve[j])
    && (forall j :: 0 <= j < |polls| ==>
          cur.retrieve[j].bbs == s.retrieve[j].bbs &&
          cur.retrieve[j].lastRun == (if polls[j].Polled? && polls[j].updated then start(j) else s.retrieve[j].lastRun))
  }

  /** The state of the pass over session `s` after its first `|polls|`
      retrievals. */
  ghost predicate Progress(t: Tables, s: Session, now: Time, cadence: Cadence,
                           box: nat -> Mailbox, start: nat -> Time, clock: nat -> nat -> Stamps,
                           tables: Tables, cur: Session, polls: seq<Poll>)
  {
    && Tracks(s, start, cur, polls)
    && Decided(cadence, s, now, polls)
    && Performed(s.flags, polls, box, clock)
    && StoreSoFar(t, s, tables, cur, Updated(polls))
  }

  /** The per-session pass shared by `ForSession` and `ForRunningSessions`.
      Each retrieval is polled exactly when it is due at `now`, each poll
      does what its mailbox dictates, and the completed polls record their
      start as the last run.  The tables end up as one save of the final
      session would leave them, or untouched when no poll completed, and
      the pass panics only for a session whose row is missing. */
  method PollSession(t: Tables, s: Session, now: Time, cadence: Cadence,
                     box: nat -> Mailbox, start: nat -> Time, clock: nat -> nat -> Stamps)
    returns (r: Result<SessionStore.Saved>, polls: seq<Poll>)
    ensures |polls| <= |s.retrieve|
    ensures r.Ok? ==> |polls| == |s.retrieve|
    ensures Decided(cadence, s, now, polls)
    ensures Performed(s.flags, polls, box, clock)
    ensures r.Ok? ==> RecordedRuns(s, r.value.session, polls, start)
    ensures r.Ok? && s.id != 0 ==> r.value.session.id == s.id
    ensures r.Ok? && !Updated(polls) ==> r.value == SessionStore.Saved(t, s)
    ensures r.Ok? && Updated(polls) && s.id != 0 ==> SessionStore.UpdateSession(t, r.value.session) == Ok(r.value)
    ensures r.Ok? ==> SessionStore.KeepsIds(t, r.value.tables)
    ensures r.Ok? && SessionStore.Valid(t) ==> SessionStore.Valid(r.value.tables)
    ensures s.id == 0 || SessionStore.HasRow(t.sessions, s.id) ==> r.Ok?
  {
    var tables := t;
    var cur := s;
    polls := [];
    assert !Updated(polls);
    while |polls| < |s.retrieve|
      invariant Progress(t, s, now, cadence, box, start, clock, tables, cur, polls)
      decreases |s.retrieve| - |polls|
    {
      var res, p := PollRetrieval(t, s, now, cadence, box, start, clock, tables, cur, polls);
      if res.Fatal? {
        return Fatal(res.reason), polls + [p];
      }
      tables := res.value.tables;
      cur := res.value.session;
      polls := polls + [p];
    }
    r := Ok(SessionStore.Saved(tables, cur));
  }

  /** One iteration of the pass: decides whether retrieval `|polls|` is due
      and, if so, polls it and saves a completed poll. */
  method PollRetrieval(t: Tables, s: Session, now: Time, cadence: Cadence,
                       box: nat -> Mailbox, start: nat -> Time, clock: nat -> nat -> Stamps,
                       tables: Tables, cur: Session, polls: seq<Poll>)
    returns (r: Result<SessionStore.Saved>, p: Poll)
    requires |polls| < |s.retrieve|
    requires Progress(t, s, now, cadence, box, start, clock, tables, cur, polls)
    ensures r.Ok? ==> Progress(t, s, now, cadence, box, start, clock, r.value.tables, r.value.session, polls + [p])
    ensures r.Fatal? ==> Decided(cadence, s, now, polls + [p]) && Performed(s.flags, polls + [p], box, clock)
    ensures r.Fatal? ==> !(s.id == 0 || SessionStore.HasRow(t.sessions, s.id))
  {
    var i := |polls|;
    var due, _ := DuePoint(Matcher(cadence, cur), cur.retrieve[i].lastRun, now);
    assert due <==> Due(cadence, s, i, now) by {
      assert cur.retrieveAt == s.retrieveAt;
      assert Matcher(cadence, cur) == Matcher(cadence, s);
    }
    var effects: seq<Effect> := [];
    var updated := false;
    if due {
      r, effects, updated := CheckBbs(tables, cur, i, box(i), start(i), clock(i));
      p := Polled(effects, updated);
    } else {
      r, p := Ok(SessionStore.Saved(tables, cur)), Skipped;
    }
    UpdatedAppend(polls, p);
    DecidedStep(cadence, s, now, box, clock, polls, p);
    SaveStep(t, s, tables, cur, WithLastRun(cur, i, start(i)), Updated(polls), p.Polled? && p.updated, r);
    if r.Ok? {
      TracksStep(s, start, cur, r.value.session, polls, p);
    }
  }

  lemma DecidedStep(cadence: Cadence, s: Session, now: Time, box: nat -> Mailbox, clock: nat -> nat -> Stamps,
                    polls: seq<Poll>, p: Poll)
    requires Decided(cadence, s, now, polls) && Performed(s.flags, polls, box, clock)
    requires |polls| < |s.retrieve|
    requires p.Polled? <==> Due(cadence, s, |polls|, now)
    requires PollPerformed(s.flags, p, box(|polls|), clock(|polls|))
    ensures Decided(cadence, s, now, polls + [p]) && Performed(s.flags, polls + [p], box, clock)
  {
    DecidedAppend(cadence, s, now, polls, p);
    PerformedAppend(s.flags, box, clock, polls, p);
  }

  lemma DecidedAppend(cadence: Cadence, s: Session, now: Time, polls: seq<Poll>, p: Poll)
    requires Decided(cadence, s, now, polls)
    requires |polls| < |s.retrieve|
    requires p.Polled? <==> Due(cadence, s, |polls|, now)
    ensures Decided(cadence, s, now, polls + [p])
  {
    var q := polls + [p];
    forall j | 0 <= j < |q| && j < |s.retrieve|
      ensures q[j].Polled? <==> Due(cadence, s, j, now)
    {
      if j < |polls| {
        assert q[j] == polls[j];
      }
    }
  }

  lemma PerformedAppend(flags: Flags, box: nat -> Mailbox, clock: nat -> nat -> Stamps, polls: seq<Poll>, p: Poll)
    requires Performed(flags, polls, box, clock)
    requires PollPerformed(flags, p, box(|polls|), clock(|polls|))
    ensures Performed(flags, polls + [p], box, clock)
  {
    var q := polls + [p];
    forall j | 0 <= j < |q|
      ensures PollPerformed(flags, q[j], box(j), clock(j))
    {
      if j < |polls| {
        assert q[j] == polls[j];
      }
    }
  }

  lemma TracksStep(s: Session, start: nat -> Time, cur: Session, next: Session, polls: seq<Poll>, p: Poll)
    requires Tracks(s, start, cur, polls)
    requires |polls| < |s.retrieve|
    requires s.id != 0 ==> next.id == s.id
    requires next.(id := cur.id) == if p.Polled? && p.updated then WithLastRun(cur, |polls|, start(|polls|)) else cur
    ensures Tracks(s, start, next, polls + [p])
  {
    var q := polls + [p];
    forall j | 0 <= j < |q|
      ensures next.retrieve[j].bbs == s.retrieve[j].bbs
      ensures next.retrieve[j].lastRun == (if q[j].Polled? && q[j].updated then start(j) else s.retrieve[j].lastRun)
    {
      if j < |polls| {
        assert q[j] == polls[j];
      }
    }
  }

  /** The store side of one iteration: `r` is the outcome of the poll of
      `cur`, a save of `w` exactly when the poll completed. */
  lemma SaveStep(t: Tables, s: Session, tables: Tables, cur: Session, w: Session, before: bool, updated: bool,
                 r: Result<SessionStore.Saved>)
    requires w.id == cur.id && w.retrieveAt == cur.retrieveAt
    requires s.id != 0 ==> cur.id == s.id
    requires StoreSoFar(t, s, tables, cur, before)
    requires updated ==> r == SessionStore.UpdateSession(tables, w)
    requires !updated ==> r == Ok(SessionStore.Saved(tables, cur))
    ensures r.Fatal? ==> !(s.id == 0 || SessionStore.HasRow(t.sessions, s.id))
    ensures r.Ok? ==> StoreSoFar(t, s, r.value.tables, r.value.session, before || updated)
    ensures r.Ok? && updated ==> r.value.session.(id := cur.id) == w
    ensures r.Ok? && updated && cur.id != 0 ==> r.value.session == w
    ensures r.Ok? && !updated ==> r.value.session == cur
  {
    if updated && r.Ok? {
      var res := r.value;
      forall id | SessionStore.HasRow(t.sessions, id)
        ensures SessionStore.HasRow(res.tables.sessions, id)
      {
        SessionStore.SaveKeepsIds(tables, w, id);
      }
      if SessionStore.Valid(tables) {
        SessionStore.UpdateKeepsValid(tables, w);
      }
      if before && s.id != 0 {
        SessionStore.SaveTwice(t, cur, w);
      }
      if cur.id == 0 {
        assert res.tables.sessions[|tables.sessions|].id == res.session.id;
      } else if SessionStore.HasRow(tables.sessions, cur.id) {
        SessionStore.SaveKeepsIds(tables, w, cur.id);
      }
    }
  }

  /** `ForSession`: one pass over the retrievals of the given session. */
  method ForSession(t: Tables, s: Session, now: Time, cadence: Cadence,
                    box: nat -> Mailbox, start: nat -> Time, clock: nat -> nat -> Stamps)
    returns (r: Result<SessionStore.Saved>, polls: seq<Poll>)
    ensures |polls| <= |s.retrieve|
    ensures r.Ok? ==> |polls| == |s.retrieve|
    ensures Decided(cadence, s, now, polls)
    ensures Performed(s.flags, polls, box, clock)
    ensures r.Ok? ==> RecordedRuns(s, r.value.session, polls, start)
    ensures r.Ok? && !Updated(polls) ==> r.value == SessionStore.Saved(t, s)
    ensures r.Ok? && Updated(polls) && s.id != 0 ==> SessionStore.UpdateSession(t, r.value.session) == Ok(r.value)
    ensures s.id == 0 || SessionStore.HasRow(t.sessions, s.id) ==> r.Ok?
  {
    r, polls := PollSession(t, s, now, cadence, box, start, clock);
  }

  /** Every session of the list has a row, under its own identity. */
  ghost predicate AllStored(t: Tables, sessions: seq<Session>) {
    && (forall k :: 0 <= k < |sessions| ==> sessions[k].id != 0 && SessionStore.HasRow(t.sessions, sessions[k].id))
    && (forall k, n :: 0 <= k < n < |sessions| ==> sessions[k].id != sessions[n].id)
  }

  /** What each session of the list reads back as after the first `done`
      have been polled: the saved version when a poll completed, and what
      it read back as before the pass otherwise. */
  ghost predicate ReadsBack(t0: Tables, t: Tables, sessions: seq<Session>, polls: seq<seq<Poll>>, after: seq<Session>)
    requires |polls| == |after| <= |sessions|
  {
    forall k :: 0 <= k < |sessions| ==>
      SessionStore.GetSession(t, sessions[k].id) ==
        (if k < |polls| && Updated(polls[k]) then Some(SessionStore.Reloaded(after[k])) else SessionStore.GetSession(t0, sessions[k].id))
  }

  /** `ForRunningSessions`: the same pass over every session that was
      running when it began.  `box(k)`, `start(k)` and `clock(k)` describe
      the polls of the k-th running session.  On valid tables the pass never
      panics, and afterwards each running session reads back as saved by
      its last completed poll, or as before when none completed. */
  method ForRunningSessions(t: Tables, now: Time, cadence: Cadence,
                            box: nat -> nat -> Mailbox, start: nat -> nat -> Time, clock: nat -> nat -> nat -> Stamps)
    returns (r: Result<Tables>, polls: seq<seq<Poll>>, after: seq<Session>)
    ensures var running := SessionStore.GetRunningSessions(t);
      && |polls| <= |running|
      && (r.Ok? ==> |polls| == |running| == |after|)
      && (forall k :: 0 <= k < |polls| ==> running[k].flags & SessionStore.Running != 0)
      && (forall k :: 0 <= k < |polls| ==> Decided(cadence, running[k], now, polls[k]))
      && (forall k :: 0 <= k < |polls| ==> Performed(running[k].flags, polls[k], box(k), clock(k)))
      && (r.Ok? ==> forall k :: 0 <= k < |running| ==> RecordedRuns(running[k], after[k], polls[k], start(k)))
    ensures SessionStore.Valid(t) ==>
      (r.Ok? && SessionStore.Valid(r.value) && ReadsBack(t, r.value, SessionStore.GetRunningSessions(t), polls, after))
  {
    var running := SessionStore.GetRunningSessions(t);
    if SessionStore.Valid(t) {
      RunningStored(t);
    }
    r, polls, after := PollAll(t, running, now, cadence, box, start, clock);
  }

  /** Under valid tables the running sessions are stored, each under its own
      identity. */
  lemma RunningStored(t: Tables)
    requires SessionStore.Valid(t)
    ensures AllStored(t, SessionStore.GetRunningSessions(t))
  {
    var running := SessionStore.GetRunningSessions(t);
    SessionStore.RunningSessionsOnce(t);
    forall k | 0 <= k < |running|
      ensures running[k].id != 0 && SessionStore.HasRow(t.sessions, running[k].id)
    {
      assert SessionStore.FromRow(t, running[k]);
      var n :| 0 <= n < |t.sessions| && running[k] == SessionStore.DecodeRow(t, t.sessions[n]);
    }
  }

  /** The pass over a list of sessions, in order, stopping at the first
      panic. */
  method PollAll(t: Tables, sessions: seq<Session>, now: Time, cadence: Cadence,
                 box: nat -> nat -> Mailbox, start: nat -> nat -> Time, clock: nat -> nat -> nat -> Stamps)
    returns (r: Result<Tables>, polls: seq<seq<Poll>>, after: seq<Session>)
    ensures |polls| <= |sessions|
    ensures r.Ok? ==> |polls| == |sessions| == |after|
    ensures forall k :: 0 <= k < |polls| ==> Decided(cadence, sessions[k], now, polls[k])
    ensures forall k :: 0 <= k < |polls| ==> Performed(sessions[k].flags, polls[k], box(k), clock(k))
    ensures r.Ok? ==> forall k :: 0 <= k < |sessions| ==> RecordedRuns(sessions[k], after[k], polls[k], start(k))
    ensures AllStored(t, sessions) ==> r.Ok?
    ensures SessionStore.Valid(t) && AllStored(t, sessions) ==>
      SessionStore.Valid(r.value) && ReadsBack(t, r.value, sessions, polls, after)
  {
    var tables := t;
    polls := [];
    after := [];
    for k := 0 to |sessions|
      invariant |polls| == k
      invariant Passed(t, sessions, now, cadence, box, start, clock, tables, polls, after)
    {
      var s := sessions[k];
      var res, sessionPolls := PollSession(tables, s, now, cadence, box(k), start(k), clock(k));
      if res.Fatal? {
        PassedPrefix(t, sessions, now, cadence, box, start, clock, tables, polls, after, sessionPolls);
        polls := polls + [sessionPolls];
        return Fatal(res.reason), polls, after;
      }
      PassedStep(t, sessions, now, cadence, box, start, clock, tables, polls, after, res.value, sessionPolls);
      tables := res.value.tables;
      polls := polls + [sessionPolls];
      after := after + [res.value.session];
    }
    r := Ok(tables);
  }

  /** The state of the pass over a list of sessions once the first
      `|polls|` have been polled; `after` holds their versions as saved. */
  ghost predicate Passed(t: Tables, sessions: seq<Session>, now: Time, cadence: Cadence,
                         box: nat -> nat -> Mailbox, start: nat -> nat -> Time, clock: nat -> nat -> nat -> Stamps,
                         tables: Tables, polls: seq<seq<Poll>>, after: seq<Session>)
  {
    && |polls| == |after| <= |sessions|
    && (forall n :: 0 <= n < |polls| ==> Decided(cadence, sessions[n], now, polls[n]))
    && (forall n :: 0 <= n < |polls| ==> Performed(sessions[n].flags, polls[n], box(n), clock(n)))
    && (forall n :: 0 <= n < |polls| ==> RecordedRuns(sessions[n], after[n], polls[n], start(n)))
    && SessionStore.KeepsIds(t, tables)
    && (SessionStore.Valid(t) ==> SessionStore.Valid(tables))
    && (SessionStore.Valid(t) && AllStored(t, sessions) ==> ReadsBack(t, tables, sessions, polls, after))
  }

  /** A panic while polling session `|polls|` leaves the decisions and the
      polls made so far as the pass describes them; it cannot happen when
      every session is stored. */
  lemma PassedPrefix(t: Tables, sessions: seq<Session>, now: Time, cadence: Cadence,
                     box: nat -> nat -> Mailbox, start: nat -> nat -> Time, clock: nat -> nat -> nat -> Stamps,
                     tables: Tables, polls: seq<seq<Poll>>, after: seq<Session>, sessionPolls: seq<Poll>)
    requires Passed(t, sessions, now, cadence, box, start, clock, tables, polls, after)
    requires |polls| < |sessions|
    requires Decided(cadence, sessions[|polls|], now, sessionPolls)
    requires Performed(sessions[|polls|].flags, sessionPolls, box(|polls|), clock(|polls|))
    ensures var q := polls + [sessionPolls];
      && (forall n :: 0 <= n < |q| ==> Decided(cadence, sessions[n], now, q[n]))
      && (forall n :: 0 <= n < |q| ==> Performed(sessions[n].flags, q[n], box(n), clock(n)))
    ensures AllStored(t, sessions) ==> SessionStore.HasRow(tables.sessions, sessions[|polls|].id) && sessions[|polls|].id != 0
  {
    PollsAppend(sessions, now, cadence, box, clock, polls, sessionPolls);
  }

  /** The polls of one more session, decided and performed as the pass
      requires, extend the pass's record. */
  lemma PollsAppend(sessions: seq<Session>, now: Time, cadence: Cadence,
                    box: nat -> nat -> Mailbox, clock: nat -> nat -> nat -> Stamps,
                    polls: seq<seq<Poll>>, sessionPolls: seq<Poll>)
    requires |polls| < |sessions|
    requires forall n :: 0 <= n < |polls| ==> Decided(cadence, sessions[n], now, polls[n])
    requires forall n :: 0 <= n < |polls| ==> Performed(sessions[n].flags, polls[n], box(n), clock(n))
    requires Decided(cadence, sessions[|polls|], now, sessionPolls)
    requires Performed(sessions[|polls|].flags, sessionPolls, box(|polls|), clock(|polls|))
    ensures var q := polls + [sessionPolls];
      && (forall n :: 0 <= n < |q| ==> Decided(cadence, sessions[n], now, q[n]))
      && (forall n :: 0 <= n < |q| ==> Performed(sessions[n].flags, q[n], box(n), clock(n)))
  {
    var q := polls + [sessionPolls];
    assert forall n :: 0 <= n < |polls| ==> q[n] == polls[n];
    assert q[|polls|] == sessionPolls;
  }

  /** Polling session `|polls|` to completion extends the pass by its
      polls and its saved version. */
  lemma PassedStep(t: Tables, sessions: seq<Session>, now: Time, cadence: Cadence,
                   box: nat -> nat -> Mailbox, start: nat -> nat -> Time, clock: nat -> nat -> nat -> Stamps,
                   tables: Tables, polls: seq<seq<Poll>>, after: seq<Session>,
                   saved: SessionStore.Saved, sessionPolls: seq<Poll>)
    requires Passed(t, sessions, now, cadence, box, start, clock, tables, polls, after)
    requires |polls| < |sessions|
    requires var s := sessions[|polls|];
      && Decided(cadence, s, now, sessionPolls)
      && Performed(s.flags, sessionPolls, box(|polls|), clock(|polls|))
      && RecordedRuns(s, saved.session, sessionPolls, start(|polls|))
      && (s.id != 0 ==> saved.session.id == s.id)
      && (!Updated(sessionPolls) ==> saved == SessionStore.Saved(tables, s))
      && (Updated(sessionPolls) && s.id != 0 ==> SessionStore.UpdateSession(tables, saved.session) == Ok(saved))
      && SessionStore.KeepsIds(tables, saved.tables)
      && (SessionStore.Valid(tables) ==> SessionStore.Valid(saved.tables))
    ensures Passed(t, sessions, now, cadence, box, start, clock, saved.tables,
                   polls + [sessionPolls], after + [saved.session])
  {
    var k := |polls|;
    PassedPrefix(t, sessions, now, cadence, box, start, clock, tables, polls, after, sessionPolls);
    RecordedAppend(sessions, start, polls, after, saved.session, sessionPolls);
    if SessionStore.Valid(t) && AllStored(t, sessions) {
      ReadsBackStep(t, tables, sessions, polls, after, k, saved, sessionPolls);
    }
  }

  lemma RecordedAppend(sessions: seq<Session>, start: nat -> nat -> Time, polls: seq<seq<Poll>>, after: seq<Session>,
                       session: Session, sessionPolls: seq<Poll>)
    requires |polls| == |after| < |sessions|
    requires forall n :: 0 <= n < |polls| ==> RecordedRuns(sessions[n], after[n], polls[n], start(n))
    requires RecordedRuns(sessions[|polls|], session, sessionPolls, start(|polls|))
    ensures var q, a := polls + [sessionPolls], after + [session];
      forall n :: 0 <= n < |q| ==> RecordedRuns(sessions[n], a[n], q[n], start(n))
  {
    var q, a := polls + [sessionPolls], after + [session];
    forall n | 0 <= n < |q|
      ensures RecordedRuns(sessions[n], a[n], q[n], start(n))
    {
      if n < |polls| {
        assert q[n] == polls[n] && a[n] == after[n];
      }
    }
  }

  /** Polling the k-th session changes only what that session reads back
      as. */
  lemma ReadsBackStep(t0: Tables, t: Tables, sessions: seq<Session>, polls: seq<seq<Poll>>, after: seq<Session>,
                      k: nat, saved: SessionStore.Saved, sessionPolls: seq<Poll>)
    requires k == |polls| == |after| < |sessions|
    requires AllStored(t0, sessions) && SessionStore.Valid(t) && SessionStore.KeepsIds(t0, t)
    requires ReadsBack(t0, t, sessions, polls, after)
    requires saved.session.id == sessions[k].id
    requires !Updated(sessionPolls) ==> saved.tables == t
    requires Updated(sessionPolls) ==> SessionStore.UpdateSession(t, saved.session) == Ok(saved)
    ensures ReadsBack(t0, saved.tables, sessions, polls + [sessionPolls], after + [saved.session])
  {
    var ps := polls + [sessionPolls];
    var saves := after + [saved.session];
    forall n | 0 <= n < |sessions|
      ensures SessionStore.GetSession(saved.tables, sessions[n].id) ==
        (if n < |ps| && Updated(ps[n]) then Some(SessionStore.Reloaded(saves[n])) else SessionStore.GetSession(t0, sessions[n].id))
    {
      if n < k {
        assert ps[n] == polls[n] && saves[n] == after[n];
      }
      if Updated(sessionPolls) {
        if n == k {
          SessionStore.ReadAfterWrite(t, saved.session);
        } else {
          SessionStore.SaveLeavesOthers(t, saved.session, sessions[n].id);
        }
      }
    }
  }
}

=== FILE: session_flags.dfy ===
/** The bit layout of a session's flags. */
module SessionFlags {
  import opened SessionStore

  /** The flags in declaration order. */
  const AllFlags: seq<Flags> := [Running, ExcludeFromWeek, DontKillMessages, DontSendResponses, Imported, Modified, ReportToSenders]

  /** Each flag is its own bit, 1 << position, so no two share a bit. */
  lemma FlagBits()
    ensures |AllFlags| == 7 && AllFlags[0] == Running == 1
    ensures forall i :: 0 <= i < |AllFlags| ==> AllFlags[i] == (1 as Flags) << i
    ensures forall i, j :: 0 <= i < j < |AllFlags| ==> AllFlags[i] & AllFlags[j] == 0
  {
  }
}

=== FILE: session_store.dfy ===
/** Sessions and their retrievals as stored in the database (store/session.go).

    The `session` table holds one row per session with its list fields joined
    by ';' and its start and end at whole-second precision; the `retrieval`
    table holds the (session, BBS, last run) children, whose last-run instant
    keeps nanoseconds.  Tables are sequences of rows in insertion order. */
module SessionStore {
  import opened Clock
  import opened Outcomes
  import opened ListCodec
  import opened Ordering

  /** Go's `SessionFlags`, a uint8 bit set. */
  type Flags = bv8

  const Running: Flags := 1
  const ExcludeFromWeek: Flags := 2
  const DontKillMessages: Flags := 4
  const DontSendResponses: Flags := 8
  const Imported: Flags := 16
  const Modified: Flags := 32
  const ReportToSenders: Flags := 64

  /** One scheduled retrieval of a session: the BBS to poll and when it was
      last polled successfully. */
  datatype Retrieval = Retrieval(bbs: string, lastRun: Time)

  /** A session as the program handles it in memory.  An `id` of 0 marks a
      session that has no database row yet. */
  datatype Session = Session(
    id: int,
    callSign: string,
    name: string,
    prefix: string,
    start: Time,
    end: Time,
    reportToText: seq<string>,
    reportToHtml: seq<string>,
    toBbses: seq<string>,
    downBbses: seq<string>,
    retrieve: seq<Retrieval>,
    messageTypes: seq<string>,
    modelMessage: string,
    instructions: string,
    retrieveAt: string,
    report: string,
    flags: Flags)

  /** A row of the `session` table.  `flags` is the integer column holding
      the session's 8-bit flag set, which is all the program ever writes
      there. */
  datatype SessionRow = SessionRow(
    id: int,
    callSign: string,
    name: string,
    prefix: string,
    start: Time,
    end: Time,
    reportToText: string,
    reportToHtml: string,
    toBbses: string,
    downBbses: string,
    messageTypes: string,
    modelMessage: string,
    instructions: string,
    retrieveAt: string,
    report: string,
    flags: Flags)

  /** A row of the `retrieval` table. */
  datatype RetrievalRow = RetrievalRow(session: int, bbs: string, lastRun: Time)

  datatype Tables = Tables(sessions: seq<SessionRow>, retrievals: seq<RetrievalRow>)

  /** The result of a write that may assign the session its identity. */
  datatype Saved = Saved(tables: Tables, session: Session)

  // ---- Invariants of the tables ------------------------------------------

  predicate HasRow(rows: seq<SessionRow>, id: int) {
    exists i :: 0 <= i < |rows| && rows[i].id == id
  }

  /** Every identity stored in `t` is still stored in `u`. */
  ghost predicate KeepsIds(t: Tables, u: Tables) {
    forall id :: HasRow(t.sessions, id) ==> HasRow(u.sessions, id)
  }

  /** Session identities are positive and unique, and every retrieval row
      belongs to a stored session (the foreign key). */
  ghost predicate Valid(t: Tables) {
    && (forall i :: 0 <= i < |t.sessions| ==> t.sessions[i].id > 0)
    && (forall i, j :: 0 <= i < j < |t.sessions| ==> t.sessions[i].id != t.sessions[j].id)
    && (forall k :: 0 <= k < |t.retrievals| ==> HasRow(t.sessions, t.retrievals[k].session))
  }

  // ---- Encoding and decoding rows -------------------------------------------

  /** The values `CreateSession` and `UpdateSession` bind for a session. */
  function EncodeRow(s: Session, id: int): (row: SessionRow)
    ensures row.id == id && row.flags == s.flags
    ensures row.start == Stored(s.start, WholeSeconds) && row.end == Stored(s.end, WholeSeconds)
  {
    SessionRow(
      id, s.callSign, s.name, s.prefix,
      Stored(s.start, WholeSeconds), Stored(s.end, WholeSeconds),
      Join(s.reportToText), Join(s.reportToHtml), Join(s.toBbses), Join(s.downBbses),
      Join(s.messageTypes),
      s.modelMessage, s.instructions, s.retrieveAt, s.report, s.flags)
  }

  /** The retrieval rows inserted for a session, in the session's order. */
  function EncodeRetrievals(id: int, rs: seq<Retrieval>): (rows: seq<RetrievalRow>)
    ensures |rows| == |rs|
    ensures forall k :: 0 <= k < |rows| ==> rows[k].session == id
  {
    if |rs| == 0 then []
    else [RetrievalRow(id, rs[0].bbs, Stored(rs[0].lastRun, Nanoseconds))] + EncodeRetrievals(id, rs[1..])
  }

  /** `SELECT bbs, lastrun FROM retrieval WHERE session=?`, in table order. */
  function RetrievalsOf(rows: seq<RetrievalRow>, id: int): (rs: seq<Retrieval>)
    ensures |rs| <= |rows|
    ensures (forall j :: 0 <= j < |rows| ==> rows[j].session != id) ==> rs == []
  {
    if |rows| == 0 then []
    else
      (if rows[0].session == id then [Retrieval(rows[0].bbs, rows[0].lastRun)] else [])
      + RetrievalsOf(rows[1..], id)
  }

  /** Every retrieval read for a session comes from one of its rows, and
      every row of the session is read. */
  lemma RetrievalsOfExactly(rows: seq<RetrievalRow>, id: int)
    ensures var rs := RetrievalsOf(rows, id);
      && (forall k :: 0 <= k < |rs| ==>
            exists j :: 0 <= j < |rows| && rows[j].session == id && rs[k] == Retrieval(rows[j].bbs, rows[j].lastRun))
      && (forall j :: 0 <= j < |rows| && rows[j].session == id ==> Retrieval(rows[j].bbs, rows[j].lastRun) in rs)
  {
    RetrievalsOfSound(rows, id);
    RetrievalsOfComplete(rows, id);
  }

  lemma {:induction false} RetrievalsOfSound(rows: seq<RetrievalRow>, id: int)
    ensures var rs := RetrievalsOf(rows, id);
      forall k :: 0 <= k < |rs| ==>
        exists j :: 0 <= j < |rows| && rows[j].session == id && rs[k] == Retrieval(rows[j].bbs, rows[j].lastRun)
    decreases |rows|
  {
    if |rows| > 0 {
      var rest := rows[1..];
      RetrievalsOfSound(rest, id);
      var rs := RetrievalsOf(rows, id);
      var head := if rows[0].session == id then [Retrieval(rows[0].bbs, rows[0].lastRun)] else [];
      assert rs == head + RetrievalsOf(rest, id);
      forall k | 0 <= k < |rs|
        ensures exists j :: 0 <= j < |rows| && rows[j].session == id && rs[k] == Retrieval(rows[j].bbs, rows[j].lastRun)
      {
        if k >= |head| {
          var j :| 0 <= j < |rest| && rest[j].session == id && RetrievalsOf(rest, id)[k - |head|] == Retrieval(rest[j].bbs, rest[j].lastRun);
          assert rows[j + 1] == rest[j];
        }
      }
    }
  }

  lemma {:induction false} RetrievalsOfComplete(rows: seq<RetrievalRow>, id: int)
    ensures forall j :: 0 <= j < |rows| && rows[j].session == id ==> Retrieval(rows[j].bbs, rows[j].lastRun) in RetrievalsOf(rows, id)
    decreases |rows|
  {
    if |rows| > 0 {
      var rest := rows[1..];
      RetrievalsOfComplete(rest, id);
      var head := if rows[0].session == id then [Retrieval(rows[0].bbs, rows[0].lastRun)] else [];
      assert RetrievalsOf(rows, id) == head + RetrievalsOf(rest, id);
      forall j | 0 <= j < |rows| && rows[j].session == id
        ensures Retrieval(rows[j].bbs, rows[j].lastRun) in RetrievalsOf(rows, id)
      {
        if j > 0 {
          assert rest[j - 1] == rows[j];
        }
      }
    }
  }


  /** A session read back from its row and its retrieval rows. */
  function DecodeRow(t: Tables, row: SessionRow): (s: Session)
    ensures s.id == row.id && s.end == row.end && s.start == row.start && s.flags == row.flags
  {
    Session(
      row.id, row.callSign, row.name, row.prefix, row.start, row.end,
      Split(row.reportToText), Split(row.reportToHtml), Split(row.toBbses), Split(row.downBbses),
      RetrievalsOf(t.retrievals, row.id),
      Split(row.messageTypes),
      row.modelMessage, row.instructions, row.retrieveAt, row.report, row.flags)
  }

  function DecodeAll(t: Tables, rows: seq<SessionRow>): (ss: seq<Session>)
    ensures |ss| == |rows|
    ensures forall i :: 0 <= i < |rows| ==> ss[i] == DecodeRow(t, rows[i])
  {
    seq(|rows|, i requires 0 <= i < |rows| => DecodeRow(t, rows[i]))
  }

  /** What a session looks like after a write and a read: start and end lose
      their sub-second digits and list fields pass through the ';' codec. */
  function Reloaded(s: Session): Session {
    s.(start := Stored(s.start, WholeSeconds), end := Stored(s.end, WholeSeconds),
       reportToText := Split(Join(s.reportToText)), reportToHtml := Split(Join(s.reportToHtml)),
       toBbses := Split(Join(s.toBbses)), downBbses := Split(Join(s.downBbses)),
       messageTypes := Split(Join(s.messageTypes)))
  }

  /** Whether every list field of a session survives the ';' codec. */
  predicate StorableLists(s: Session) {
    && Storable(s.reportToText) && Storable(s.reportToHtml)
    && Storable(s.toBbses) && Storable(s.downBbses) && Storable(s.messageTypes)
  }

  // ---- Queries ------------------------------------------------------------------

  /** Whether `s` is what some stored row reads back as. */
  ghost predicate FromRow(t: Tables, s: Session) {
    exists k :: 0 <= k < |t.sessions| && s == DecodeRow(t, t.sessions[k])
  }

  predicate IsRunning(row: SessionRow) { row.flags & Running != 0 }

  /** `WHERE flags & 1`: the rows with the running bit, in table order. */
  function RunningRows(rows: seq<SessionRow>): (r: seq<SessionRow>)
    ensures forall i :: 0 <= i < |r| ==> r[i] in rows && r[i].flags & Running != 0
    ensures forall k :: 0 <= k < |rows| && rows[k].flags & Running != 0 ==> rows[k] in r
    ensures multiset(r) <= multiset(rows)
  {
    Filter(rows, IsRunning)
  }

  /** `GetRunningSessions`: the sessions whose stored flags have bit 1 set,
      in table order. */
  function GetRunningSessions(t: Tables): (ss: seq<Session>)
    ensures forall i :: 0 <= i < |ss| ==> ss[i].flags & Running != 0 && FromRow(t, ss[i])
  {
    var rows := RunningRows(t.sessions);
    assert forall i :: 0 <= i < |rows| ==> exists k :: 0 <= k < |t.sessions| && t.sessions[k] == rows[i];
    DecodeAll(t, rows)
  }

  /** The running sessions are exactly the stored sessions with the running
      bit set. */
  lemma RunningSessionsExactly(t: Tables)
    ensures forall s :: s in GetRunningSessions(t) <==>
      exists k :: 0 <= k < |t.sessions| && t.sessions[k].flags & Running != 0 && s == DecodeRow(t, t.sessions[k])
  {
    forall s | s in GetRunningSessions(t)
      ensures exists k :: 0 <= k < |t.sessions| && t.sessions[k].flags & Running != 0 && s == DecodeRow(t, t.sessions[k])
    {
      RunningSessionFromRow(t, s);
    }
    forall k | 0 <= k < |t.sessions| && t.sessions[k].flags & Running != 0
      ensures DecodeRow(t, t.sessions[k]) in GetRunningSessions(t)
    {
      RunningSessionListed(t, k);
    }
  }

  lemma RunningSessionFromRow(t: Tables, s: Session)
    requires s in GetRunningSessions(t)
    ensures exists k :: 0 <= k < |t.sessions| && t.sessions[k].flags & Running != 0 && s == DecodeRow(t, t.sessions[k])
  {
    var rows := RunningRows(t.sessions);
    var ss := GetRunningSessions(t);
    assert ss == DecodeAll(t, rows);
    var i :| 0 <= i < |ss| && ss[i] == s;
    RunningRowAt(t.sessions, i);
    var k :| 0 <= k < |t.sessions| && t.sessions[k] == rows[i] && t.sessions[k].flags & Running != 0;
    assert s == DecodeRow(t, t.sessions[k]);
  }

  /** Each running row is a row of the table with the running bit. */
  lemma RunningRowAt(rows: seq<SessionRow>, i: nat)
    requires i < |RunningRows(rows)|
    ensures exists k :: 0 <= k < |rows| && rows[k] == RunningRows(rows)[i] && rows[k].flags & Running != 0
  {
    var row := RunningRows(rows)[i];
    assert row in rows;
  }

  lemma RunningSessionListed(t: Tables, k: nat)
    requires k < |t.sessions| && t.sessions[k].flags & Running != 0
    ensures DecodeRow(t, t.sessions[k]) in GetRunningSessions(t)
  {
    var rows := RunningRows(t.sessions);
    var i :| 0 <= i < |rows| && rows[i] == t.sessions[k];
    assert GetRunningSessions(t)[i] == DecodeRow(t, rows[i]);
  }

  /** `WHERE flags & 1` selects each running row as often as the table holds
      it, and no other row. */
  lemma RunningRowsCount(rows: seq<SessionRow>, row: SessionRow)
    ensures multiset(RunningRows(rows))[row] == if row.flags & Running != 0 then multiset(rows)[row] else 0
  {
    FilterCount(rows, IsRunning, row);
  }

  /** One running session is returned per selected row. */
  lemma RunningSessionsCount(t: Tables)
    ensures |GetRunningSessions(t)| == |RunningRows(t.sessions)|
  {
    assert GetRunningSessions(t) == DecodeAll(t, RunningRows(t.sessions));
  }

  /** With unique identities, each running session is listed once. */
  lemma RunningSessionsOnce(t: Tables)
    requires Valid(t)
    ensures var ss := GetRunningSessions(t);
      forall i, j :: 0 <= i < j < |ss| ==> ss[i].id != ss[j].id
  {
    var rows := RunningRows(t.sessions);
    assert DistinctBy(t.sessions, (row: SessionRow) => row.id);
    DistinctBySub(rows, t.sessions, (row: SessionRow) => row.id);
  }

  /** Whether a row's end lies in [start, end).  The bounds are bound with
      the whole-second layout, so they are compared after truncation. */
  predicate EndsWithin(row: SessionRow, start: Time, end: Time) {
    Stored(start, WholeSeconds) <= row.end < Stored(end, WholeSeconds)
  }

  /** `WHERE end >= ? AND end < ?`: the rows ending within the window, in
      table order. */
  function RowsEndingWithin(rows: seq<SessionRow>, start: Time, end: Time): (r: seq<SessionRow>)
    ensures forall i :: 0 <= i < |r| ==> r[i] in rows && EndsWithin(r[i], start, end)
    ensures forall k :: 0 <= k < |rows| && EndsWithin(rows[k], start, end) ==> rows[k] in r
    ensures multiset(r) <= multiset(rows)
  {
    Filter(rows, (row: SessionRow) => EndsWithin(row, start, end))
  }

  /** The `ORDER BY end, callsign` of `GetSessions`. */
  predicate EndThenCallSign(a: Session, b: Session) {
    a.end < b.end || (a.end == b.end && TextLe(a.callSign, b.callSign))
  }

  lemma EndThenCallSignIsTotalPreorder()
    ensures TotalPreorder(EndThenCallSign)
  {
    forall a: Session, b: Session
      ensures EndThenCallSign(a, b) || EndThenCallSign(b, a)
    {
      TextLeTotal(a.callSign, b.callSign);
    }
    forall a: Session, b: Session, c: Session | EndThenCallSign(a, b) && EndThenCallSign(b, c)
      ensures EndThenCallSign(a, c)
    {
      if a.end == b.end == c.end {
        TextLeTransitive(a.callSign, b.callSign, c.callSign);
      }
    }
  }

  /** `GetSessions`: the sessions ending in [start, end), ordered by end and
      then by call sign. */
  function GetSessions(t: Tables, start: Time, end: Time): (ss: seq<Session>)
    ensures forall i :: 0 <= i < |ss| ==> Stored(start, WholeSeconds) <= ss[i].end < Stored(end, WholeSeconds)
    ensures forall i :: 0 <= i < |ss| ==> FromRow(t, ss[i])
    ensures Sorted(ss, EndThenCallSign)
  {
    var rows := RowsEndingWithin(t.sessions, start, end);
    var decoded := DecodeAll(t, rows);
    var ss := SortBy(decoded, EndThenCallSign);
    EndThenCallSignIsTotalPreorder();
    SortBySorted(decoded, EndThenCallSign);
    DecodedWithin(t, start, end, rows, decoded);
    PermutedWithin(t, start, end, decoded, ss);
    ss
  }

  /** Sessions that each end within [start, end) and come from a stored row. */
  ghost predicate AllWithin(t: Tables, start: Time, end: Time, ss: seq<Session>) {
    forall i :: 0 <= i < |ss| ==> Stored(start, WholeSeconds) <= ss[i].end < Stored(end, WholeSeconds) && FromRow(t, ss[i])
  }

  lemma DecodedWithin(t: Tables, start: Time, end: Time, rows: seq<SessionRow>, decoded: seq<Session>)
    requires forall i :: 0 <= i < |rows| ==> rows[i] in t.sessions && EndsWithin(rows[i], start, end)
    requires |decoded| == |rows| && forall i :: 0 <= i < |rows| ==> decoded[i] == DecodeRow(t, rows[i])
    ensures AllWithin(t, start, end, decoded)
  {
    forall i | 0 <= i < |decoded|
      ensures FromRow(t, decoded[i])
    {
      var k :| 0 <= k < |t.sessions| && t.sessions[k] == rows[i];
    }
  }

  lemma PermutedWithin(t: Tables, start: Time, end: Time, a: seq<Session>, b: seq<Session>)
    requires AllWithin(t, start, end, a) && multiset(b) == multiset(a)
    ensures AllWithin(t, start, end, b)
  {
    forall i | 0 <= i < |b|
      ensures Stored(start, WholeSeconds) <= b[i].end < Stored(end, WholeSeconds) && FromRow(t, b[i])
    {
      assert b[i] in multiset(a);
      var j :| 0 <= j < |a| && a[j] == b[i];
    }
  }

  /** Every stored session ending in [start, end) is among `GetSessions`. */
  lemma GetSessionsComplete(t: Tables, start: Time, end: Time, k: nat)
    requires k < |t.sessions| && EndsWithin(t.sessions[k], start, end)
    ensures DecodeRow(t, t.sessions[k]) in GetSessions(t, start, end)
  {
    var rows := RowsEndingWithin(t.sessions, start, end);
    var decoded := DecodeAll(t, rows);
    var j :| 0 <= j < |rows| && rows[j] == t.sessions[k];
    assert decoded[j] in multiset(SortBy(decoded, EndThenCallSign));
  }

  /** `GetSessions` returns exactly the stored sessions whose end lies in
      [start, end) at whole-second precision. */
  lemma SessionsEndingWithinExactly(t: Tables, start: Time, end: Time)
    ensures forall s :: s in GetSessions(t, start, end) <==>
      exists k :: 0 <= k < |t.sessions| && EndsWithin(t.sessions[k], start, end) && s == DecodeRow(t, t.sessions[k])
  {
    var ss := GetSessions(t, start, end);
    forall s | s in ss
      ensures exists k :: 0 <= k < |t.sessions| && EndsWithin(t.sessions[k], start, end) && s == DecodeRow(t, t.sessions[k])
    {
      var i :| 0 <= i < |ss| && ss[i] == s;
      assert FromRow(t, ss[i]);
    }
    forall k | 0 <= k < |t.sessions| && EndsWithin(t.sessions[k], start, end)
      ensures DecodeRow(t, t.sessions[k]) in ss
    {
      GetSessionsComplete(t, start, end, k);
    }
  }

  /** The window selects each row ending within it as often as the table
      holds it, and no other row. */
  lemma RowsEndingWithinCount(rows: seq<SessionRow>, start: Time, end: Time, row: SessionRow)
    ensures multiset(RowsEndingWithin(rows, start, end))[row] == if EndsWithin(row, start, end) then multiset(rows)[row] else 0
  {
    FilterCount(rows, (r: SessionRow) => EndsWithin(r, start, end), row);
  }

  /** Sorting keeps one session per selected row. */
  lemma GetSessionsCount(t: Tables, start: Time, end: Time)
    ensures |GetSessions(t, start, end)| == |RowsEndingWithin(t.sessions, start, end)|
  {
    var decoded := DecodeAll(t, RowsEndingWithin(t.sessions, start, end));
    assert GetSessions(t, start, end) == SortBy(decoded, EndThenCallSign);
    assert |multiset(SortBy(decoded, EndThenCallSign))| == |multiset(decoded)|;
  }

  /** With unique identities, each session ending in the window is listed
      once. */
  lemma GetSessionsOnce(t: Tables, start: Time, end: Time)
    requires Valid(t)
    ensures var ss := GetSessions(t, start, end);
      forall i, j :: 0 <= i < j < |ss| ==> ss[i].id != ss[j].id
  {
    var rows := RowsEndingWithin(t.sessions, start, end);
    var decoded := DecodeAll(t, rows);
    assert DistinctBy(t.sessions, (row: SessionRow) => row.id);
    DistinctBySub(rows, t.sessions, (row: SessionRow) => row.id);
    assert DistinctBy(decoded, (s: Session) => s.id);
    DistinctBySub(GetSessions(t, start, end), decoded, (s: Session) => s.id);
  }

  /** `ExistSessions`: whether some session ends in [start, end), which is
      whether `GetSessions` over the same window returns any. */
  predicate ExistSessions(t: Tables, start: Time, end: Time): (b: bool)
    ensures b <==> |GetSessions(t, start, end)| > 0
  {
    EndingWithinListed(t, start, end);
    ListedEndsWithin(t, start, end);
    exists k :: 0 <= k < |t.sessions| && EndsWithin(t.sessions[k], start, end)
  }

  /** A row ending within the window makes the listing non-empty. */
  lemma EndingWithinListed(t: Tables, start: Time, end: Time)
    ensures (exists k :: 0 <= k < |t.sessions| && EndsWithin(t.sessions[k], start, end)) ==> |GetSessions(t, start, end)| > 0
  {
    if exists k :: 0 <= k < |t.sessions| && EndsWithin(t.sessions[k], start, end) {
      var k :| 0 <= k < |t.sessions| && EndsWithin(t.sessions[k], start, end);
      GetSessionsComplete(t, start, end, k);
    }
  }

  /** A session listed for the window comes from a row ending within it. */
  lemma ListedEndsWithin(t: Tables, start: Time, end: Time)
    ensures |GetSessions(t, start, end)| > 0 ==> exists k :: 0 <= k < |t.sessions| && EndsWithin(t.sessions[k], start, end)
  {
    var ss := GetSessions(t, start, end);
    if |ss| > 0 {
      SessionsEndingWithinExactly(t, start, end);
      assert ss[0] in ss;
    }
  }

  /** The first row with identity `id`. */
  function FindRow(rows: seq<SessionRow>, id: int): (r: Option<SessionRow>)
    ensures r.None? <==> !HasRow(rows, id)
    ensures r.Some? ==> r.value in rows && r.value.id == id
  {
    if |rows| == 0 then None
    else if rows[0].id == id then Some(rows[0])
    else
      var r := FindRow(rows[1..], id);
      assert HasRow(rows, id) ==> rows[0].id == id || HasRow(rows[1..], id) by {
        if HasRow(rows, id) {
          var i :| 0 <= i < |rows| && rows[i].id == id;
          if i > 0 { assert rows[1..][i - 1].id == id; }
        }
      }
      r
  }

  /** `GetSession`: the session with that identity, or nil. */
  function GetSession(t: Tables, id: int): (r: Option<Session>)
    ensures r.None? <==> !HasRow(t.sessions, id)
    ensures r.Some? ==> r.value.id == id
  {
    match FindRow(t.sessions, id)
    case None => None
    case Some(row) => Some(DecodeRow(t, row))
  }

  // ---- Writes ---------------------------------------------------------------------

  function MaxId(rows: seq<SessionRow>): (m: int)
    ensures m >= 0
    ensures forall i :: 0 <= i < |rows| ==> rows[i].id <= m
  {
    if |rows| == 0 then 0
    else
      var rest := MaxId(rows[1..]);
      if rows[0].id > rest then rows[0].id else rest
  }

  /** The identity SQLite assigns to a new row: one more than the largest in
      use. */
  function NewId(rows: seq<SessionRow>): (id: int)
    ensures id > 0 && !HasRow(rows, id)
  {
    MaxId(rows) + 1
  }

  /** `CreateSession`: inserts the session with a new identity, then its
      retrievals. */
  function CreateSession(t: Tables, s: Session): (r: Saved)
    ensures r.session == s.(id := r.session.id)
    ensures r.session.id > 0 && !HasRow(t.sessions, r.session.id)
    ensures r.tables.sessions == t.sessions + [EncodeRow(s, r.session.id)]
    ensures r.tables.retrievals == t.retrievals + EncodeRetrievals(r.session.id, s.retrieve)
  {
    var id := NewId(t.sessions);
    Saved(Tables(t.sessions + [EncodeRow(s, id)], t.retrievals + EncodeRetrievals(id, s.retrieve)), s.(id := id))
  }

  /** The rows with every row of identity `row.id` replaced by `row`. */
  function ReplaceRow(rows: seq<SessionRow>, row: SessionRow): (r: seq<SessionRow>)
    ensures |r| == |rows|
    ensures forall i :: 0 <= i < |r| ==> r[i] == (if rows[i].id == row.id then row else rows[i])
  {
    if |rows| == 0 then []
    else [if rows[0].id == row.id then row else rows[0]] + ReplaceRow(rows[1..], row)
  }

  function DropRetrievals(rows: seq<RetrievalRow>, id: int): (r: seq<RetrievalRow>)
    ensures forall k :: 0 <= k < |r| ==> r[k].session != id && r[k] in rows
  {
    if |rows| == 0 then []
    else (if rows[0].session == id then [] else [rows[0]]) + DropRetrievals(rows[1..], id)
  }

  /** `UpdateSession`: a session without identity is created; otherwise its
      row is overwritten and its retrieval rows are deleted and inserted
      afresh.  Inserting retrievals for an identity with no row breaks the
      foreign key, and the failed statement panics. */
  function UpdateSession(t: Tables, s: Session): (r: Result<Saved>)
    ensures s.id == 0 ==> r == Ok(CreateSession(t, s))
    ensures r.Fatal? <==> s.id != 0 && !HasRow(t.sessions, s.id) && |s.retrieve| > 0
    ensures s.id != 0 && r.Ok? ==> r.value.session == s
    ensures s.id != 0 && r.Ok? ==> r.value.tables.sessions == ReplaceRow(t.sessions, EncodeRow(s, s.id))
  {
    if s.id == 0 then Ok(CreateSession(t, s))
    else if !HasRow(t.sessions, s.id) && |s.retrieve| > 0 then
      Fatal("FOREIGN KEY constraint failed")
    else
      var sessions := ReplaceRow(t.sessions, EncodeRow(s, s.id));
      var retrievals := DropRetrievals(t.retrievals, s.id) + EncodeRetrievals(s.id, s.retrieve);
      Ok(Saved(Tables(sessions, retrievals), s))
  }

  function DropRow(rows: seq<SessionRow>, id: int): (r: seq<SessionRow>)
    ensures forall i :: 0 <= i < |r| ==> r[i].id != id && r[i] in rows
  {
    if |rows| == 0 then []
    else (if rows[0].id == id then [] else [rows[0]]) + DropRow(rows[1..], id)
  }

  /** `DeleteSession`: removes the row; its retrievals go with it (the
      foreign key cascades). */
  function DeleteSession(t: Tables, s: Session): (r: Tables)
    ensures !HasRow(r.sessions, s.id)
    ensures RetrievalsOf(r.retrievals, s.id) == []
    ensures forall i :: 0 <= i < |r.sessions| ==> r.sessions[i] in t.sessions
  {
    var r := Tables(DropRow(t.sessions, s.id), DropRetrievals(t.retrievals, s.id));
    NoRetrievalsAfterDrop(t.retrievals, s.id);
    r
  }

  // ---- Lemmas ------------------------------------------------------------------

  lemma {:induction false} NoRetrievalsAfterDrop(rows: seq<RetrievalRow>, id: int)
    ensures RetrievalsOf(DropRetrievals(rows, id), id) == []
    decreases |rows|
  {
    if |rows| > 0 {
      NoRetrievalsAfterDrop(rows[1..], id);
      RetrievalsOfConcat((if rows[0].session == id then [] else [rows[0]]), DropRetrievals(rows[1..], id), id);
    }
  }

  lemma {:induction false} RetrievalsOfConcat(a: seq<RetrievalRow>, b: seq<RetrievalRow>, id: int)
    ensures RetrievalsOf(a + b, id) == RetrievalsOf(a, id) + RetrievalsOf(b, id)
    decreases |a|
  {
    if |a| > 0 {
      assert (a + b)[0] == a[0];
      assert (a + b)[1..] == a[1..] + b;
      RetrievalsOfConcat(a[1..], b, id);
    } else {
      assert a + b == b;
    }
  }

  lemma {:induction false} RetrievalsOfEncoded(id: int, rs: seq<Retrieval>)
    ensures RetrievalsOf(EncodeRetrievals(id, rs), id) == rs
    decreases |rs|
  {
    if |rs| > 0 {
      var rows := EncodeRetrievals(id, rs);
      assert rows[1..] == EncodeRetrievals(id, rs[1..]);
      RetrievalsOfEncoded(id, rs[1..]);
      assert RetrievalsOf(rows, id) == [Retrieval(rows[0].bbs, rows[0].lastRun)] + rs[1..];
    }
  }

  /** After any successful write of a session, its stored retrievals are
      exactly the session's retrievals, in order. */
  lemma StoredRetrievals(t: Tables, s: Session)
    requires Valid(t)
    requires UpdateSession(t, s).Ok?
    ensures var r := UpdateSession(t, s).value;
      RetrievalsOf(r.tables.retrievals, r.session.id) == s.retrieve
  {
    var r := UpdateSession(t, s).value;
    var id := r.session.id;
    RetrievalsOfEncoded(id, s.retrieve);
    if s.id == 0 {
      RetrievalsOfConcat(t.retrievals, EncodeRetrievals(id, s.retrieve), id);
      NoRetrievalsFor(t.retrievals, id, t.sessions);
    } else {
      RetrievalsOfConcat(DropRetrievals(t.retrievals, id), EncodeRetrievals(id, s.retrieve), id);
      NoRetrievalsAfterDrop(t.retrievals, id);
    }
  }

  /** A fresh identity has no retrieval rows when every retrieval row
      belongs to a stored session. */
  lemma {:induction false} NoRetrievalsFor(rows: seq<RetrievalRow>, id: int, sessions: seq<SessionRow>)
    requires !HasRow(sessions, id)
    requires forall k :: 0 <= k < |rows| ==> HasRow(sessions, rows[k].session)
    ensures RetrievalsOf(rows, id) == []
    decreases |rows|
  {
    if |rows| > 0 {
      NoRetrievalsFor(rows[1..], id, sessions);
    }
  }

  lemma {:induction false} FindRowAppended(rows: seq<SessionRow>, row: SessionRow)
    requires !HasRow(rows, row.id)
    ensures FindRow(rows + [row], row.id) == Some(row)
    decreases |rows|
  {
    if |rows| == 0 {
      assert rows + [row] == [row];
    } else {
      assert (rows + [row])[1..] == rows[1..] + [row];
      assert forall i :: 0 <= i < |rows[1..]| ==> rows[1..][i].id == rows[i + 1].id;
      FindRowAppended(rows[1..], row);
    }
  }

  lemma {:induction false} FindRowReplaced(rows: seq<SessionRow>, row: SessionRow)
    requires HasRow(rows, row.id)
    ensures FindRow(ReplaceRow(rows, row), row.id) == Some(row)
    decreases |rows|
  {
    if rows[0].id != row.id {
      assert HasRow(rows[1..], row.id) by {
        var i :| 0 <= i < |rows| && rows[i].id == row.id;
        assert rows[1..][i - 1].id == row.id;
      }
      FindRowReplaced(rows[1..], row);
    }
  }

  lemma HasRowReplaced(rows: seq<SessionRow>, row: SessionRow, id: int)
    ensures HasRow(ReplaceRow(rows, row), id) <==> HasRow(rows, id)
  {
    var r := ReplaceRow(rows, row);
    if HasRow(rows, id) {
      var i :| 0 <= i < |rows| && rows[i].id == id;
      assert r[i].id == id;
    }
    if HasRow(r, id) {
      var i :| 0 <= i < |r| && r[i].id == id;
      assert rows[i].id == id;
    }
  }

  lemma {:induction false} DropRetrievalsConcat(a: seq<RetrievalRow>, b: seq<RetrievalRow>, id: int)
    ensures DropRetrievals(a + b, id) == DropRetrievals(a, id) + DropRetrievals(b, id)
    decreases |a|
  {
    if |a| > 0 {
      var head: seq<RetrievalRow> := if a[0].session == id then [] else [a[0]];
      assert (a + b)[0] == a[0];
      assert (a + b)[1..] == a[1..] + b;
      DropRetrievalsConcat(a[1..], b, id);
      assert DropRetrievals(a + b, id) == head + DropRetrievals(a[1..] + b, id);
      assert DropRetrievals(a, id) == head + DropRetrievals(a[1..], id);
    } else {
      assert a + b == b;
    }
  }

  /** Dropping keeps rows of other sessions and removes rows of `id`. */
  lemma {:induction false} DropRetrievalsWhere(rows: seq<RetrievalRow>, id: int)
    ensures (forall k :: 0 <= k < |rows| ==> rows[k].session != id) ==> DropRetrievals(rows, id) == rows
    ensures (forall k :: 0 <= k < |rows| ==> rows[k].session == id) ==> DropRetrievals(rows, id) == []
    decreases |rows|
  {
    if |rows| > 0 {
      var rest := rows[1..];
      DropRetrievalsWhere(rest, id);
      assert DropRetrievals(rows, id) == (if rows[0].session == id then [] else [rows[0]]) + DropRetrievals(rest, id);
      if forall k :: 0 <= k < |rows| ==> rows[k].session != id {
        assert forall k :: 0 <= k < |rest| ==> rest[k] == rows[k + 1];
        assert rows == [rows[0]] + rest;
      }
      if forall k :: 0 <= k < |rows| ==> rows[k].session == id {
        assert forall k :: 0 <= k < |rest| ==> rest[k] == rows[k + 1];
      }
    }
  }

  lemma {:induction false} RetrievalsOfDropOther(rows: seq<RetrievalRow>, other: int, id: int)
    requires other != id
    ensures RetrievalsOf(DropRetrievals(rows, other), id) == RetrievalsOf(rows, id)
    decreases |rows|
  {
    if |rows| > 0 {
      RetrievalsOfDropOther(rows[1..], other, id);
      RetrievalsOfConcat((if rows[0].session == other then [] else [rows[0]]), DropRetrievals(rows[1..], other), id);
    }
  }

  lemma {:induction false} RetrievalsOfEncodedOther(other: int, rs: seq<Retrieval>, id: int)
    requires other != id
    ensures RetrievalsOf(EncodeRetrievals(other, rs), id) == []
    decreases |rs|
  {
    if |rs| > 0 {
      RetrievalsOfEncodedOther(other, rs[1..], id);
    }
  }

  lemma {:induction false} FindRowReplacedOther(rows: seq<SessionRow>, row: SessionRow, id: int)
    requires row.id != id
    ensures FindRow(ReplaceRow(rows, row), id) == FindRow(rows, id)
    decreases |rows|
  {
    if |rows| > 0 {
      FindRowReplacedOther(rows[1..], row, id);
      assert ReplaceRow(rows, row)[1..] == ReplaceRow(rows[1..], row);
    }
  }

  /** Saving a stored session twice leaves the tables as saving only the
      second version would: the last write wins. */
  lemma SaveTwice(t: Tables, a: Session, b: Session)
    requires a.id == b.id && a.id != 0
    requires UpdateSession(t, a).Ok?
    ensures UpdateSession(UpdateSession(t, a).value.tables, b) == UpdateSession(t, b)
  {
    var id := a.id;
    var t1 := UpdateSession(t, a).value.tables;
    HasRowReplaced(t.sessions, EncodeRow(a, id), id);
    assert ReplaceRow(t1.sessions, EncodeRow(b, id)) == ReplaceRow(t.sessions, EncodeRow(b, id));
    var kept := DropRetrievals(t.retrievals, id);
    DropRetrievalsConcat(kept, EncodeRetrievals(id, a.retrieve), id);
    DropRetrievalsWhere(EncodeRetrievals(id, a.retrieve), id);
    DropRetrievalsWhere(kept, id);
    assert DropRetrievals(t1.retrievals, id) == kept;
  }

  /** A successful save keeps every stored identity. */
  lemma SaveKeepsIds(t: Tables, s: Session, id: int)
    requires UpdateSession(t, s).Ok? && HasRow(t.sessions, id)
    ensures HasRow(UpdateSession(t, s).value.tables.sessions, id)
  {
    if s.id == 0 {
      var i :| 0 <= i < |t.sessions| && t.sessions[i].id == id;
      assert UpdateSession(t, s).value.tables.sessions[i].id == id;
    } else {
      HasRowReplaced(t.sessions, EncodeRow(s, s.id), id);
    }
  }

  /** Saving one stored session does not change what any other identity
      reads back as. */
  lemma SaveLeavesOthers(t: Tables, s: Session, id: int)
    requires s.id != 0 && s.id != id
    requires UpdateSession(t, s).Ok?
    ensures GetSession(UpdateSession(t, s).value.tables, id) == GetSession(t, id)
  {
    var u := UpdateSession(t, s).value.tables;
    FindRowReplacedOther(t.sessions, EncodeRow(s, s.id), id);
    RetrievalsOfConcat(DropRetrievals(t.retrievals, s.id), EncodeRetrievals(s.id, s.retrieve), id);
    RetrievalsOfDropOther(t.retrievals, s.id, id);
    RetrievalsOfEncodedOther(s.id, s.retrieve, id);
    assert RetrievalsOf(u.retrievals, id) == RetrievalsOf(t.retrievals, id);
  }

  /** Writing a session and reading it back by the identity the write
      returned gives the session as the database keeps it: start and end at
      whole seconds, list fields through the ';' codec, flags and retrievals
      unchanged.  (An update of an identity with no row writes nothing.) */
  lemma ReadAfterWrite(t: Tables, s: Session)
    requires Valid(t)
    requires s.id == 0 || HasRow(t.sessions, s.id)
    requires UpdateSession(t, s).Ok?
    ensures var r := UpdateSession(t, s).value;
      GetSession(r.tables, r.session.id) == Some(Reloaded(r.session))
  {
    var r := UpdateSession(t, s).value;
    var id := r.session.id;
    var row := EncodeRow(s, id);
    if s.id == 0 {
      FindRowAppended(t.sessions, row);
    } else {
      FindRowReplaced(t.sessions, row);
    }
    StoredRetrievals(t, s);
  }

  /** A session whose lists are storable reloads as itself, except that start
      and end lose their sub-second digits. */
  lemma ReloadedStorable(s: Session)
    requires StorableLists(s)
    ensures Reloaded(s) == s.(start := Stored(s.start, WholeSeconds), end := Stored(s.end, WholeSeconds))
  {
    SplitJoin(s.reportToText);
    SplitJoin(s.reportToHtml);
    SplitJoin(s.toBbses);
    SplitJoin(s.downBbses);
    SplitJoin(s.messageTypes);
  }

  /** Encoding a session with storable lists into a row and decoding that row
      gives the session back under the row's identity, with start and end
      at whole seconds and the retrievals the table holds for that
      identity. */
  lemma RowRoundTrip(t: Tables, s: Session, id: int)
    requires StorableLists(s)
    ensures DecodeRow(t, EncodeRow(s, id)) ==
      s.(id := id, start := Stored(s.start, WholeSeconds), end := Stored(s.end, WholeSeconds),
         retrieve := RetrievalsOf(t.retrievals, id))
  {
    SplitJoin(s.reportToText);
    SplitJoin(s.reportToHtml);
    SplitJoin(s.toBbses);
    SplitJoin(s.downBbses);
    SplitJoin(s.messageTypes);
  }

  /** Creating a session (an update without identity) adds exactly one row,
      under a fresh identity, and reading that identity back gives the
      session. */
  lemma Materialize(t: Tables, s: Session)
    requires Valid(t)
    requires s.id == 0
    requires StorableLists(s)
    ensures var r := UpdateSession(t, s);
      && r.Ok?
      && |r.value.tables.sessions| == |t.sessions| + 1
      && !HasRow(t.sessions, r.value.session.id)
      && GetSession(r.value.tables, r.value.session.id)
         == Some(s.(id := r.value.session.id, start := Stored(s.start, WholeSeconds), end := Stored(s.end, WholeSeconds)))
  {
    ReadAfterWrite(t, s);
    ReloadedStorable(UpdateSession(t, s).value.session);
  }

  /** Every successful write keeps the tables valid. */
  lemma UpdateKeepsValid(t: Tables, s: Session)
    requires Valid(t)
    requires UpdateSession(t, s).Ok?
    ensures Valid(UpdateSession(t, s).value.tables)
  {
    if s.id == 0 {
      CreateKeepsValid(t, s);
    } else {
      ReplaceKeepsValid(t, s);
    }
  }

  lemma CreateKeepsValid(t: Tables, s: Session)
    requires Valid(t) && s.id == 0
    ensures Valid(CreateSession(t, s).tables)
  {
    var r := CreateSession(t, s);
    var id := r.session.id;
    var u := r.tables;
    assert forall i :: 0 <= i < |t.sessions| ==> t.sessions[i].id != id;
    forall k | 0 <= k < |u.retrievals|
      ensures HasRow(u.sessions, u.retrievals[k].session)
    {
      if k < |t.retrievals| {
        var i :| 0 <= i < |t.sessions| && t.sessions[i].id == t.retrievals[k].session;
        assert u.sessions[i] == t.sessions[i];
      } else {
        assert u.retrievals[k] == EncodeRetrievals(id, s.retrieve)[k - |t.retrievals|];
        assert u.sessions[|t.sessions|].id == id;
      }
    }
  }

  lemma ReplaceKeepsValid(t: Tables, s: Session)
    requires Valid(t) && s.id != 0
    requires UpdateSession(t, s).Ok?
    ensures Valid(UpdateSession(t, s).value.tables)
  {
    var id := s.id;
    var row := EncodeRow(s, id);
    var dropped: seq<RetrievalRow> := DropRetrievals(t.retrievals, id);
    var added: seq<RetrievalRow> := EncodeRetrievals(id, s.retrieve);
    assert UpdateSession(t, s).value.tables == Tables(ReplaceRow(t.sessions, row), dropped + added);
    assert |added| > 0 ==> HasRow(t.sessions, id);
    forall k | 0 <= k < |dropped + added|
      ensures HasRow(t.sessions, (dropped + added)[k].session)
    {
      if k < |dropped| {
        assert dropped[k] in t.retrievals;
      } else {
        assert (dropped + added)[k] == added[k - |dropped|];
      }
    }
    ReplacedRowsValid(t, row, dropped + added);
  }

  /** Overwriting a row with one of the same identity keeps the tables valid
      for any retrieval rows whose sessions were already stored. */
  lemma ReplacedRowsValid(t: Tables, row: SessionRow, retrievals: seq<RetrievalRow>)
    requires Valid(t)
    requires forall k :: 0 <= k < |retrievals| ==> HasRow(t.sessions, retrievals[k].session)
    ensures Valid(Tables(ReplaceRow(t.sessions, row), retrievals))
  {
    var sessions := ReplaceRow(t.sessions, row);
    forall k | 0 <= k < |retrievals|
      ensures HasRow(sessions, retrievals[k].session)
    {
      HasRowReplaced(t.sessions, row, retrievals[k].session);
    }
  }

  lemma {:induction false} DropRowKeeps(rows: seq<SessionRow>, id: int, k: nat)
    requires k < |rows| && rows[k].id != id
    ensures rows[k] in DropRow(rows, id)
    decreases k
  {
    if k > 0 {
      DropRowKeeps(rows[1..], id, k - 1);
    }
  }

  /** Deleting a session removes its row and nothing else. */
  lemma DeleteRemovesOnlyThatRow(t: Tables, s: Session)
    ensures forall row :: row in DeleteSession(t, s).sessions <==> row in t.sessions && row.id != s.id
  {
    forall row | row in t.sessions && row.id != s.id
      ensures row in DeleteSession(t, s).sessions
    {
      var k :| 0 <= k < |t.sessions| && t.sessions[k] == row;
      DropRowKeeps(t.sessions, s.id, k);
    }
  }

  /** Deleting a session keeps the tables valid. */
  lemma DeleteKeepsValid(t: Tables, s: Session)
    requires Valid(t)
    ensures Valid(DeleteSession(t, s))
  {
    var u := DeleteSession(t, s);
    var kept := DropRow(t.sessions, s.id);
    DropRowOrder(t.sessions, s.id);
    forall k | 0 <= k < |u.retrievals|
      ensures HasRow(kept, u.retrievals[k].session)
    {
      var rr := u.retrievals[k];
      assert rr in t.retrievals && rr.session != s.id;
      KeptRetrievalHasRow(t, s.id, rr);
    }
  }

  /** A retrieval of another session still has its session row once the
      rows of `id` are dropped. */
  lemma KeptRetrievalHasRow(t: Tables, id: int, rr: RetrievalRow)
    requires Valid(t)
    requires rr in t.retrievals && rr.session != id
    ensures HasRow(DropRow(t.sessions, id), rr.session)
  {
    var kept := DropRow(t.sessions, id);
    var m :| 0 <= m < |t.retrievals| && t.retrievals[m] == rr;
    assert HasRow(t.sessions, rr.session);
    var i :| 0 <= i < |t.sessions| && t.sessions[i].id == rr.session;
    DropRowKeeps(t.sessions, id, i);
    var j :| 0 <= j < |kept| && kept[j] == t.sessions[i];
    assert kept[j].id == rr.session;
  }

  /** Putting a row of a new identity in front keeps identities distinct. */
  lemma ConsDistinct(x: SessionRow, rest: seq<SessionRow>)
    requires forall i, j :: 0 <= i < j < |rest| ==> rest[i].id != rest[j].id
    requires forall j :: 0 <= j < |rest| ==> rest[j].id != x.id
    ensures forall i, j :: 0 <= i < j < |[x] + rest| ==> ([x] + rest)[i].id != ([x] + rest)[j].id
  {
    var r := [x] + rest;
    forall i, j | 0 <= i < j < |r|
      ensures r[i].id != r[j].id
    {
      if i == 0 {
        assert r[j] == rest[j - 1];
      } else {
        assert r[i] == rest[i - 1] && r[j] == rest[j - 1];
      }
    }
  }

  lemma {:induction false} DropRowOrder(rows: seq<SessionRow>, id: int)
    requires forall i, j :: 0 <= i < j < |rows| ==> rows[i].id != rows[j].id
    ensures forall i, j :: 0 <= i < j < |DropRow(rows, id)| ==> DropRow(rows, id)[i].id != DropRow(rows, id)[j].id
    decreases |rows|
  {
    if |rows| > 0 {
      var rest := DropRow(rows[1..], id);
      DropRowOrder(rows[1..], id);
      if rows[0].id == id {
        assert DropRow(rows, id) == rest;
      } else {
        assert DropRow(rows, id) == [rows[0]] + rest;
        forall j | 0 <= j < |rest|
          ensures rest[j].id != rows[0].id
        {
          var m :| 0 <= m < |rows[1..]| && rows[1..][m] == rest[j];
          assert rows[m + 1] == rest[j];
        }
        ConsDistinct(rows[0], rest);
      }
    }
  }
}

=== FILE: statement.dfy ===
/** The statement cursor of db/st.go.

    A statement keeps one counter, `column`, that serves two purposes: each
    `Bind*` call increments it and then binds the parameter at that (1-based)
    position, and each `Column*` call reads the (0-based) column at it and then
    increments it.  `Step` and `Reset` put it back to 0.  The SQLite library
    underneath is abstracted to a map of bound parameters and the current row
    of values. */
module Statement {
  import opened Clock
  import opened Outcomes

  newtype Byte = b: int | 0 <= b < 256

  /** An SQLite value.  `Stamp(t)` is non-empty text holding the timestamp `t`
      in one of the program's layouts; `Text` is any other text, so non-empty
      `Text` never parses as a timestamp. */
  datatype SqlValue =
    | Null
    | Integer(i: int)
    | Text(s: string)
    | Blob(bytes: seq<Byte>)
    | Stamp(t: Time)

  datatype St = St(params: map<nat, SqlValue>, row: seq<SqlValue>, column: nat)

  /** The result of reading one column: the value and the advanced cursor. */
  datatype Read<+T> = Read(value: T, next: St)

  /** A statement freshly prepared by `db.SQL`. */
  const Prepared: St := St(map[], [], 0)

  // ---- Binding ----------------------------------------------------------

  /** Binds the next parameter to `v`. */
  function Bind(st: St, v: SqlValue): (r: St)
    ensures r.column == st.column + 1
    ensures r.params.Keys == st.params.Keys + {r.column}
    ensures r.params[r.column] == v
    ensures forall k :: k in st.params && k != r.column ==> r.params[k] == st.params[k]
    ensures r.row == st.row
  {
    var c := st.column + 1;
    st.(params := st.params[c := v], column := c)
  }

  /** The value bound by the last `Bind*` call. */
  function LastBound(st: St): SqlValue {
    if st.column in st.params then st.params[st.column] else Null
  }

  function BindNull(st: St): (r: St)
    ensures r.column == st.column + 1 && LastBound(r) == Null
  {
    Bind(st, Null)
  }

  function BindInt(st: St, v: int): (r: St)
    ensures r.column == st.column + 1 && LastBound(r) == Integer(v)
  {
    Bind(st, Integer(v))
  }

  /** Binds NULL for 0 and the integer otherwise. */
  function BindNullInt(st: St, v: int): (r: St)
    ensures r.column == st.column + 1
    ensures LastBound(r) == Null <==> v == 0
    ensures v != 0 ==> LastBound(r) == Integer(v)
  {
    if v == 0 then BindNull(st) else BindInt(st, v)
  }

  function BindText(st: St, v: string): (r: St)
    ensures r.column == st.column + 1 && LastBound(r) == Text(v)
  {
    Bind(st, Text(v))
  }

  /** Binds NULL for "" and the text otherwise. */
  function BindNullText(st: St, v: string): (r: St)
    ensures r.column == st.column + 1
    ensures LastBound(r) == Null <==> v == ""
    ensures v != "" ==> LastBound(r) == Text(v)
  {
    if v == "" then BindNull(st) else BindText(st, v)
  }

  /** SQLite has no boolean class: a bool is bound as the integer 1 or 0. */
  function BindBool(st: St, v: bool): (r: St)
    ensures r.column == st.column + 1
    ensures LastBound(r) == Integer(if v then 1 else 0)
  {
    Bind(st, Integer(if v then 1 else 0))
  }

  /** Binds NULL for false and 1 for true. */
  function BindNullBool(st: St, v: bool): (r: St)
    ensures r.column == st.column + 1
    ensures LastBound(r) == Null <==> !v
  {
    if !v then BindNull(st) else BindBool(st, v)
  }

  function BindBlob(st: St, v: seq<Byte>): (r: St)
    ensures r.column == st.column + 1 && LastBound(r) == Blob(v)
  {
    Bind(st, Blob(v))
  }

  /** Binds NULL for a nil slice only; an empty non-nil slice is a blob.
      `None` is Go's nil slice. */
  function BindNullBlob(st: St, v: Option<seq<Byte>>): (r: St)
    ensures r.column == st.column + 1
    ensures LastBound(r) == Null <==> v == None
    ensures v.Some? ==> LastBound(r) == Blob(v.value)
  {
    if v == None then BindNull(st) else BindBlob(st, v.value)
  }

  /** Binds the zero time as "" and any other time as its text in the layout,
      which keeps only the layout's precision. */
  function BindTime(st: St, v: Time, p: Precision): (r: St)
    ensures r.column == st.column + 1
    ensures v == Zero ==> LastBound(r) == Text("")
    ensures v != Zero ==> LastBound(r) == Stamp(Stored(v, p))
  {
    Bind(st, if v == Zero then Text("") else Stamp(Stored(v, p)))
  }

  /** Binds NULL for the zero time and the time's text otherwise. */
  function BindNullTime(st: St, v: Time, p: Precision): (r: St)
    ensures r.column == st.column + 1
    ensures LastBound(r) == Null <==> v == Zero
    ensures v != Zero ==> LastBound(r) == Stamp(Stored(v, p))
  {
    if v == Zero then BindNull(st) else BindTime(st, v, p)
  }

  // ---- Stepping ---------------------------------------------------------

  /** Moves to the next result row, `next` being what SQLite answers; reports
      whether there was one. */
  function Step(st: St, next: Option<seq<SqlValue>>): (r: Read<bool>)
    ensures r.next.column == 0
    ensures r.value <==> next.Some?
    ensures r.next.params == st.params
  {
    match next
    case Some(row) => Read(true, st.(row := row, column := 0))
    case None => Read(false, st.(row := [], column := 0))
  }

  /** Makes the statement ready to run again; bound parameters are kept. */
  function Reset(st: St): (r: St)
    ensures r.column == 0 && r.params == st.params
  {
    st.(column := 0)
  }

  // ---- Reading columns ----------------------------------------------------

  /** The value of the next column; a column past the end of the row reads as
      NULL. */
  function Current(st: St): SqlValue {
    if st.column < |st.row| then st.row[st.column] else Null
  }

  /** Whether the next column is NULL; it does not consume the column. */
  predicate ColumnIsNull(st: St) {
    Current(st) == Null
  }

  function Advance(st: St): (r: St)
    ensures r.column == st.column + 1
  {
    st.(column := st.column + 1)
  }

  /** Reads an integer column; NULL reads as 0. */
  function ColumnInt(st: St): (r: Read<int>)
    ensures r.next.column == st.column + 1
    ensures ColumnIsNull(st) ==> r.value == 0
    ensures Current(st).Integer? ==> r.value == Current(st).i
  {
    var v := if Current(st).Integer? then Current(st).i else 0;
    Read(v, Advance(st))
  }

  /** Reads a text column; NULL reads as "". */
  function ColumnText(st: St): (r: Read<string>)
    ensures r.next.column == st.column + 1
    ensures ColumnIsNull(st) ==> r.value == ""
    ensures Current(st).Text? ==> r.value == Current(st).s
  {
    var v := if Current(st).Text? then Current(st).s else "";
    Read(v, Advance(st))
  }

  /** Reads a boolean column (an integer, true when non-zero); NULL reads as
      false. */
  function ColumnBool(st: St): (r: Read<bool>)
    ensures r.next.column == st.column + 1
    ensures ColumnIsNull(st) ==> !r.value
    ensures Current(st).Integer? ==> (r.value <==> Current(st).i != 0)
  {
    var v := Current(st).Integer? && Current(st).i != 0;
    Read(v, Advance(st))
  }

  /** Reads a blob column; NULL reads as the nil slice. */
  function ColumnBlob(st: St): (r: Read<Option<seq<Byte>>>)
    ensures r.next.column == st.column + 1
    ensures r.value == None <==> ColumnIsNull(st)
    ensures Current(st).Blob? ==> r.value == Some(Current(st).bytes)
  {
    var v := if ColumnIsNull(st) then None
             else if Current(st).Blob? then Some(Current(st).bytes)
             else Some([]);
    Read(v, Advance(st))
  }

  /** Reads a timestamp column.  A non-NULL column is read as text and
      parsed: NULL, "" and an empty blob read as the zero time, a timestamp
      reads as itself, and any other text, integer or blob cannot be parsed,
      which panics. */
  function ColumnTime(st: St): (r: Result<Read<Time>>)
    ensures r.Ok? ==> r.value.next.column == st.column + 1
    ensures ColumnIsNull(st) || Current(st) == Text("") || Current(st) == Blob([]) ==>
      r == Ok(Read(Zero, Advance(st)))
    ensures Current(st).Stamp? ==> r == Ok(Read(Current(st).t, Advance(st)))
    ensures r.Fatal? <==>
      (Current(st).Text? && Current(st).s != "") || Current(st).Integer? || (Current(st).Blob? && Current(st).bytes != [])
  {
    match Current(st)
    case Null => Ok(Read(Zero, Advance(st)))
    case Stamp(t) => Ok(Read(t, Advance(st)))
    case Text(s) =>
      if s == "" then Ok(Read(Zero, Advance(st)))
      else Fatal("value in database column cannot be parsed as timestamp")
    case Blob(b) =>
      if b == [] then Ok(Read(Zero, Advance(st)))
      else Fatal("value in database column cannot be parsed as timestamp")
    case Integer(_) => Fatal("value in database column cannot be parsed as timestamp")
  }

  // ---- Round trips --------------------------------------------------------

  /** A row handed back by SQLite that holds the value last bound to `st`. */
  function Echo(st: St): St {
    St(map[], [LastBound(st)], 0)
  }

  /** A nullable integer reads back as itself: 0 travels as NULL and comes
      back as 0. */
  lemma IntRoundTrip(st: St, v: int)
    ensures ColumnInt(Echo(BindNullInt(st, v))).value == v
    ensures ColumnInt(Echo(BindInt(st, v))).value == v
  {
  }

  /** A nullable text reads back as itself: "" travels as NULL. */
  lemma TextRoundTrip(st: St, v: string)
    ensures ColumnText(Echo(BindNullText(st, v))).value == v
    ensures ColumnText(Echo(BindText(st, v))).value == v
  {
  }

  lemma BoolRoundTrip(st: St, v: bool)
    ensures ColumnBool(Echo(BindNullBool(st, v))).value == v
    ensures ColumnBool(Echo(BindBool(st, v))).value == v
  {
  }

  /** A blob reads back as itself, nil as nil. */
  lemma BlobRoundTrip(st: St, v: Option<seq<Byte>>)
    ensures ColumnBlob(Echo(BindNullBlob(st, v))).value == v
  {
  }

  /** A timestamp reads back at the precision of its layout; the zero time
      reads back as the zero time whether it travelled as "" or as NULL. */
  lemma TimeRoundTrip(st: St, v: Time, p: Precision)
    ensures ColumnTime(Echo(BindTime(st, v, p))).Ok?
    ensures ColumnTime(Echo(BindTime(st, v, p))).value.value == Stored(v, p)
    ensures ColumnTime(Echo(BindNullTime(st, v, p))).value.value == Stored(v, p)
  {
  }
}

=== FILE: tx.dfy ===
/** The transaction retry loop (db/tx.go:17-52).

    One attempt begins a transaction and, if the begin succeeded, runs the
    body once.  `Transaction` repeats attempts, sleeping a doubling back-off
    between them, until one runs; it gives up with a panic once more than 30
    seconds have passed since it started.  The database's begin outcomes and
    the wall clock are inputs: `begins(k)` is what the k-th begin reports and
    `since(k)` is the time elapsed at the check after the k-th attempt. */
module Tx {
  import opened Clock
  import opened Outcomes

  const InitialDelay: Duration := 8 * Millisecond
  const MaxDelay: Duration := 1024 * Millisecond
  const MaxWait: Duration := 30 * Second

  /** What beginning a transaction reports. */
  datatype BeginResult = Began | Busy | Locked | BeginFailed(code: int)

  /** The result of one `attemptTransaction`: whether the body ran and the
      error it hands back. */
  datatype Attempt = Attempt(ran: bool, err: Option<string>, bodyRan: bool)

  /** Writers begin with `sqlitex.ExclusiveTransaction`, which can fail;
      readers begin with `sqlitex.Transaction` (a deferred `BEGIN`), which
      reports no error, so a read attempt always runs. */
  function BeginOutcome(write: bool, begin: BeginResult): (b: BeginResult)
    ensures !write ==> b == Began
  {
    if write then begin else Began
  }

  /** `attemptTransaction`: busy or locked begins are retriable and report no
      error; other begin failures report their error but are still not
      "ran"; a successful begin runs the body once and returns its error. */
  function AttemptTransaction(write: bool, begin: BeginResult, body: Option<string>): (a: Attempt)
    ensures a.ran <==> (!write || begin == Began)
    ensures a.bodyRan <==> a.ran
    ensures a.ran ==> a.err == body
    ensures !a.ran && begin.BeginFailed? ==> a.err.Some?
    ensures write && (begin.Busy? || begin.Locked?) ==> a.err == None
  {
    match BeginOutcome(write, begin)
    case Busy => Attempt(false, None, false)
    case Locked => Attempt(false, None, false)
    case BeginFailed(code) => Attempt(false, Some("begin failed"), false)
    case Began => Attempt(true, body, true)
  }

  function Pow2(k: nat): (p: nat)
    ensures p >= 1
  {
    if k == 0 then 1 else 2 * Pow2(k - 1)
  }

  /** The sleep before attempt k+1: 8 ms at first, doubled after each
      sleep while still below 1024 ms. */
  function Delay(k: nat): Duration
    decreases k
  {
    if k == 0 then InitialDelay
    else if Delay(k - 1) < MaxDelay then 2 * Delay(k - 1)
    else Delay(k - 1)
  }

  /** Total time slept before attempt k. */
  function Slept(k: nat): Duration {
    if k == 0 then 0 else Slept(k - 1) + Delay(k - 1)
  }

  /** The delay is 8 ms doubled k times until it reaches 1024 ms after seven
      doublings, and 1024 ms from then on. */
  lemma {:induction false} DelayClosedForm(k: nat)
    ensures Delay(k) == if k >= 7 then MaxDelay else InitialDelay * Pow2(k)
    decreases k
  {
    assert InitialDelay == 8_000_000 && MaxDelay == 1_024_000_000;
    if k > 0 {
      DelayClosedForm(k - 1);
      if k <= 7 {
        assert Pow2(k) == 2 * Pow2(k - 1);
        if k < 7 {
          Pow2Monotone(k - 1, 5);
          assert Pow2(5) == 32;
        } else {
          assert Pow2(6) == 64;
        }
      }
    }
  }

  /** The delay lies between 8 ms and 1024 ms, is a power-of-two multiple of
      8 ms, and never shrinks. */
  lemma DelayBounds(k: nat)
    ensures InitialDelay <= Delay(k) <= MaxDelay
    ensures Delay(k) <= Delay(k + 1)
    ensures exists e: nat :: e <= 7 && Delay(k) == InitialDelay * Pow2(e)
  {
    DelayClosedForm(k);
    Pow2Monotone(if k < 7 then k else 7, 7);
    assert Pow2(7) == 128;
    if k < 7 {
      assert Delay(k) == InitialDelay * Pow2(k);
    } else {
      assert Delay(k) == InitialDelay * Pow2(7);
    }
  }

  lemma {:induction false} Pow2Monotone(a: nat, b: nat)
    requires a <= b
    ensures Pow2(a) <= Pow2(b)
    decreases b
  {
    if a < b {
      Pow2Monotone(a, b - 1);
    }
  }

  /** During the doubling phase the total sleep is 8 ms * (2^k - 1). */
  lemma {:induction false} SleptDoubling(k: nat)
    requires k <= 7
    ensures Slept(k) == InitialDelay * (Pow2(k) - 1)
    decreases k
  {
    if k > 0 {
      SleptDoubling(k - 1);
      DelayClosedForm(k - 1);
      var p := Pow2(k - 1);
      assert Pow2(k) == 2 * p;
      assert InitialDelay == 8_000_000;
      assert Slept(k) == InitialDelay * (p - 1) + InitialDelay * p;
    }
  }

  /** Once the delay is capped, each attempt adds 1024 ms to the 1016 ms
      slept during the doubling phase. */
  lemma {:induction false} SleptCapped(k: nat)
    requires k >= 7
    ensures Slept(k) == 1016 * Millisecond + (k - 7) * MaxDelay
    decreases k
  {
    assert InitialDelay == 8_000_000 && MaxDelay == 1_024_000_000;
    if k == 7 {
      SleptDoubling(7);
      assert Pow2(7) == 128;
    } else {
      SleptCapped(k - 1);
      DelayClosedForm(k - 1);
    }
  }

  /** Closed forms of the total sleep: 8 ms * (2^k - 1) during the doubling
      phase, then 1016 ms plus 1024 ms per further attempt. */
  lemma SleptClosedForm(k: nat)
    ensures k <= 7 ==> Slept(k) == InitialDelay * (Pow2(k) - 1)
    ensures k >= 7 ==> Slept(k) == 1016 * Millisecond + (k - 7) * MaxDelay
  {
    if k <= 7 {
      SleptDoubling(k);
    }
    if k >= 7 {
      SleptCapped(k);
    }
  }

  /** The number of attempts the loop can make before the 30-second limit
      must have been crossed. */
  const MaxAttempts: nat := 37

  lemma SleptPastLimit(k: nat)
    requires k >= MaxAttempts - 1
    ensures Slept(k) > MaxWait
  {
    SleptClosedForm(k);
  }

  /** An attempt that failed within the limit, having slept at least the
      total so far, leaves room for another attempt. */
  lemma NextAttempt(k: nat, elapsed: Duration)
    requires Slept(k) <= elapsed <= MaxWait
    ensures k + 1 < MaxAttempts
  {
    if k + 1 >= MaxAttempts {
      SleptPastLimit(k);
    }
  }

  datatype Outcome = Returned(err: Option<string>) | TooManyRetries

  /** `Transaction`.  Provided the clock has advanced by at least the time
      slept, the loop ends after at most `MaxAttempts` attempts, either
      returning the body's error from the first attempt that ran or
      panicking when an attempt failed after more than 30 seconds. */
  method Transaction(write: bool, begins: nat -> BeginResult, since: nat -> Duration, body: Option<string>)
    returns (outcome: Outcome, attempts: nat, bodyRuns: nat)
    requires forall k: nat {:trigger since(k)} :: since(k) >= Slept(k)
    ensures 1 <= attempts <= MaxAttempts
    ensures forall j: nat :: j < attempts - 1 ==> !AttemptTransaction(write, begins(j), body).ran
    ensures forall j: nat :: j < attempts - 1 ==> since(j) <= MaxWait
    ensures outcome.Returned? <==> AttemptTransaction(write, begins(attempts - 1), body).ran
    ensures outcome.Returned? ==> outcome.err == body && bodyRuns == 1
    ensures outcome.TooManyRetries? ==> since(attempts - 1) > MaxWait && bodyRuns == 0
  {
    var delay := InitialDelay;
    var k: nat := 0;
    bodyRuns := 0;
    while true
      invariant delay == Delay(k)
      invariant k < MaxAttempts
      invariant bodyRuns == 0
      invariant forall j: nat :: j < k ==> !AttemptTransaction(write, begins(j), body).ran
      invariant forall j: nat :: j < k ==> since(j) <= MaxWait
      decreases MaxAttempts - k
    {
      var a := AttemptTransaction(write, begins(k), body);
      if a.bodyRan {
        bodyRuns := bodyRuns + 1;
      }
      if a.ran {
        return Returned(a.err), k + 1, bodyRuns;
      }
      if since(k) > MaxWait {
        return TooManyRetries, k + 1, bodyRuns;
      }
      NextAttempt(k, since(k));
      if delay < MaxDelay {
        delay := delay * 2;
      }
      k := k + 1;
    }
  }
}
